=== FILE: README.md ===
# Multimodal RAG System — a Dafny model of its core

The system is a Streamlit application. Users register and log in with an
e-mailed one-time code (OTP). They upload documents and images, which are
loaded, described, split into chunks and indexed in a Chroma vector store.
They then chat with an assistant that answers from the retrieved chunks.

This project models the logic that sits around the network, database and UI
calls, as pure Dafny functions and small methods over immutable data:

- **Embeddings** (`utils/embeddings.py`):
  - the bounded retry loop of `embed` and its back-off;
  - the positional writes of `_embed_batch`, with the zero-vector fallback;
  - the consecutive batches of `embed_documents`;
  - the one-document-per-image rule of `get_images_desc_batch`.
- **Ingestion** (`utils/rag.py`):
  - the case-sensitive suffix dispatch of `process_input_file`;
  - the image/other split and worker count of `process_input_files_batch`;
  - the contiguous batches of `get_splits`;
  - `get_db`;
  - the staging → load → split → index → commit pipeline of `process_docs`, including every early return.
- **Responder** (`app/pages/chat.py`, `RAGChatbot`):
  - query variants and the relevance threshold with its fallback;
  - de-duplicated multi-query retrieval and source previews;
  - task selection and prompt assembly, the response text and the conversation history;
  - the example questions.
- **Configuration** (`utils/config.py`):
  - worker-count formulas, `update_from_dict` and `get_config_dict`;
  - the three presets, `apply_preset`, `optimize_for_system` and the recommended preset.
- **Authentication** (`utils/authentication.py`):
  - the password and e-mail validators;
  - the OTP table lifecycle for registration and password reset;
  - registration, login and the session table;
  - password reset.
- **Upload page** (`app/pages/app.py`): the allowed extensions, `get_file_extension`, `validate_file_type`, and the valid/invalid split of an upload batch.
- **Session-state defaults** (`utils/session_state.py`).
- **Wizards** (`app/main.py`): the step machines of the registration and password-reset forms.

## How the model treats the outside world

Outside calls become inputs:

- **Endpoints.**
  - An embedding request is an `Attempt` outcome per attempt number.
  - The per-text end result is a function `string -> Option<Vector>`.
  - An image description is `describe(path)`.
  - The generation endpoint is a function from the prompt to an `HttpOutcome`.
- **Libraries.**
  - A LangChain loader is `load(kind, path)`.
  - The text splitter is `split(docs)`.
  - Chroma creation and insertion are success flags.
  - A search is a ranking of hits per query.
  - `None` stands for "raised" throughout.
- **SQLite.** Tables are sequences of records.
  - `ORDER BY created_at DESC LIMIT 1` is the last matching row in table order.
  - `LIKE 'RESET_%'` is spelled out, including its ASCII case-insensitivity.
  - `AUTOINCREMENT` ids are `|users| + 1`.
  - A `UNIQUE` violation rolls the statement back.
- **Clocks, randomness, hashing and SMTP.**
  - The clock is an integer number of seconds (`now`).
  - The OTP code, the session token and the salt are parameters.
  - `hashOf(password, salt)` stands for salted SHA-256.
  - Whether the e-mail was sent is a boolean.
- **Thread pools.**
  - Positional writes are modelled exactly.
  - Where results are appended in completion order, the order is a parameter constrained to be a rearrangement, and the contracts state the multiset.
- **`os.cpu_count()`** is an `Option<nat>` parameter.

Modules:

| module | file | models |
|---|---|---|
| `Wrappers` | `wrappers.dfy` | `Option` and `Result` |
| `Text` | `text.dfy` | `str.lower`/`upper`/`strip`/`split`/`replace`/`split(c)[-1]`, the `in` test, `str(n)` |
| `Seqs` | `seqs.dfy` | batches, filters, de-duplication, flat-map and its permutation invariance |
| `Embeddings` | `embeddings.dfy` | `utils/embeddings.py` |
| `Rag` | `rag.dfy` | `utils/rag.py` |
| `Chat` | `chat.dfy` | `RAGChatbot` and the example questions of `app/pages/chat.py` |
| `Config` | `config.dfy` | `utils/config.py` |
| `Credentials` | `credentials.dfy` | `_validate_password`, `_validate_email` |
| `Auth` | `auth.dfy` | the OTP, user and session tables of `AuthManager` |
| `Upload` | `upload.dfy` | the file-type check of `app/pages/app.py` |
| `SessionState` | `session_state.dfy` | `initialize_session_state` |
| `Wizards` | `wizards.dfy` | the registration and password-reset steps of `app/main.py` |

## Model

| member | source | states |
|---|---|---|
| Embeddings.ZeroVector | utils/embeddings.py:65 | The fallback embedding has 1024 entries, all zero. |
| Embeddings.Embed | utils/embeddings.py:22-44 | `embed` makes at most `MAX_RETRIES` attempts, and every attempt before the last one made failed. A success returns the first successful attempt's vector. A raise happens only after all `MAX_RETRIES` attempts failed, and re-raises the last error. With zero retries the function returns `None`. The waits grow linearly (0.5 s times the attempt number): twice the total waited half-seconds equals (attempts−1)·attempts. |
| Embeddings.EmbedSucceedsIffSomeAttemptDoes | utils/embeddings.py:26-43 | With a positive retry budget, `embed` returns a vector exactly when some attempt within the budget responds. |
| Embeddings.Resolve | utils/embeddings.py:60-65 | A text's slot holds its embedding, or the zero vector when `embed` raised. |
| Embeddings.EmbedBatch | utils/embeddings.py:46-67 | Whatever order the futures complete in, the output has one vector per text and position `i` holds text `i`'s embedding, or the zero vector on failure; no other position is affected. |
| Embeddings.EmbedDocuments | utils/embeddings.py:69-82 | Embedding batch by batch gives, for any batch size, one vector per input text in input order: `output[i]` is the embedding of `texts[i]` or the zero vector. |
| Embeddings.ImageDocument | utils/embeddings.py:132-145 | An image's document carries its path as `file_name` and the description, or `Failed to process image: <path>` when the call raised. |
| Embeddings.ImagesDescBatch | utils/embeddings.py:116-147 | `get_images_desc_batch` yields exactly one document per image path, in completion order. Each holds that path's description or its placeholder. Whatever the completion order, the documents are, as a multiset, exactly one `ImageDocument` per input path. |
| Rag.HandlesExclusive | utils/rag.py:17-30 | No file name matches two loaders, so the order of the suffix tests never matters. |
| Rag.Dispatch | utils/rag.py:14-33 | The if-chain picks loader `l` exactly when the name ends (case-sensitively) with one of `l`'s suffixes; a name matching none gets no loader. |
| Rag.DispatchOfTempPath | utils/rag.py:185 | A file staged at `data/<session>/<name>` is dispatched exactly as `<name>` would be. |
| Rag.ProcessInputFile | utils/rag.py:14-36 | Documents come back only for a supported suffix. An image yields its one description document or nothing. Any other loader yields its documents, or nothing when it raised. |
| Rag.DocWorkers | utils/rag.py:48 | The pool size is the requested count, else the configured one, else `get_optimal_workers("mixed")`, which is at most 16. It is always at least 1. |
| Rag.FileWorkers | utils/rag.py:48-49 | With non-image files present, the pool has between 1 and that many workers and never more than the configured maximum. With none, it has 4. |
| Rag.PartitionPaths | utils/rag.py:44-45 | Every path lands in exactly one of the image and other lists; nothing is lost or duplicated. |
| Rag.ProcessInputFilesBatch | utils/rag.py:38-76 | No paths give no documents. Otherwise all image documents come before the other documents. As a multiset, they are one description-or-placeholder document per image path. The others are, up to completion order, the concatenated per-file documents of the non-image files; a failing file adds nothing. |
| Rag.ImageDocuments | utils/rag.py:52-57 | As a multiset, the image half is exactly one document per image path. Each document holds the image's description, or `Failed to process image: <path>` when the call raised. |
| Rag.OtherDocuments | utils/rag.py:59-74 | Collecting the non-image documents in completion order gives the same multiset as submission order. |
| Rag.SplitBatchSize | utils/rag.py:94-95 | For more than ten documents the batch size is between 1 and the document count, and batches × workers never exceed the count. |
| Rag.SplitWorkers | utils/rag.py:94 | Without an explicit worker count, more than ten documents use between 2 and 4 workers. |
| Rag.GetSplits | utils/rag.py:79-124 | No documents give no chunks. Up to ten documents are split in one call, whose exception escapes. The result is missing exactly when that single call raised. |
| Rag.GetSplitsBatched | utils/rag.py:94-122 | For more than ten documents, batch `k` is the slice `docs[k*b : k*b+b]`, and the batches cover the documents. Each batch contributes the splitter's chunks, or none when the splitter raised on it, and the contributions are concatenated in batch order. |
| Rag.GetSplitsPerDocument | utils/rag.py:97-124 | When the splitter treats documents independently, the batched path gives exactly the sequential chunks in order: the batches cover the documents contiguously and are concatenated in batch order. |
| Rag.GetSplitsFailingSplitter | utils/rag.py:89-122 | A splitter that always raises makes ten or fewer documents fail, but makes more succeed with no chunks, because a failed batch contributes nothing. |
| Rag.GetDb | utils/rag.py:127-143 | A store exists exactly when there are splits and creation did not raise, and it holds exactly the splits. |
| Rag.Commit | utils/rag.py:213-225 | An existing store whose insertion succeeds is extended in place. Otherwise the store is rebuilt from the new splits alone. Any resulting store ends with the new splits. |
| Rag.NewNames | utils/rag.py:183-189 | `new_processed` holds every uploaded name not yet processed, as often as it was uploaded, and no processed name. |
| Rag.StagedPaths | utils/rag.py:185-188 | Each staged name gets the path `data/<session>/<name>`, in upload order. |
| Rag.StageReached | utils/rag.py:181-238 | Each outcome is characterised exactly. Nothing new means no work. New files with no extracted documents mean nothing was loaded. Documents whose splitting yields no chunks mean nothing to index. A failed staging write or a raising splitter means the exception handler ran. Otherwise, with documents and a non-empty list of chunks, the pipeline commits. |
| Rag.ProcessDocs | utils/rag.py:146-246 | A failing `makedirs` raises. Otherwise the outcome is the stage the inputs force. Every early return and the exception handler give back the existing store and an unchanged processed list. A commit appends `new_processed` to the list, even when no store could be built, and ends with the committed store. The staging directory is removed on every path through the `try`. |
| Rag.ProcessDocsIndexesNewFile | utils/rag.py:181-233 | The commit is reachable. One new upload that a document loader reads into documents, with a splitter that yields chunks, is committed and recorded as processed. |
| Rag.ProcessDocsTwice | utils/rag.py:183-193 | After a commit, processing the same uploads again stages nothing and changes neither store nor list. |
| Chat.RetrieveContext | app/pages/chat.py:71-95 | No store, or a search that raises, gives no context. Otherwise the result is the reference `ContextOf`: the relevant (score < 1.5) texts among the first `k` hits, else the first `min(k, 3)` texts. |
| Chat.ContextOfFromTop | app/pages/chat.py:78-92 | The context has at most `k` chunks, each the text of one of the first `k` hits. |
| Chat.ContextOfOnlyRelevant | app/pages/chat.py:82-85 | When some top-`k` hit is relevant, every chunk returned is the text of a relevant top-`k` hit. |
| Chat.ContextOfAllRelevant | app/pages/chat.py:82-85 | Every relevant hit among the first `k` has its text in the context. |
| Chat.EnhanceQuery | app/pages/chat.py:117-136 | The original query comes first, followed by 1 to 3 variants. The key-terms variant exists exactly when the lower-cased query starts with a question word and has more than one word. The topic variant exists exactly when it mentions explain or describe, and comes last. |
| Chat.KeyTermsRoundTrip | app/pages/chat.py:127-129 | Splitting the key-terms variant gives back exactly the query's words after the first. |
| Chat.TopicStripped | app/pages/chat.py:132-134 | The topic variant has no surrounding whitespace. |
| Chat.PlainQueryUnchanged | app/pages/chat.py:119-136 | A query triggering neither rule has itself as its only variant. |
| Chat.PerVariant | app/pages/chat.py:147 | Each variant asks for at least one chunk, and together the variants ask for more than `k`. |
| Chat.EnhancedContextOf | app/pages/chat.py:150-158 | The enhanced context has no duplicates and at most `k` chunks. |
| Chat.UniqueContexts | app/pages/chat.py:150-156 | The seen-set scan equals the reference de-duplication that keeps first occurrences. |
| Chat.CollectContexts | app/pages/chat.py:146-148 | The collection loop concatenates each variant's context in variant order. |
| Chat.RetrieveEnhancedContext | app/pages/chat.py:138-158 | No store gives no context. Otherwise the result is the first `k` of the de-duplicated, variant-ordered contexts, each variant retrieved with `k // n + 1`. |
| Chat.EnhancedContextFromVariants | app/pages/chat.py:146-158 | Every enhanced-context chunk was retrieved for some variant of the query. |
| Chat.Preview | app/pages/chat.py:107 | Text of up to 200 characters is shown unchanged. Longer text becomes its first 200 characters followed by `...`. |
| Chat.PreviewIdempotent | app/pages/chat.py:107 | Previewing a preview changes nothing. |
| Chat.GetSources | app/pages/chat.py:97-115 | There is one entry per hit among the first `k`, in ranking order, with its preview, metadata and score. No store or a raising search gives none. |
| Chat.ContextTextHasChunks | app/pages/chat.py:164 | The blank-line-joined context text contains every retrieved chunk. |
| Chat.RecentHistory | app/pages/chat.py:168-169 | The prompt uses the last `min(n, 3)` history entries, a suffix of the history. |
| Chat.ConversationContextIgnoresOlder | app/pages/chat.py:167-171 | Exchanges older than the last three never reach the prompt. |
| Chat.TaskOf | app/pages/chat.py:174-188 | The task follows the precedence summary > comparison > explanation > direct answer, each as an if-and-only-if over the keyword tests. |
| Chat.FactualQuestionsAnsweredDirectly | app/pages/chat.py:177-188 | The factual flag is never consulted: a factual question that triggers no other rule gets the direct-answer task. |
| Chat.Prompt | app/pages/chat.py:163-210 | The prompt sent for a question carries the question, the recent conversation, the instruction for the question's task and every retrieved chunk. |
| Chat.PromptCarries | app/pages/chat.py:190-210 | The prompt contains the question, the recent conversation and the task instruction. |
| Chat.PromptCarriesChunk | app/pages/chat.py:164-196 | The prompt contains every retrieved chunk. |
| Chat.ResponseText | app/pages/chat.py:212-239 | A 200 answer with a `response` field returns that text. Every other outcome (bad status, timeout, other exception, missing field) returns text starting with `Error`. |
| Chat.StatusInMessage | app/pages/chat.py:233-234 | A failed status can be read back from the message: the digits between the fixed lead and `)` spell it. |
| Chat.GenerateResponse | app/pages/chat.py:160-239 | `generate_response` posts the prompt for the question, context and history. It returns the model's answer when the endpoint replies 200 with a `response` field, and otherwise a message starting with `Error`. |
| Chat.Chat | app/pages/chat.py:241-266 | A chat turn appends exactly one exchange, stamped `now`, holding the message and the response. `conversation_length` is the new history length. The response is the answer to the enhanced context for `k = 7`, or to an empty context when there is no store. The sources are the previews, metadata and scores of the first three hits for the message, or none when there is no store or the search raised. |
| Chat.ExampleQuestions | app/pages/chat.py:454-500 | There is always at least one question. The fixed four-question fallback is used exactly when no processed file is a PDF, code, data or image file. Otherwise the groups appear in the order PDF, code, data, images. Each group present is its exact list of questions, at the position the earlier groups leave, and the length is the sum of the groups present. |
| Chat.ExampleCountNotFour | app/pages/chat.py:466-491 | The file-type groups (3, 3, 3 and 2 questions) never add up to exactly four, so the fallback cannot be confused with a rule's output. |
| Config.ShippedSettings | utils/config.py:6-27 | As shipped, `CHUNK_OVERLAP` (100) is below `CHUNK_SIZE` (300) and `MAX_RETRIES` is 3. |
| Config.CpuOr4 | utils/config.py:33 | The CPU count is used when positive; a missing or zero count becomes 4. |
| Config.OptimalWorkers | utils/config.py:30-45 | cpu gives `min(32, c+4)`, io gives `min(32, 2c)` and mixed gives `min(16, c+2)`. Any other task type gets `c` itself, with no cap. The result is always ≥ 1. |
| Config.SettingNamed | utils/config.py:51 | `hasattr` finds a setting exactly when its attribute name is the given name. |
| Config.SettingNamedAttr | utils/config.py:51-52 | Looking an attribute up by its own name finds it. |
| Config.Set | utils/config.py:52 | `setattr` changes that attribute and no other. |
| Config.UpdateFromDict | utils/config.py:47-52 | `update_from_dict` leaves alone every attribute that no key names, case-insensitively. |
| Config.UpdateFromDictSetsLast | utils/config.py:47-52 | Each attribute ends with the value of the last item whose upper-cased key names it. Attributes no key names are untouched. |
| Config.GetConfigDict | utils/config.py:54-61 | The dump has one item per setting, in `dir()` order, under a key that upper-cases back to the attribute name. |
| Config.UpdateFromDictKeys | utils/config.py:47-52 | A dictionary whose keys name distinct settings writes each item into its setting and nothing else. |
| Config.ConfigDictRoundTrip | utils/config.py:47-61 | Feeding `get_config_dict()` to `update_from_dict` restores the dumped settings, whatever they were before. |
| Config.PresetOf | utils/config.py:68-96 | In every preset all counts are positive and the chunk overlap is below the chunk size. |
| Config.PresetsMonotone | utils/config.py:68-96 | Every preset field is non-decreasing from low to medium to high. |
| Config.PresetItemsWrite | utils/config.py:107-108 | Applying a preset's dictionary sets its seven fields and leaves the other four settings alone. |
| Config.ParseLevel | utils/config.py:101-107 | A name selects a preset exactly when it lower-cases to low, medium or high. |
| Config.ApplyPreset | utils/config.py:98-110 | An unknown name raises `ValueError` with the source's message and changes nothing. A known name, in any case, applies that preset. |
| Config.SystemLevel | utils/config.py:117-124 | `optimize_for_system` picks high for ≥ 8 CPUs, medium for 4–7 and low below, after `or 4`. |
| Config.OptimizeForSystem | utils/config.py:114-124 | The preset call `optimize_for_system` makes never raises, and its result is that preset applied. |
| Config.RecommendedPreset | utils/config.py:126-133 | `get_performance_info` raises `TypeError` when the CPU count is unknown. It agrees with `optimize_for_system` for positive counts, but a count of zero recommends low where `optimize_for_system` picks medium. |
| Credentials.AnyChar | utils/authentication.py:323-330 | `any(p(c) for c in s)` holds exactly when some character satisfies `p`. |
| Credentials.ValidatePassword | utils/authentication.py:319-333 | A password is valid exactly when it has ≥ 8 characters, an upper-case letter, a lower-case letter and a digit. Otherwise the message names the first rule broken, in that order. |
| Credentials.MatchesWholeIff | utils/authentication.py:316-317 | The one-cut scanner accepts exactly the strings the anchored pattern matches. |
| Credentials.ValidateEmail | utils/authentication.py:313-317 | `re.match` succeeds exactly when the pattern matches the whole address, or the address minus one trailing newline (Python's `$`). |
| Auth.ResetCodesAreLikeReset | utils/authentication.py:617-627 | Every code stored as `RESET_` + code matches `LIKE 'RESET_%'`. |
| Auth.KeepOtps | utils/authentication.py:226-227 | A `DELETE` leaves exactly the rows it does not select. Any selection of rows it cannot touch sees the same rows, in the same order and number, as before. |
| Auth.ReplaceCodes | utils/authentication.py:227-233 | After the delete-then-insert, the new row is last and no other row is for that address. Any selection of rows the delete cannot touch sees the same rows, in the same order and number, as before. |
| Auth.GenerateAndSendOtp | utils/authentication.py:207-246 | A bad address or an existing user is rejected with nothing written. Otherwise the address's codes are replaced by one fresh ten-minute code. The row stays even when sending fails; the reply then says so. Other addresses' rows keep their order and number. |
| Auth.IssuingKeepsOtherChecks | utils/authentication.py:225-233 | Issuing a registration code for one address leaves every code check for another address ending as before. |
| Auth.SameRowsSameCheck | utils/authentication.py:255-262 | When an address's rows are the same, in the same order, in two tables, a code check for it ends the same way in both. |
| Auth.CheckCode | utils/authentication.py:255-297 | Checks run in order on the newest unused (reset-marked) row: none, expired, three attempts, then the stripped input against the stored code. Expired and locked leave the tables untouched. A match marks the row used. A mismatch adds one attempt and reports `3 − (attempts+1)` remaining. |
| Auth.VerifyOtp | utils/authentication.py:248-302 | `verify_otp` succeeds exactly when the shared check matches, and leaves the tables as the check does. Each outcome of the check has its own reply: no code, expired, too many attempts, verified, or "Invalid OTP. N attempts remaining." with N the remaining guesses. |
| Auth.RemainingInMessage | utils/authentication.py:292-297 | The number of remaining guesses can be read back from the mismatch reply: the digits between its fixed lead and tail spell it. |
| Auth.VerifyPasswordResetOtp | utils/authentication.py:707-764 | The reset check considers only `RESET_`-marked rows and compares against the stored code with every `RESET_` removed. Each outcome has its own reply, worded for password reset, and a mismatch reports the remaining guesses. |
| Auth.CheckKeepsAttemptsCapped | utils/authentication.py:275-297 | No row's attempt counter ever goes past 3. |
| Auth.MismatchKeepsCandidate | utils/authentication.py:289-296 | After a wrong guess the same row is still the one checked next. |
| Auth.LastGuessLocks | utils/authentication.py:271-297 | After the wrong guess that leaves 0 attempts, any later check at or after that time reports locked or expired, whatever is entered. |
| Auth.OtpSingleUse | utils/authentication.py:227-287 | A freshly issued code that verifies once can never verify again: afterwards no usable row remains. |
| Auth.RegisterUser | utils/authentication.py:335-380 | Registration succeeds exactly for a valid address, a strong password, no existing user and a used code for the address. Failure writes nothing. The first failing check picks the reply: an invalid address, then the validator's message for a weak password, then an existing user, then an unverified address. Success replies "User registered successfully!" and appends one active, verified user with the lower-cased address and the salted hash. |
| Auth.RegisterKeepsEmailsUnique | utils/authentication.py:362-375 | Registration keeps addresses unique in the users table. |
| Auth.Deactivate | utils/authentication.py:472-476 | Exactly the selected sessions are marked inactive; every other row is unchanged. |
| Auth.CreateSession | utils/authentication.py:462-488 | A taken token rolls back and returns no token. Otherwise the user's earlier sessions become inactive, others' are untouched, and one active seven-day session is appended. |
| Auth.CreateSessionKeepsOneActive | utils/authentication.py:469-482 | Creating a session preserves "at most one active session per user". |
| Auth.ValidateSession | utils/authentication.py:490-516 | A session is valid exactly when some active, unexpired session with the token joins a user, and the result is that user and expiry. |
| Auth.LogoutUser | utils/authentication.py:518-533 | Every session with the token becomes inactive; nothing else changes. |
| Auth.LogoutInvalidates | utils/authentication.py:518-533 | After logout the token never validates. |
| Auth.CreatedSessionValidates | utils/authentication.py:462-516 | A new session validates for its user exactly until its seven days are over. |
| Auth.LoginUser | utils/authentication.py:382-450 | Login looks up the active user by lower-cased address and rejects an unverified one before the password. It succeeds exactly when the salted hash matches; it then records the login time and opens a session. Failures change nothing. |
| Auth.LoginUserAsWritten | utils/authentication.py:382-450 | The code as it runs replies as the intended login does. A successful login records the login time and returns the user with no session token, and leaves the sessions table untouched. A failure changes nothing. |
| Auth.AsWrittenLoginHasNoSession | utils/authentication.py:429-438 | After a successful login as written, the returned token is `None` and the token that would have been drawn does not validate. The intended login returns that token. |
| Auth.LoginOpensSession | utils/authentication.py:436-446 | The intended login returns a token that validates for the logged-in user until its seven days are over. |
| Auth.LoginHidesWhichCredentialFailed | utils/authentication.py:400-427 | An unknown address and a wrong password get the same reply. |
| Auth.UnverifiedIgnoresPassword | utils/authentication.py:420-421 | For an unverified user the outcome does not depend on the password. |
| Auth.GeneratePasswordResetOtp | utils/authentication.py:578-640 | The checks run in order: bad address, no account, unverified account. For a verified account, its reset codes are replaced by one fifteen-minute `RESET_` code; other rows keep their order and number, and the row stays when sending fails. |
| Auth.ResetIssuingKeepsOtherChecks | utils/authentication.py:614-632 | Issuing a reset code for one address leaves every code check for another address ending as before. |
| Auth.Rehash | utils/authentication.py:801-807 | Exactly the active rows for the address get the new hash, salt and login time. |
| Auth.ResetPassword | utils/authentication.py:766-830 | Reset succeeds exactly with a valid address, a strong password, an existing user and a used reset code younger than 30 minutes. It then rehashes, ends all the user's sessions and deletes the address's reset codes, and replies with the success message. Failure changes nothing. The first failing check picks the reply: an invalid address, then the validator's message, then no account, then not authorized. The surviving code rows keep their order and number. |
| Auth.ResetKeepsOtherChecks | utils/authentication.py:818-822 | A password reset for one address leaves every code check for another address ending as before. |
| Auth.ResetEndsSessions | utils/authentication.py:810-822 | After a reset none of the user's tokens validate, and the reset cannot be repeated without a new code. |
| Auth.ResetThenLogin | utils/authentication.py:801-807 | After a reset the new password logs in, and an old password with a different hash does not. |
| Upload.GetFileExtension | app/pages/app.py:70-71 | The extension is a dot followed by the lower-cased text after the last dot (the whole name when there is none). That text contains no dot and is a suffix of the lower-cased name. |
| Upload.ExtensionOfDottedName | app/pages/app.py:70-71 | `stem.ext` has extension `.` + lower(`ext`) whenever `ext` has no dot. |
| Upload.ExtensionOfDotlessName | app/pages/app.py:70-71 | A name without a dot is its own extension, lower-cased, after a dot. |
| Upload.ValidateFileType | app/pages/app.py:64-68 | No file is rejected. A file is accepted exactly when `get_file_extension(name)` is in `ALLOWED_EXTENSIONS`. |
| Upload.ValidationIgnoresCase | app/pages/app.py:66-67 | Acceptance does not depend on the name's ASCII case. |
| Upload.AcceptedNamesEndInExtension | app/pages/app.py:60-67 | An accepted name, lower-cased, ends in an allowed extension or is one without its dot. |
| Upload.PartitionUploads | app/pages/app.py:141-149 | Every upload lands in exactly one of the valid and invalid lists, each in upload order. |
| Upload.UpperCaseEndingNotLoaded | app/pages/app.py:66 | A name ending in an upper-case letter has no loader, because the dispatch in `utils/rag.py` is case-sensitive. |
| Upload.DotlessNotLoaded | app/pages/app.py:66 | A name without a dot has no loader. |
| Upload.UpperCasePdfAccepted | app/pages/app.py:64-67 | Any `<stem>.PDF` passes the upload check. |
| Upload.DotlessAccepted | app/pages/app.py:64-67 | A dotless name spelling an extension (`pdf`) passes the upload check. |
| Upload.UpperCasePdfNotLoaded | app/pages/app.py:64-67 | `<stem>.PDF` is accepted by the page, yet once staged it yields no documents. |
| Upload.DotlessNameNotLoaded | app/pages/app.py:64-67 | A dotless name spelling an extension is accepted, yet once staged it yields no documents. |
| SessionState.SetDefault | utils/session_state.py:8-15 | A key is written only when missing, and the other keys keep their values. |
| SessionState.DataDefaults | utils/session_state.py:8-15 | `docs`, `processed` and `db` end present, holding their old values or `None`, `[]` and `None`. |
| SessionState.InitializeAsWritten | utils/session_state.py:4-15 | Without the unrelated key `session-state` the id is replaced by a fresh one. With it, an existing id is kept and a missing id stays missing. `docs`, `processed` and `db` keep their values and otherwise default to `None`, `[]` and `None`. The keys are exactly the old keys, plus the three data keys, plus the id when the guard is absent. |
| SessionState.AsWrittenGuardedIsIntended | utils/session_state.py:4-15 | If the guard key were present, the code as written would equal the intended initializer on every state that has its id. |
| SessionState.AsWrittenRegeneratesId | utils/session_state.py:5-6 | Two calls on a session yield two different ids whenever the generator does: the guard never stops the rewrite. |
| SessionState.AsWrittenKeepsData | utils/session_state.py:8-15 | A second call leaves `docs`, `processed` and `db` as the first left them. |
| SessionState.Initialize | utils/session_state.py:4-15 | The corrected function fills each of the four keys only when missing and changes nothing else. |
| SessionState.InitializeIdempotent | utils/session_state.py:4-15 | A second call of the corrected function changes nothing, whatever id is generated. |
| SessionState.InitializeKeepsId | utils/session_state.py:5-15 | On a state with an id, the corrected function keeps it and otherwise agrees with the code as written. |
| Wizards.RegistrationRun | app/main.py:141-297 | On the email step, an empty field or a mismatched confirmation calls nothing. A successful send moves to the otp step and stores the pending address and password. The otp step checks only 6-character codes, and a success moves to complete. Resend keeps the step. Back returns to the start and clears the pending fields. Complete always calls register and returns to email, clearing the fields only on success. |
| Wizards.RegistrationRunKeepsHistory | app/main.py:184-266 | One step keeps the invariant "past the email step there was a successful send, and at complete a successful code check, for the pending address". |
| Wizards.RegistrationRunsKeepHistory | app/main.py:141-297 | The invariant holds along any sequence of form events. |
| Wizards.RegisterOnlyAfterCheckedCode | app/main.py:269-277 | `register_user` is called only with a pending address whose code was checked successfully earlier. |
| Wizards.ResetRun | app/main.py:304-475 | A non-empty address that gets a code moves to verify_otp. A 6-character code that verifies moves to new_password. Resend keeps the step, and Back returns to email and clears the address. Matching non-empty passwords that reset successfully return to email; a failure keeps the step. |
| Wizards.ResetRunKeepsHistory | app/main.py:329-410 | One step keeps the invariant "past the email step a reset code was sent, and at new_password one was checked, for the reset address". |
| Wizards.ResetRunsKeepHistory | app/main.py:304-475 | The invariant holds along any sequence of form events. |
| Wizards.SetPasswordOnlyAfterCheckedCode | app/main.py:450-461 | `reset_password` is called only for an address whose reset code was checked successfully earlier. |
| Text.Strip | app/pages/chat.py:133 | `strip()` returns the slice left after cutting whitespace. It neither starts nor ends with whitespace, and everything cut is whitespace. |
| Text.WordsJoinRoundTrip | app/pages/chat.py:127-129 | Splitting words joined by single spaces gives the words back. |
| Text.LastSegment | app/pages/app.py:71 | `split(c)[-1]` is the `c`-free suffix after the last `c`, or the whole string. |
| Text.NatToStringRoundTrip | utils/authentication.py:296-297 | The remaining-attempts number printed in the message reads back as itself. |
| Seqs.BatchesFlatten | utils/embeddings.py:77-82 | The consecutive slices cover the input exactly, in order. |
| Seqs.BatchAt | utils/rag.py:101 | Batch `k` is the slice `docs[k*b : k*b + b]`. |
| Seqs.Partition | app/pages/app.py:141-149 | The split loop returns the two filters, which together hold exactly the input. |
| Seqs.Dedup | app/pages/chat.py:150-156 | The de-duplicated list has no duplicates and holds exactly the input's elements. |
| Seqs.FlatMapPermutation | utils/rag.py:67-72 | Collecting per-item results in any completion order gives the same multiset as submission order. |

## Left out

- Network calls (embedding, vision and generation endpoints, SMTP) are outcome parameters. The request bodies, headers, JSON parsing and HTML e-mail bodies are not modelled.
- `embed_query` is `embed` on one text, so it is covered by `Embeddings.Embed` and has no member of its own.
- The `time.sleep` back-off is counted in half-seconds and never performed.
- Thread pools are not modelled as concurrency. Where results are appended in completion order, only the multiset is stated, because the order is not determined.
- LangChain loaders, the recursive text splitter and Chroma are foreign code. Their results are parameters, and no bound on chunk length is claimed.
- Floating point: scores are reals compared with 1.5, and vectors are never inspected.
- Rag.ProcessDocs: file-system effects are not modelled. Staging writes are one success flag, and cleanup is a flag equal to whether `rmtree` succeeded.
- SQLite mechanics are not modelled:
  - schema creation and `_run_migrations` (the `is_verified` column fallback);
  - `sqlite3.Error` handlers and the generic `except Exception` replies;
  - connection locking in general. Its one modelled effect is the failed session insert during login (`Auth.LoginUserAsWritten`).
- Auth.CreateSession: the `created_at` column default (UTC `CURRENT_TIMESTAMP`) and `datetime.now()` (local time) are one integer clock here.
- Auth.CheckCode: `ORDER BY created_at DESC LIMIT 1` is the last matching row in table order. Rows with equal timestamps are not told apart by time. Every delete keeps the order of the rows it leaves (`Auth.KeepOtps`), so table order stays insertion order.
- Chat.RetrieveContext: the broader fallback search reads the same ranking as the first search. So "the first search succeeded and the fallback search raised", which gives no context in the source, is not represented.
- `get_user_count`, `get_user_info`, `user_exists`'s error path and `init_auth_session` are outside the modelled core. `user_exists` itself is the `Auth.UserExists` predicate.
- Credentials.ValidatePassword: `str.isupper`, `str.islower` and `str.isdigit` are modelled on ASCII letters and digits only; non-ASCII letters and digits count as neither.
- Text.Lower: `str.lower()` and `str.upper()` are modelled on ASCII letters only, throughout the project.
- Randomness and hashing (`random.choices`, `secrets`, `uuid1`, SHA-256, and the MD5 session id of the pages) are parameters.
- Streamlit rendering, messages, spinners, page switching and the `max_chars=6` input limit are not modelled. The wizards model only the step transitions and the auth calls they make.
- Wizards.RegistrationRun: the reply messages shown to the user are not modelled, only success flags.

## Findings

| source | as written | input that shows it | evidently intended | confidence | as-written member | corrected member |
|---|---|---|---|---|---|---|
| utils/session_state.py:5-6 | The guard tests the key `session-state`, but the branch writes `session-id`. No code ever writes `session-state`, so every call draws a new session id. | Any session state without `session-state` (that is, all of them), called twice with the id generator returning two different ids: the id changes. | Test `'session-id' not in st.session_state`, so the id is drawn once per session. | not executed; medium, since both pages overwrite `session-id` right after the call (app/pages/app.py:57, app/pages/chat.py:60), which masks the effect | SessionState.InitializeAsWritten, SessionState.AsWrittenRegeneratesId | SessionState.Initialize, SessionState.InitializeIdempotent |
| utils/authentication.py:429-438 | `login_user` updates `last_login` and then calls `_create_session` before committing. `_create_session` opens a second connection to the same database. Python's `sqlite3` opens a write transaction before the first `UPDATE`, so the login's connection holds the database's write lock, and the session insert cannot take it. After the busy timeout (5 s by default) `_create_session` gets `database is locked` (lines 472-476), and lines 487-488 turn that into `None`. The login succeeds with no session, and the page stores `None` as the token (app/main.py:117). | Any verified user logging in with the right password. | Create the session on the login's own connection, or after `conn.commit()`, so the returned token is stored and validates. | not executed; high, given SQLite's single-writer locking and the default deferred transactions of Python's `sqlite3` | Auth.LoginUserAsWritten, Auth.AsWrittenLoginHasNoSession | Auth.LoginUser, Auth.LoginOpensSession |

=== FILE: auth.dfy ===
/** The account operations of `AuthManager` in `utils/authentication.py`,
    over the three SQLite tables held as in-memory row sequences.

    Table order is insertion order, so "the newest row" (`ORDER BY
    created_at DESC LIMIT 1`) is the last matching row. The clock is an
    integer number of seconds passed in by the caller. Random codes and
    tokens, the salt and the password hash are parameters: `hashOf(password,
    salt)` stands for SHA-256 of the salted password. Whether the e-mail
    with a code was sent is a flag. Database errors are not modelled, except
    the lock conflict that `login_user` runs into (`LoginUserAsWritten`). */
module Auth {
  import opened Wrappers
  import opened Text
  import opened Seqs
  import opened Credentials

  // ------------------------------------------------------------------ tables

  /** A row of `users`. Ids are assigned 1, 2, 3, ... and rows are never
      deleted. */
  datatype User = User(id: nat, email: string, passwordHash: string, salt: string,
                       lastLogin: Option<int>, isActive: bool, isVerified: bool)

  /** A row of `user_sessions`. */
  datatype Session = Session(userId: nat, token: string, expiresAt: int, isActive: bool)

  /** A row of `email_otps`. */
  datatype Otp = Otp(email: string, code: string, createdAt: int, expiresAt: int, isUsed: bool, attempts: nat)

  datatype Tables = Tables(users: seq<User>, sessions: seq<Session>, otps: seq<Otp>)

  /** An operation's reply together with the tables it leaves behind. */
  datatype Step = Step(reply: Reply, tables: Tables)

  /** Registration codes live ten minutes, reset codes fifteen. */
  const OtpLifetime: int := 10 * 60
  const ResetOtpLifetime: int := 15 * 60

  /** Sessions live seven days. */
  const SessionLifetime: int := 7 * 24 * 60 * 60

  /** A used reset code authorises a new password for thirty minutes. */
  const ResetWindow: int := 30 * 60

  /** Wrong guesses allowed per code. */
  const MaxAttempts: nat := 3

  /** Marks the codes issued for a password reset. */
  const ResetPrefix: string := "RESET_"

  const InvalidEmail: string := "Invalid email format"
  const UserTaken: string := "User with this email already exists"
  const OtpSent: string := "OTP sent successfully! Check your email."
  const OtpNotSent: string := "Failed to send OTP. Please try again."
  const NotVerifiedForRegistration: string := "Email not verified. Please verify your email with OTP first."
  const Registered: string := "User registered successfully!"
  const BadCredentials: string := "Invalid email or password"
  const NotVerifiedForLogin: string := "Email not verified. Please complete registration."
  const LoggedIn: string := "Login successful!"
  const NoAccount: string := "No account found with this email address"
  const AccountNotVerified: string := "Account not verified. Please complete registration first."
  const ResetSent: string := "Password reset OTP sent successfully! Check your email."
  const ResetNotSent: string := "Failed to send password reset OTP. Please try again."
  const ResetNotAuthorized: string := "Password reset not authorized. Please verify OTP first."
  const PasswordReset: string := "Password reset successfully! Please login with your new password."
  const NoOtp: string := "No OTP found or OTP already used"
  const OtpExpired: string := "OTP has expired. Please request a new one."
  const OtpLocked: string := "Too many failed attempts. Please request a new OTP."
  const OtpVerified: string := "OTP verified successfully!"
  const NoResetOtp: string := "No password reset OTP found or OTP already used"
  const ResetOtpExpired: string := "Password reset OTP has expired. Please request a new one."
  const ResetOtpLocked: string := "Too many failed attempts. Please request a new password reset OTP."
  const ResetOtpVerified: string := "Password reset OTP verified successfully!"

  /** Position of the first element satisfying `p`. */
  function FirstIndex<T>(xs: seq<T>, p: T -> bool): (r: Option<nat>)
    ensures r.Some? ==> r.value < |xs| && p(xs[r.value]) && forall j :: 0 <= j < r.value ==> !p(xs[j])
    ensures r.None? ==> forall j :: 0 <= j < |xs| ==> !p(xs[j])
    decreases |xs|
  {
    if |xs| == 0 then None
    else if p(xs[0]) then Some(0)
    else
      match FirstIndex(xs[1..], p)
      case None => None
      case Some(i) => Some(i + 1)
  }

  /** Position of the last element satisfying `p`. */
  function LastIndex<T>(xs: seq<T>, p: T -> bool): (r: Option<nat>)
    ensures r.Some? ==> r.value < |xs| && p(xs[r.value]) && forall j :: r.value < j < |xs| ==> !p(xs[j])
    ensures r.None? ==> forall j :: 0 <= j < |xs| ==> !p(xs[j])
    decreases |xs|
  {
    if |xs| == 0 then None
    else if p(xs[|xs| - 1]) then Some(|xs| - 1)
    else LastIndex(xs[..|xs| - 1], p)
  }

  /** `SELECT id FROM users WHERE email = ?` finds a row. Stored addresses
      are lower-cased, and so is the one looked up. */
  predicate UserExists(t: Tables, email: string) {
    exists i :: 0 <= i < |t.users| && t.users[i].email == Lower(email)
  }

  /** No two users share an address (the column is `UNIQUE`). */
  predicate UniqueEmails(users: seq<User>) {
    forall i, j :: 0 <= i < j < |users| ==> users[i].email != users[j].email
  }

  /** SQLite's `otp_code LIKE 'RESET_%'`: `_` matches any one character,
      `%` any rest, and letters match regardless of ASCII case. */
  predicate LikeReset(code: string) {
    |code| >= 6 && Lower(code[..5]) == "reset"
  }

  lemma ResetCodesAreLikeReset(code: string)
    ensures LikeReset(ResetPrefix + code)
  {
    var s := ResetPrefix + code;
    assert s[..5] == "RESET";
  }

  // ------------------------------------------------------------------ codes

  /** The row at `LastIndex` is the last element of the filter. */
  lemma {:induction false} LastIndexIsLastOfFilter<T(!new)>(xs: seq<T>, p: T -> bool)
    ensures var f := Filter(p, xs);
            && (LastIndex(xs, p).None? <==> |f| == 0)
            && (LastIndex(xs, p).Some? ==> |f| > 0 && xs[LastIndex(xs, p).value] == f[|f| - 1])
    decreases |xs|
  {
    if |xs| > 0 {
      var n := |xs| - 1;
      var init := xs[..n];
      assert xs[..n + 1] == xs;
      FilterPrefix(p, xs, n);
      if !p(xs[n]) {
        assert Filter(p, xs) == Filter(p, init);
        LastIndexIsLastOfFilter(init, p);
      }
    }
  }

  /** Two tables whose rows selected by `p` agree, in order, have `p`'s last
      row in common. */
  lemma SamePick<T(!new)>(xs: seq<T>, ys: seq<T>, p: T -> bool)
    requires Filter(p, xs) == Filter(p, ys)
    ensures LastIndex(xs, p).Some? <==> LastIndex(ys, p).Some?
    ensures LastIndex(xs, p).Some? ==> xs[LastIndex(xs, p).value] == ys[LastIndex(ys, p).value]
  {
    LastIndexIsLastOfFilter(xs, p);
    LastIndexIsLastOfFilter(ys, p);
  }

  /** Keeps the rows `DELETE FROM email_otps WHERE ...` would leave, in
      their order: every selection of rows the delete does not touch sees
      the same rows, in the same order, before and after. */
  function KeepOtps(otps: seq<Otp>, doomed: Otp -> bool): (r: seq<Otp>)
    ensures forall o :: o in r <==> o in otps && !doomed(o)
    ensures forall q: Otp -> bool :: (forall o :: q(o) ==> !doomed(o)) ==> Filter(q, r) == Filter(q, otps)
  {
    var keep := (o: Otp) => !doomed(o);
    assert forall q: Otp -> bool :: (forall o :: q(o) ==> !doomed(o)) ==> Filter(q, Filter(keep, otps)) == Filter(q, otps) by {
      forall q: Otp -> bool | forall o :: q(o) ==> !doomed(o)
        ensures Filter(q, Filter(keep, otps)) == Filter(q, otps)
      {
        FilterFilter(keep, q, otps);
      }
    }
    Filter(keep, otps)
  }

  /** Deletes the rows `doomed` selects and appends `row`, which it also
      selects: afterwards `row` is the only selected row. */
  function ReplaceCodes(otps: seq<Otp>, doomed: Otp -> bool, row: Otp): (r: seq<Otp>)
    requires doomed(row)
    ensures |r| > 0 && r[|r| - 1] == row
    ensures forall i :: 0 <= i < |r| - 1 ==> !doomed(r[i])
    ensures forall o :: !doomed(o) ==> (o in r <==> o in otps)
    ensures forall q: Otp -> bool :: (forall o :: q(o) ==> !doomed(o)) ==> Filter(q, r) == Filter(q, otps)
  {
    var kept := KeepOtps(otps, doomed);
    assert forall i :: 0 <= i < |kept| ==> kept[i] in kept;
    assert forall q: Otp -> bool :: (forall o :: q(o) ==> !doomed(o)) ==> Filter(q, kept + [row]) == Filter(q, otps) by {
      forall q: Otp -> bool | forall o :: q(o) ==> !doomed(o)
        ensures Filter(q, kept + [row]) == Filter(q, otps)
      {
        FilterAppend(q, kept, [row]);
        assert Filter(q, [row]) == [];
      }
    }
    kept + [row]
  }

  function IsFor(email: string): Otp -> bool {
    (o: Otp) => o.email == email
  }

  function IsResetFor(email: string): Otp -> bool {
    (o: Otp) => o.email == email && LikeReset(o.code)
  }

  /** `AuthManager.generate_and_send_otp`: a well-formed address of no
      existing user gets a fresh ten-minute code replacing every code it had;
      the row stays even when sending the e-mail fails. */
  function GenerateAndSendOtp(t: Tables, email: string, code: string, now: int, sent: bool): (r: Step)
    ensures !ValidateEmail(email) ==> r == Step(Reply(false, InvalidEmail), t)
    ensures ValidateEmail(email) && UserExists(t, email) ==> r == Step(Reply(false, UserTaken), t)
    ensures ValidateEmail(email) && !UserExists(t, email) ==>
              var otps := r.tables.otps;
              && r.tables.users == t.users && r.tables.sessions == t.sessions
              && |otps| > 0 && otps[|otps| - 1] == Otp(Lower(email), code, now, now + OtpLifetime, false, 0)
              && (forall i :: 0 <= i < |otps| - 1 ==> otps[i].email != Lower(email))
              && (forall o: Otp :: o.email != Lower(email) ==> (o in otps <==> o in t.otps))
              && (forall q: Otp -> bool :: (forall o :: q(o) ==> o.email != Lower(email)) ==> Filter(q, otps) == Filter(q, t.otps))
              && r.reply == (if sent then Reply(true, OtpSent) else Reply(false, OtpNotSent))
  {
    if !ValidateEmail(email) then Step(Reply(false, InvalidEmail), t)
    else if UserExists(t, email) then Step(Reply(false, UserTaken), t)
    else
      var e := Lower(email);
      var otps := ReplaceCodes(t.otps, IsFor(e), Otp(e, code, now, now + OtpLifetime, false, 0));
      Step(if sent then Reply(true, OtpSent) else Reply(false, OtpNotSent), t.(otps := otps))
  }

  /** Issuing a code for one address does not change how a code check for
      any other address ends. */
  lemma IssuingKeepsOtherChecks(t: Tables, email: string, code: string, now: int, sent: bool,
                                other: string, entered: string, later: int, resetFlow: bool)
    requires Lower(other) != Lower(email)
    ensures var after := GenerateAndSendOtp(t, email, code, now, sent).tables;
            CheckCode(after, other, entered, later, resetFlow).0 == CheckCode(t, other, entered, later, resetFlow).0
  {
    var after := GenerateAndSendOtp(t, email, code, now, sent).tables;
    var q := Candidate(Lower(other), resetFlow);
    assert forall o :: q(o) ==> o.email != Lower(email);
    SameRowsSameCheck(t, after, other, entered, later, resetFlow);
  }

  /** A row the verifier may pick: for this address, unused, and in the reset
      flow also `LIKE 'RESET_%'`. */
  function Candidate(email: string, resetFlow: bool): Otp -> bool {
    (o: Otp) => o.email == email && !o.isUsed && (!resetFlow || LikeReset(o.code))
  }

  /** When the rows of one address are the same, in the same order, in two
      tables, checking a code for that address picks the same row and ends
      the same way in both. */
  lemma SameRowsSameCheck(before: Tables, after: Tables, other: string, entered: string, later: int, resetFlow: bool)
    requires Filter(Candidate(Lower(other), resetFlow), after.otps) == Filter(Candidate(Lower(other), resetFlow), before.otps)
    ensures CheckCode(after, other, entered, later, resetFlow).0 == CheckCode(before, other, entered, later, resetFlow).0
  {
    SamePick(after.otps, before.otps, Candidate(Lower(other), resetFlow));
  }

  /** How a code check ended. */
  datatype Check = NoCode | Expired | Locked | Matched | Mismatched(remaining: nat)

  /** The code stored in a row as the verifier compares it: the reset flow
      removes every `RESET_`. */
  function StoredCode(o: Otp, resetFlow: bool): string {
    if resetFlow then RemoveAll(o.code, ResetPrefix) else o.code
  }

  /** The checks shared by `verify_otp` and `verify_password_reset_otp`, in
      their order: no usable row, expired, three wrong guesses already, then
      the stripped input against the stored code. A match marks the row
      used; a mismatch counts one more attempt. */
  function CheckCode(t: Tables, email: string, entered: string, now: int, resetFlow: bool): (r: (Check, Tables))
    ensures r.1.users == t.users && r.1.sessions == t.sessions && |r.1.otps| == |t.otps|
    ensures var i := LastIndex(t.otps, Candidate(Lower(email), resetFlow));
            && (i.None? <==> r.0 == NoCode)
            && (r.0 in {NoCode, Expired, Locked} ==> r.1 == t)
            && (i.Some? ==>
                  var o := t.otps[i.value];
                  && (r.0 == Expired <==> now > o.expiresAt)
                  && (r.0 == Locked <==> now <= o.expiresAt && o.attempts >= MaxAttempts)
                  && (r.0 == Matched <==>
                        now <= o.expiresAt && o.attempts < MaxAttempts && Strip(entered) == StoredCode(o, resetFlow))
                  && (r.0 == Matched ==> r.1.otps == t.otps[i.value := o.(isUsed := true)])
                  && (r.0.Mismatched? ==>
                        && r.1.otps == t.otps[i.value := o.(attempts := o.attempts + 1)]
                        && o.attempts + 1 <= MaxAttempts
                        && r.0.remaining == MaxAttempts - (o.attempts + 1)))
  {
    match LastIndex(t.otps, Candidate(Lower(email), resetFlow))
    case None => (NoCode, t)
    case Some(i) =>
      var o := t.otps[i];
      if now > o.expiresAt then (Expired, t)
      else if o.attempts >= MaxAttempts then (Locked, t)
      else if Strip(entered) == StoredCode(o, resetFlow) then (Matched, t.(otps := t.otps[i := o.(isUsed := true)]))
      else (Mismatched(MaxAttempts - (o.attempts + 1)), t.(otps := t.otps[i := o.(attempts := o.attempts + 1)]))
  }

  const MismatchLead: string := "Invalid OTP. "
  const MismatchTail: string := " attempts remaining."

  function MismatchMessage(remaining: nat): string {
    MismatchLead + NatToString(remaining) + MismatchTail
  }

  /** The count of remaining guesses can be read back from the reply: the
      digits between the fixed lead and tail spell it. */
  lemma RemainingInMessage(remaining: nat)
    ensures var m := MismatchMessage(remaining);
            && |m| > |MismatchLead| + |MismatchTail|
            && m[..|MismatchLead|] == MismatchLead
            && (forall i :: |MismatchLead| <= i < |m| - |MismatchTail| ==> IsAsciiDigit(m[i]))
            && ParseDigits(m[|MismatchLead|..|m| - |MismatchTail|]) == remaining
  {
    var m := MismatchMessage(remaining);
    var digits := NatToString(remaining);
    assert m[|MismatchLead|..|m| - |MismatchTail|] == digits;
    NatToStringRoundTrip(remaining);
  }

  /** `AuthManager.verify_otp`. */
  function VerifyOtp(t: Tables, email: string, entered: string, now: int): (r: Step)
    ensures r.reply.ok <==> CheckCode(t, email, entered, now, false).0 == Matched
    ensures r.tables == CheckCode(t, email, entered, now, false).1
    ensures var c := CheckCode(t, email, entered, now, false).0;
            && (c == NoCode ==> r.reply == Reply(false, NoOtp))
            && (c == Expired ==> r.reply == Reply(false, OtpExpired))
            && (c == Locked ==> r.reply == Reply(false, OtpLocked))
            && (c == Matched ==> r.reply == Reply(true, OtpVerified))
            && (c.Mismatched? ==> r.reply == Reply(false, MismatchMessage(c.remaining)))
  {
    var (check, after) := CheckCode(t, email, entered, now, false);
    var reply := match check
      case NoCode => Reply(false, NoOtp)
      case Expired => Reply(false, OtpExpired)
      case Locked => Reply(false, OtpLocked)
      case Matched => Reply(true, OtpVerified)
      case Mismatched(n) => Reply(false, MismatchMessage(n));
    Step(reply, after)
  }

  /** `AuthManager.verify_password_reset_otp`. */
  function VerifyPasswordResetOtp(t: Tables, email: string, entered: string, now: int): (r: Step)
    ensures r.reply.ok <==> CheckCode(t, email, entered, now, true).0 == Matched
    ensures r.tables == CheckCode(t, email, entered, now, true).1
    ensures var c := CheckCode(t, email, entered, now, true).0;
            && (c == NoCode ==> r.reply == Reply(false, NoResetOtp))
            && (c == Expired ==> r.reply == Reply(false, ResetOtpExpired))
            && (c == Locked ==> r.reply == Reply(false, ResetOtpLocked))
            && (c == Matched ==> r.reply == Reply(true, ResetOtpVerified))
            && (c.Mismatched? ==> r.reply == Reply(false, MismatchMessage(c.remaining)))
  {
    var (check, after) := CheckCode(t, email, entered, now, true);
    var reply := match check
      case NoCode => Reply(false, NoResetOtp)
      case Expired => Reply(false, ResetOtpExpired)
      case Locked => Reply(false, ResetOtpLocked)
      case Matched => Reply(true, ResetOtpVerified)
      case Mismatched(n) => Reply(false, MismatchMessage(n));
    Step(reply, after)
  }

  /** Every code row has been guessed at most three times. */
  predicate AttemptsCapped(otps: seq<Otp>) {
    forall i :: 0 <= i < |otps| ==> otps[i].attempts <= MaxAttempts
  }

  /** Checking a code never pushes a row past the three-guess cap. */
  lemma CheckKeepsAttemptsCapped(t: Tables, email: string, entered: string, now: int, resetFlow: bool)
    requires AttemptsCapped(t.otps)
    ensures AttemptsCapped(CheckCode(t, email, entered, now, resetFlow).1.otps)
  {
  }

  /** A wrong guess leaves the same row as the one the next check picks. */
  lemma MismatchKeepsCandidate(t: Tables, email: string, entered: string, now: int, resetFlow: bool)
    requires CheckCode(t, email, entered, now, resetFlow).0.Mismatched?
    ensures var after := CheckCode(t, email, entered, now, resetFlow).1;
            LastIndex(after.otps, Candidate(Lower(email), resetFlow))
              == LastIndex(t.otps, Candidate(Lower(email), resetFlow))
  {
    var p := Candidate(Lower(email), resetFlow);
    var i := LastIndex(t.otps, p).value;
    var after := CheckCode(t, email, entered, now, resetFlow).1;
    LastIndexUnique(after.otps, p, i);
  }

  lemma LastIndexUnique<T>(xs: seq<T>, p: T -> bool, i: nat)
    requires i < |xs| && p(xs[i]) && forall j :: i < j < |xs| ==> !p(xs[j])
    ensures LastIndex(xs, p) == Some(i)
  {
  }

  /** After the guess that reports no attempts left, no code is accepted any
      more, at that time or later: the row is locked or expired. */
  lemma LastGuessLocks(t: Tables, email: string, wrong: string, now: int, resetFlow: bool,
                       later: int, entered: string)
    requires CheckCode(t, email, wrong, now, resetFlow).0 == Mismatched(0)
    requires later >= now
    ensures var after := CheckCode(t, email, wrong, now, resetFlow).1;
            CheckCode(after, email, entered, later, resetFlow).0 in {Locked, Expired}
  {
    MismatchKeepsCandidate(t, email, wrong, now, resetFlow);
  }

  /** A fresh registration code is single-use: once it has been accepted,
      checking it again finds no usable code. */
  lemma OtpSingleUse(t: Tables, email: string, code: string, now: int, sent: bool, entered: string, later: int)
    requires ValidateEmail(email) && !UserExists(t, email)
    requires var issued := GenerateAndSendOtp(t, email, code, now, sent).tables;
             VerifyOtp(issued, email, entered, later).reply.ok
    ensures var issued := GenerateAndSendOtp(t, email, code, now, sent).tables;
            var used := VerifyOtp(issued, email, entered, later).tables;
            !VerifyOtp(used, email, entered, later).reply.ok
            && CheckCode(used, email, entered, later, false).0 == NoCode
  {
    var issued := GenerateAndSendOtp(t, email, code, now, sent).tables;
    var p := Candidate(Lower(email), false);
    var n := |issued.otps| - 1;
    LastIndexUnique(issued.otps, p, n);
    var used := VerifyOtp(issued, email, entered, later).tables;
    assert forall j :: 0 <= j < |used.otps| ==> !p(used.otps[j]) by {
      forall j | 0 <= j < |used.otps|
        ensures !p(used.otps[j])
      {
        if j < n {
          assert used.otps[j] == issued.otps[j];
        }
      }
    }
  }

  // ------------------------------------------------------------------ registration

  /** Some code for this address has been used (`is_used = 1`). */
  predicate EmailVerified(t: Tables, email: string) {
    exists i :: 0 <= i < |t.otps| && t.otps[i].email == Lower(email) && t.otps[i].isUsed
  }

  /** `AuthManager.register_user`: the checks in order (address, password,
      existing user, verified address), then one new active, verified user. */
  function RegisterUser(t: Tables, email: string, password: string, salt: string,
                        hashOf: (string, string) -> string): (r: Step)
    ensures r.reply.ok <==>
              ValidateEmail(email) && StrongPassword(password) && !UserExists(t, email) && EmailVerified(t, email)
    ensures !r.reply.ok ==> r.tables == t
    ensures !ValidateEmail(email) ==> r.reply == Reply(false, InvalidEmail)
    ensures ValidateEmail(email) && !StrongPassword(password) ==> r.reply == ValidatePassword(password)
    ensures ValidateEmail(email) && StrongPassword(password) && UserExists(t, email) ==> r.reply == Reply(false, UserTaken)
    ensures (ValidateEmail(email) && StrongPassword(password) && !UserExists(t, email) && !EmailVerified(t, email))
              ==> r.reply == Reply(false, NotVerifiedForRegistration)
    ensures r.reply.ok ==> r.reply == Reply(true, Registered)
    ensures r.reply.ok ==>
              r.tables == t.(users := t.users + [User(|t.users| + 1, Lower(email), hashOf(password, salt), salt, None, true, true)])
  {
    if !ValidateEmail(email) then Step(Reply(false, InvalidEmail), t)
    else if !ValidatePassword(password).ok then Step(ValidatePassword(password), t)
    else if UserExists(t, email) then Step(Reply(false, UserTaken), t)
    else if !EmailVerified(t, email) then Step(Reply(false, NotVerifiedForRegistration), t)
    else
      var user := User(|t.users| + 1, Lower(email), hashOf(password, salt), salt, None, true, true);
      Step(Reply(true, Registered), t.(users := t.users + [user]))
  }

  /** Registration keeps addresses unique. */
  lemma RegisterKeepsEmailsUnique(t: Tables, email: string, password: string, salt: string,
                                  hashOf: (string, string) -> string)
    requires UniqueEmails(t.users)
    ensures UniqueEmails(RegisterUser(t, email, password, salt, hashOf).tables.users)
  {
  }

  // ------------------------------------------------------------------ sessions

  function IsActiveFor(userId: nat): Session -> bool {
    (s: Session) => s.userId == userId && s.isActive
  }

  /** Every user has at most one active session. */
  predicate OneActiveSessionEach(sessions: seq<Session>) {
    forall i, j :: 0 <= i < j < |sessions| && sessions[i].isActive && sessions[j].isActive
      ==> sessions[i].userId != sessions[j].userId
  }

  /** Marks inactive every session `doomed` selects. */
  function Deactivate(sessions: seq<Session>, doomed: Session -> bool): (r: seq<Session>)
    ensures |r| == |sessions|
    ensures forall i :: 0 <= i < |r| ==>
              r[i] == if doomed(sessions[i]) then sessions[i].(isActive := false) else sessions[i]
  {
    seq(|sessions|, i requires 0 <= i < |sessions| =>
      if doomed(sessions[i]) then sessions[i].(isActive := false) else sessions[i])
  }

  predicate TokenTaken(sessions: seq<Session>, token: string) {
    exists i :: 0 <= i < |sessions| && sessions[i].token == token
  }

  /** `AuthManager._create_session`: deactivate the user's sessions and add
      a seven-day one. A token already in the table violates `UNIQUE`; the
      transaction is rolled back and no token is returned. */
  function CreateSession(t: Tables, userId: nat, token: string, now: int): (r: (Option<string>, Tables))
    ensures TokenTaken(t.sessions, token) ==> r == (None, t)
    ensures !TokenTaken(t.sessions, token) ==>
              var ss := r.1.sessions;
              && r.0 == Some(token)
              && r.1.users == t.users && r.1.otps == t.otps
              && |ss| == |t.sessions| + 1
              && ss[|ss| - 1] == Session(userId, token, now + SessionLifetime, true)
              && (forall i :: 0 <= i < |ss| - 1 ==> ss[i].userId == userId ==> !ss[i].isActive)
              && (forall i :: 0 <= i < |ss| - 1 ==> ss[i].userId != userId ==> ss[i] == t.sessions[i])
  {
    if TokenTaken(t.sessions, token) then (None, t)
    else
      var kept := Deactivate(t.sessions, IsActiveFor(userId));
      (Some(token), t.(sessions := kept + [Session(userId, token, now + SessionLifetime, true)]))
  }

  /** Creating a session keeps at most one active session per user. */
  lemma CreateSessionKeepsOneActive(t: Tables, userId: nat, token: string, now: int)
    requires OneActiveSessionEach(t.sessions)
    ensures OneActiveSessionEach(CreateSession(t, userId, token, now).1.sessions)
  {
  }

  /** What `validate_session` reports for a live token. */
  datatype SessionInfo = SessionInfo(userId: nat, email: string, expiresAt: int)

  function IsLive(token: string, now: int): Session -> bool {
    (s: Session) => s.token == token && s.isActive && s.expiresAt > now
  }

  function HasId(id: nat): User -> bool {
    (u: User) => u.id == id
  }

  /** `AuthManager.validate_session`: the join of an active, unexpired
      session with this token and its user. */
  function ValidateSession(t: Tables, token: string, now: int): (r: Option<SessionInfo>)
    ensures r.Some? ==>
              exists i, j :: 0 <= i < |t.sessions| && 0 <= j < |t.users|
                && IsLive(token, now)(t.sessions[i]) && t.users[j].id == t.sessions[i].userId
                && r.value == SessionInfo(t.users[j].id, t.users[j].email, t.sessions[i].expiresAt)
    ensures r.None? ==>
              forall i :: 0 <= i < |t.sessions| && IsLive(token, now)(t.sessions[i]) ==>
                forall j :: 0 <= j < |t.users| ==> t.users[j].id != t.sessions[i].userId
  {
    var live := Filter(IsLive(token, now), t.sessions);
    JoinFirst(t, live, token, now)
  }

  /** The first live session, in table order, that has a user. */
  function JoinFirst(t: Tables, live: seq<Session>, token: string, now: int): (r: Option<SessionInfo>)
    requires forall s :: s in live ==> s in t.sessions && IsLive(token, now)(s)
    ensures r.Some? ==>
              exists i, j :: 0 <= i < |t.sessions| && 0 <= j < |t.users|
                && IsLive(token, now)(t.sessions[i]) && t.users[j].id == t.sessions[i].userId
                && r.value == SessionInfo(t.users[j].id, t.users[j].email, t.sessions[i].expiresAt)
    ensures r.None? ==>
              forall s :: s in live ==> forall j :: 0 <= j < |t.users| ==> t.users[j].id != s.userId
    decreases |live|
  {
    if |live| == 0 then None
    else
      match FirstIndex(t.users, HasId(live[0].userId))
      case Some(j) =>
        var s := live[0];
        assert s in t.sessions;
        var i :| 0 <= i < |t.sessions| && t.sessions[i] == s;
        Some(SessionInfo(t.users[j].id, t.users[j].email, s.expiresAt))
      case None =>
        JoinFirst(t, live[1..], token, now)
  }

  /** `AuthManager.logout_user`: every session with the token is
      deactivated; nothing else changes. */
  function LogoutUser(t: Tables, token: string): (r: Tables)
    ensures r.users == t.users && r.otps == t.otps && |r.sessions| == |t.sessions|
    ensures forall i :: 0 <= i < |r.sessions| ==>
              && (r.sessions[i].token == token ==> !r.sessions[i].isActive)
              && (r.sessions[i].token != token ==> r.sessions[i] == t.sessions[i])
  {
    t.(sessions := Deactivate(t.sessions, (s: Session) => s.token == token))
  }

  /** After logging out, the token no longer validates. */
  lemma LogoutInvalidates(t: Tables, token: string, now: int)
    ensures ValidateSession(LogoutUser(t, token), token, now).None?
  {
  }

  /** A freshly created session validates, for its user, until it expires. */
  lemma CreatedSessionValidates(t: Tables, userId: nat, token: string, now: int, later: int)
    requires !TokenTaken(t.sessions, token)
    requires forall j :: 0 <= j < |t.users| ==> t.users[j].id == j + 1
    requires 1 <= userId <= |t.users|
    ensures var after := CreateSession(t, userId, token, now).1;
            var r := ValidateSession(after, token, later);
            (r.Some? <==> later < now + SessionLifetime)
            && (r.Some? ==> r.value.userId == userId && r.value.email == t.users[userId - 1].email)
  {
    var after := CreateSession(t, userId, token, now).1;
    var ss := after.sessions;
    var n := |ss| - 1;
    assert forall i :: 0 <= i < n ==> ss[i].token != token by {
      forall i | 0 <= i < n
        ensures ss[i].token != token
      {
        assert ss[i].token == t.sessions[i].token;
      }
    }
    assert after.users[userId - 1].id == userId;
    if later < now + SessionLifetime {
      assert IsLive(token, later)(ss[n]);
    }
  }

  // ------------------------------------------------------------------ login

  /** What a successful login returns. `token` is `None` when session
      creation failed; the login still succeeds. */
  datatype LoginInfo = LoginInfo(userId: nat, email: string, token: Option<string>)

  datatype Login = Login(reply: Reply, info: Option<LoginInfo>, tables: Tables)

  function IsActiveUser(email: string): User -> bool {
    (u: User) => u.email == email && u.isActive
  }

  /** `AuthManager.login_user`: find the active user by lower-cased address,
      reject an unverified one before looking at the password, compare the
      salted hash, then record the login time and open a session. */
  function LoginUser(t: Tables, email: string, password: string, now: int,
                     hashOf: (string, string) -> string, token: string): (r: Login)
    ensures var i := FirstIndex(t.users, IsActiveUser(Lower(email)));
            && (i.None? ==> r == Login(Reply(false, BadCredentials), None, t))
            && (i.Some? && !t.users[i.value].isVerified ==> r == Login(Reply(false, NotVerifiedForLogin), None, t))
            && (i.Some? && t.users[i.value].isVerified ==>
                  var u := t.users[i.value];
                  && (r.reply.ok <==> hashOf(password, u.salt) == u.passwordHash)
                  && (!r.reply.ok ==> r == Login(Reply(false, BadCredentials), None, t))
                  && (r.reply.ok ==>
                        var (tok, after) := CreateSession(t.(users := t.users[i.value := u.(lastLogin := Some(now))]),
                                                          u.id, token, now);
                        r == Login(Reply(true, LoggedIn), Some(LoginInfo(u.id, u.email, tok)), after)))
  {
    match FirstIndex(t.users, IsActiveUser(Lower(email)))
    case None => Login(Reply(false, BadCredentials), None, t)
    case Some(i) =>
      var u := t.users[i];
      if !u.isVerified then Login(Reply(false, NotVerifiedForLogin), None, t)
      else if hashOf(password, u.salt) != u.passwordHash then Login(Reply(false, BadCredentials), None, t)
      else
        var (tok, after) := CreateSession(t.(users := t.users[i := u.(lastLogin := Some(now))]), u.id, token, now);
        Login(Reply(true, LoggedIn), Some(LoginInfo(u.id, u.email, tok)), after)
  }

  /** An unknown address and a wrong password are indistinguishable to the
      caller. */
  lemma LoginHidesWhichCredentialFailed(t: Tables, unknown: string, known: string, wrong: string, now: int,
                                        hashOf: (string, string) -> string, token: string)
    requires FirstIndex(t.users, IsActiveUser(Lower(unknown))).None?
    requires var i := FirstIndex(t.users, IsActiveUser(Lower(known)));
             i.Some? && t.users[i.value].isVerified
             && hashOf(wrong, t.users[i.value].salt) != t.users[i.value].passwordHash
    ensures LoginUser(t, unknown, wrong, now, hashOf, token).reply
         == LoginUser(t, known, wrong, now, hashOf, token).reply
  {
  }

  /** An unverified account is turned away whatever password is given. */
  lemma UnverifiedIgnoresPassword(t: Tables, email: string, p1: string, p2: string, now: int,
                                  hashOf: (string, string) -> string, token: string)
    requires var i := FirstIndex(t.users, IsActiveUser(Lower(email)));
             i.Some? && !t.users[i.value].isVerified
    ensures LoginUser(t, email, p1, now, hashOf, token) == LoginUser(t, email, p2, now, hashOf, token)
  {
  }

  /** `login_user` as it runs: the `UPDATE` of `last_login` opens a write
      transaction on the login's connection, which commits only after
      `_create_session` returns. `_create_session` writes through a second
      connection, so its first `UPDATE` waits out the busy timeout and
      raises "database is locked"; the handler returns no token and its
      writes are rolled back. The login still succeeds. */
  function LoginUserAsWritten(t: Tables, email: string, password: string, now: int,
                              hashOf: (string, string) -> string): (r: Login)
    ensures forall token :: r.reply == LoginUser(t, email, password, now, hashOf, token).reply
    ensures !r.reply.ok ==> r.info.None? && r.tables == t
    ensures r.reply.ok ==>
              var i := FirstIndex(t.users, IsActiveUser(Lower(email)));
              && i.Some?
              && r.info == Some(LoginInfo(t.users[i.value].id, t.users[i.value].email, None))
              && r.tables.sessions == t.sessions && r.tables.otps == t.otps
              && r.tables.users == t.users[i.value := t.users[i.value].(lastLogin := Some(now))]
  {
    match FirstIndex(t.users, IsActiveUser(Lower(email)))
    case None => Login(Reply(false, BadCredentials), None, t)
    case Some(i) =>
      var u := t.users[i];
      if !u.isVerified then Login(Reply(false, NotVerifiedForLogin), None, t)
      else if hashOf(password, u.salt) != u.passwordHash then Login(Reply(false, BadCredentials), None, t)
      else Login(Reply(true, LoggedIn), Some(LoginInfo(u.id, u.email, None)), t.(users := t.users[i := u.(lastLogin := Some(now))]))
  }

  /** No live session with a token means the token does not validate. */
  lemma UnknownTokenInvalid(t: Tables, token: string, now: int)
    requires !TokenTaken(t.sessions, token)
    ensures ValidateSession(t, token, now).None?
  {
  }

  /** So a successful login as written hands the page no token, and a
      token it would have drawn never validates: the user is logged in with
      no session, where the intended login opens one. */
  lemma AsWrittenLoginHasNoSession(t: Tables, email: string, password: string, now: int,
                                   hashOf: (string, string) -> string, token: string, later: int)
    requires LoginUserAsWritten(t, email, password, now, hashOf).reply.ok
    requires !TokenTaken(t.sessions, token)
    ensures LoginUserAsWritten(t, email, password, now, hashOf).info.value.token.None?
    ensures ValidateSession(LoginUserAsWritten(t, email, password, now, hashOf).tables, token, later).None?
    ensures LoginUser(t, email, password, now, hashOf, token).info.value.token == Some(token)
  {
    UnknownTokenInvalid(LoginUserAsWritten(t, email, password, now, hashOf).tables, token, later);
  }

  /** The intended login opens a session that validates, for the user who
      logged in, until it expires (ids are 1, 2, 3, ... in table order). */
  lemma LoginOpensSession(t: Tables, email: string, password: string, now: int,
                          hashOf: (string, string) -> string, token: string, later: int)
    requires forall j :: 0 <= j < |t.users| ==> t.users[j].id == j + 1
    requires !TokenTaken(t.sessions, token)
    requires LoginUser(t, email, password, now, hashOf, token).reply.ok
    ensures var r := LoginUser(t, email, password, now, hashOf, token);
            var v := ValidateSession(r.tables, token, later);
            && r.info.Some? && r.info.value.token == Some(token)
            && (v.Some? <==> later < now + SessionLifetime)
            && (v.Some? ==> v.value.userId == r.info.value.userId && v.value.email == r.info.value.email)
  {
    var i := FirstIndex(t.users, IsActiveUser(Lower(email))).value;
    var u := t.users[i];
    var t1 := t.(users := t.users[i := u.(lastLogin := Some(now))]);
    assert forall j :: 0 <= j < |t1.users| ==> t1.users[j].id == j + 1;
    CreatedSessionValidates(t1, u.id, token, now, later);
  }

  // ------------------------------------------------------------------ password reset

  /** `SELECT is_verified FROM users WHERE email = ? AND is_active = 1`
      finds a verified row. */
  predicate ActiveVerified(t: Tables, email: string) {
    var i := FirstIndex(t.users, IsActiveUser(Lower(email)));
    i.Some? && t.users[i.value].isVerified
  }

  /** `AuthManager.generate_password_reset_otp`: for an existing, active and
      verified account, replace its reset codes by one fifteen-minute code
      stored with the `RESET_` mark; the row stays even when sending fails. */
  function GeneratePasswordResetOtp(t: Tables, email: string, code: string, now: int, sent: bool): (r: Step)
    ensures !ValidateEmail(email) ==> r == Step(Reply(false, InvalidEmail), t)
    ensures ValidateEmail(email) && !UserExists(t, email) ==> r == Step(Reply(false, NoAccount), t)
    ensures (ValidateEmail(email) && UserExists(t, email) && !ActiveVerified(t, email))
              ==> r == Step(Reply(false, AccountNotVerified), t)
    ensures ValidateEmail(email) && UserExists(t, email) && ActiveVerified(t, email) ==>
              var otps := r.tables.otps;
              && r.tables.users == t.users && r.tables.sessions == t.sessions
              && |otps| > 0
              && otps[|otps| - 1] == Otp(Lower(email), ResetPrefix + code, now, now + ResetOtpLifetime, false, 0)
              && (forall i :: 0 <= i < |otps| - 1 ==> !IsResetFor(Lower(email))(otps[i]))
              && (forall o :: !IsResetFor(Lower(email))(o) ==> (o in otps <==> o in t.otps))
              && (forall q: Otp -> bool :: (forall o :: q(o) ==> !IsResetFor(Lower(email))(o)) ==> Filter(q, otps) == Filter(q, t.otps))
              && r.reply == (if sent then Reply(true, ResetSent) else Reply(false, ResetNotSent))
  {
    if !ValidateEmail(email) then Step(Reply(false, InvalidEmail), t)
    else if !UserExists(t, email) then Step(Reply(false, NoAccount), t)
    else if !ActiveVerified(t, email) then Step(Reply(false, AccountNotVerified), t)
    else
      var e := Lower(email);
      ResetCodesAreLikeReset(code);
      var otps := ReplaceCodes(t.otps, IsResetFor(e), Otp(e, ResetPrefix + code, now, now + ResetOtpLifetime, false, 0));
      Step(if sent then Reply(true, ResetSent) else Reply(false, ResetNotSent), t.(otps := otps))
  }

  /** Issuing a reset code for one address does not change how a code check
      for any other address ends. */
  lemma ResetIssuingKeepsOtherChecks(t: Tables, email: string, code: string, now: int, sent: bool,
                                     other: string, entered: string, later: int, resetFlow: bool)
    requires Lower(other) != Lower(email)
    ensures var after := GeneratePasswordResetOtp(t, email, code, now, sent).tables;
            CheckCode(after, other, entered, later, resetFlow).0 == CheckCode(t, other, entered, later, resetFlow).0
  {
    var after := GeneratePasswordResetOtp(t, email, code, now, sent).tables;
    var q := Candidate(Lower(other), resetFlow);
    assert forall o :: q(o) ==> !IsResetFor(Lower(email))(o);
    SameRowsSameCheck(t, after, other, entered, later, resetFlow);
  }

  /** A reset code has been used within the last thirty minutes. */
  predicate ResetAuthorized(t: Tables, email: string, now: int) {
    exists i :: 0 <= i < |t.otps| && IsResetFor(Lower(email))(t.otps[i]) && t.otps[i].isUsed
                && t.otps[i].createdAt > now - ResetWindow
  }

  /** Sets the new hash and salt, and stamps the login time, on the active
      rows for the address. */
  function Rehash(users: seq<User>, email: string, hash: string, salt: string, now: int): (r: seq<User>)
    ensures |r| == |users|
    ensures forall i :: 0 <= i < |r| ==>
              r[i] == if IsActiveUser(email)(users[i])
                      then users[i].(passwordHash := hash, salt := salt, lastLogin := Some(now))
                      else users[i]
  {
    seq(|users|, i requires 0 <= i < |users| =>
      if IsActiveUser(email)(users[i]) then users[i].(passwordHash := hash, salt := salt, lastLogin := Some(now))
      else users[i])
  }

  /** The sessions of the user `SELECT id FROM users WHERE email = ?` finds. */
  function SessionsOf(users: seq<User>, email: string): Session -> bool {
    var i := FirstIndex(users, (u: User) => u.email == email);
    (s: Session) => i.Some? && s.userId == users[i.value].id
  }

  /** `AuthManager.reset_password`: after the checks (address, password
      strength, account, a recently used reset code), store the new salted
      hash, end all the user's sessions and delete the address's reset
      codes. */
  function ResetPassword(t: Tables, email: string, newPassword: string, now: int, salt: string,
                         hashOf: (string, string) -> string): (r: Step)
    ensures r.reply.ok <==>
              ValidateEmail(email) && StrongPassword(newPassword) && UserExists(t, email) && ResetAuthorized(t, email, now)
    ensures !r.reply.ok ==> r.tables == t
    ensures !ValidateEmail(email) ==> r.reply == Reply(false, InvalidEmail)
    ensures ValidateEmail(email) && !StrongPassword(newPassword) ==> r.reply == ValidatePassword(newPassword)
    ensures ValidateEmail(email) && StrongPassword(newPassword) && !UserExists(t, email) ==> r.reply == Reply(false, NoAccount)
    ensures (ValidateEmail(email) && StrongPassword(newPassword) && UserExists(t, email) && !ResetAuthorized(t, email, now))
              ==> r.reply == Reply(false, ResetNotAuthorized)
    ensures r.reply.ok ==> r.reply == Reply(true, PasswordReset)
    ensures r.reply.ok ==>
              && r.tables.users == Rehash(t.users, Lower(email), hashOf(newPassword, salt), salt, now)
              && r.tables.sessions == Deactivate(t.sessions, SessionsOf(t.users, Lower(email)))
              && (forall o :: o in r.tables.otps <==> o in t.otps && !IsResetFor(Lower(email))(o))
              && (forall q: Otp -> bool :: (forall o :: q(o) ==> !IsResetFor(Lower(email))(o)) ==> Filter(q, r.tables.otps) == Filter(q, t.otps))
  {
    if !ValidateEmail(email) then Step(Reply(false, InvalidEmail), t)
    else if !ValidatePassword(newPassword).ok then Step(ValidatePassword(newPassword), t)
    else if !UserExists(t, email) then Step(Reply(false, NoAccount), t)
    else if !ResetAuthorized(t, email, now) then Step(Reply(false, ResetNotAuthorized), t)
    else
      var e := Lower(email);
      var users := Rehash(t.users, e, hashOf(newPassword, salt), salt, now);
      var sessions := Deactivate(t.sessions, SessionsOf(t.users, e));
      var otps := KeepOtps(t.otps, IsResetFor(e));
      Step(Reply(true, PasswordReset), Tables(users, sessions, otps))
  }

  /** A password reset for one address does not change how a code check for
      any other address ends. */
  lemma ResetKeepsOtherChecks(t: Tables, email: string, newPassword: string, now: int, salt: string,
                              hashOf: (string, string) -> string, other: string, entered: string, later: int,
                              resetFlow: bool)
    requires Lower(other) != Lower(email)
    ensures var after := ResetPassword(t, email, newPassword, now, salt, hashOf).tables;
            CheckCode(after, other, entered, later, resetFlow).0 == CheckCode(t, other, entered, later, resetFlow).0
  {
    var after := ResetPassword(t, email, newPassword, now, salt, hashOf).tables;
    var q := Candidate(Lower(other), resetFlow);
    assert forall o :: q(o) ==> !IsResetFor(Lower(email))(o);
    SameRowsSameCheck(t, after, other, entered, later, resetFlow);
  }

  /** After a reset, none of the user's old sessions validates and a second
      reset needs a new code. */
  lemma ResetEndsSessions(t: Tables, email: string, newPassword: string, now: int, salt: string,
                          hashOf: (string, string) -> string, token: string, later: int)
    requires ResetPassword(t, email, newPassword, now, salt, hashOf).reply.ok
    requires FirstIndex(t.users, (u: User) => u.email == Lower(email)).Some?
    requires forall i :: 0 <= i < |t.sessions| && t.sessions[i].token == token ==>
               SessionsOf(t.users, Lower(email))(t.sessions[i])
    ensures var after := ResetPassword(t, email, newPassword, now, salt, hashOf).tables;
            ValidateSession(after, token, later).None?
            && !ResetAuthorized(after, email, later)
  {
    var after := ResetPassword(t, email, newPassword, now, salt, hashOf).tables;
    assert forall i :: 0 <= i < |after.sessions| ==> !IsLive(token, later)(after.sessions[i]);
    forall i | 0 <= i < |after.otps|
      ensures !IsResetFor(Lower(email))(after.otps[i])
    {
      assert after.otps[i] in after.otps;
    }
  }

  /** After a reset, the new password logs in an active, verified account
      (and the old one no longer does, unless both hash alike). */
  lemma ResetThenLogin(t: Tables, email: string, newPassword: string, now: int, salt: string,
                       hashOf: (string, string) -> string, later: int, token: string, oldPassword: string)
    requires ResetPassword(t, email, newPassword, now, salt, hashOf).reply.ok
    requires ActiveVerified(t, email)
    ensures var after := ResetPassword(t, email, newPassword, now, salt, hashOf).tables;
            LoginUser(after, email, newPassword, later, hashOf, token).reply.ok
            && (hashOf(oldPassword, salt) != hashOf(newPassword, salt) ==>
                  !LoginUser(after, email, oldPassword, later, hashOf, token).reply.ok)
  {
    var e := Lower(email);
    var after := ResetPassword(t, email, newPassword, now, salt, hashOf).tables;
    var p := IsActiveUser(e);
    var i := FirstIndex(t.users, p).value;
    assert p(after.users[i]);
    assert forall j :: 0 <= j < i ==> !p(after.users[j]);
    FirstIndexUnique(after.users, p, i);
  }

  lemma FirstIndexUnique<T>(xs: seq<T>, p: T -> bool, i: nat)
    requires i < |xs| && p(xs[i]) && forall j :: 0 <= j < i ==> !p(xs[j])
    ensures FirstIndex(xs, p) == Some(i)
  {
  }
}

=== FILE: chat.dfy ===
/** The retrieval-augmented responder of `app/pages/chat.py` (`RAGChatbot`)
    and the example questions the chat page offers.

    The vector store is a ranking: for a query it yields the hits nearest
    first, or `None` when the search raises. `similarity_search_with_score(q,
    k)` and `similarity_search(q, k)` both return the first `k` of that
    ranking. The text-generation endpoint is a function from the prompt to
    what the HTTP request did. Streamlit spinners and error banners are not
    modelled. */
module Chat {
  import opened Wrappers
  import opened Text
  import opened Seqs

  // ------------------------------------------------------------------ retrieval

  /** One search hit: the chunk's text, its metadata and its distance to the
      query (lower is closer). */
  datatype Hit = Hit(content: string, metadata: string, score: real)

  /** The vector store as the responder sees it. */
  datatype Database = Database(rank: string -> Option<seq<Hit>>)

  /** Hits at this distance or more are not relevant enough on the first try. */
  const RelevanceThreshold: real := 1.5

  /** How many hits the broader fallback search asks for at most. */
  const FallbackHits: nat := 3

  predicate Relevant(h: Hit) {
    h.score < RelevanceThreshold
  }

  function Contents(hits: seq<Hit>): (cs: seq<string>)
    ensures |cs| == |hits|
    ensures forall i :: 0 <= i < |hits| ==> cs[i] == hits[i].content
  {
    seq(|hits|, i requires 0 <= i < |hits| => hits[i].content)
  }

  lemma ContentsSnoc(hits: seq<Hit>, h: Hit)
    ensures Contents(hits + [h]) == Contents(hits) + [h.content]
  {
  }

  /** Every content listed comes from one of the hits. */
  lemma ContentsFrom(hits: seq<Hit>, c: string)
    requires c in Contents(hits)
    ensures exists i :: 0 <= i < |hits| && hits[i].content == c
  {
    var cs := Contents(hits);
    var i :| 0 <= i < |cs| && cs[i] == c;
    assert hits[i].content == c;
  }

  /** Reference definition of what `retrieve_context` returns for a ranking
      that did not raise: the contents of the relevant hits among the first
      `k`, in ranking order; when there are none, the contents of the first
      `min(k, 3)` hits regardless of distance. */
  function ContextOf(hits: seq<Hit>, k: nat): seq<string> {
    var close := Filter(Relevant, Take(hits, k));
    if |close| > 0 then Contents(close) else Contents(Take(hits, Min(k, FallbackHits)))
  }

  /** The retrieved context never exceeds `k` chunks, and each chunk is the
      text of one of the first `k` hits. */
  lemma ContextOfFromTop(hits: seq<Hit>, k: nat)
    ensures |ContextOf(hits, k)| <= k
    ensures forall c :: c in ContextOf(hits, k) ==> exists i :: 0 <= i < Min(k, |hits|) && hits[i].content == c
  {
    var top := Take(hits, k);
    var close := Filter(Relevant, top);
    forall c | c in ContextOf(hits, k)
      ensures exists i :: 0 <= i < Min(k, |hits|) && hits[i].content == c
    {
      if |close| > 0 {
        ContentsFrom(close, c);
        var j :| 0 <= j < |close| && close[j].content == c;
        assert close[j] in top;
        var i :| 0 <= i < |top| && top[i] == close[j];
        assert hits[i].content == c;
      } else {
        var few := Take(hits, Min(k, FallbackHits));
        ContentsFrom(few, c);
        var i :| 0 <= i < |few| && few[i].content == c;
        assert hits[i].content == c;
      }
    }
  }

  /** When some of the first `k` hits is relevant, every chunk is the text of
      a relevant one among them: the fallback is not used. */
  lemma ContextOfOnlyRelevant(hits: seq<Hit>, k: nat, c: string)
    requires exists i :: 0 <= i < Min(k, |hits|) && Relevant(hits[i])
    requires c in ContextOf(hits, k)
    ensures exists i :: 0 <= i < Min(k, |hits|) && Relevant(hits[i]) && hits[i].content == c
  {
    var top := Take(hits, k);
    var close := Filter(Relevant, top);
    var i :| 0 <= i < Min(k, |hits|) && Relevant(hits[i]);
    assert top[i] in close;
    ContentsFrom(close, c);
    var j :| 0 <= j < |close| && close[j].content == c;
    assert close[j] in top;
    var m :| 0 <= m < |top| && top[m] == close[j];
    assert Relevant(hits[m]) && hits[m].content == c;
  }

  /** The text of every relevant hit among the first `k` is in the context. */
  lemma ContextOfAllRelevant(hits: seq<Hit>, k: nat, i: nat)
    requires i < Min(k, |hits|) && Relevant(hits[i])
    ensures hits[i].content in ContextOf(hits, k)
  {
    var top := Take(hits, k);
    var close := Filter(Relevant, top);
    assert top[i] in close;
    var j :| 0 <= j < |close| && close[j] == top[i];
    assert Contents(close)[j] == hits[i].content;
  }

  /** `RAGChatbot.retrieve_context`: no database or a raising search gives no
      context; otherwise the scan keeps the relevant hits' texts and falls
      back to the broader search when it kept none. */
  method RetrieveContext(db: Option<Database>, query: string, k: nat) returns (r: seq<string>)
    ensures db.None? ==> r == []
    ensures db.Some? && db.value.rank(query).None? ==> r == []
    ensures db.Some? && db.value.rank(query).Some? ==> r == ContextOf(db.value.rank(query).value, k)
  {
    if db.None? {
      return [];
    }
    match db.value.rank(query)
    case None =>
      return [];
    case Some(ranking) =>
      var results := Take(ranking, k);
      r := [];
      for i := 0 to |results|
        invariant r == Contents(Filter(Relevant, results[..i]))
      {
        var hit := results[i];
        FilterAppend(Relevant, results[..i], [hit]);
        assert results[..i + 1] == results[..i] + [hit];
        assert Filter(Relevant, [hit]) == if Relevant(hit) then [hit] else [];
        if Relevant(hit) {
          ContentsSnoc(Filter(Relevant, results[..i]), hit);
          r := r + [hit.content];
        }
      }
      assert results[..|results|] == results;
      if |r| == 0 {
        r := Contents(Take(ranking, Min(k, FallbackHits)));
      }
  }

  // ------------------------------------------------------------------ query variants

  const QuestionWords: seq<string> := ["what", "how", "why", "when", "where", "who"]

  /** `s.startswith(tuple(ps))`. */
  function StartsWithAny(s: string, ps: seq<string>): (b: bool)
    ensures b <==> exists i :: 0 <= i < |ps| && StartsWith(s, ps[i])
    decreases |ps|
  {
    if |ps| == 0 then false
    else StartsWith(s, ps[0]) || StartsWithAny(s, ps[1..])
  }

  /** `any(w in s for w in ws)`. */
  function ContainsAny(s: string, ws: seq<string>): (b: bool)
    ensures b <==> exists i :: 0 <= i < |ws| && Contains(s, ws[i])
    decreases |ws|
  {
    if |ws| == 0 then false
    else Contains(s, ws[0]) || ContainsAny(s, ws[1..])
  }

  /** The question rule applies: the lower-cased query starts with a question
      word and has words after the first. */
  predicate AsksQuestion(query: string) {
    StartsWithAny(Lower(query), QuestionWords) && |Words(query)| > 1
  }

  /** The topic rule applies: the lower-cased query mentions explaining or
      describing. */
  predicate AsksTopic(query: string) {
    Contains(Lower(query), "explain") || Contains(Lower(query), "describe")
  }

  /** The question's words after the first, joined by single spaces. */
  function KeyTerms(query: string): string
    requires |Words(query)| > 1
  {
    Join(Words(query)[1..], " ")
  }

  /** The lower-cased query with every "explain" and then every "describe"
      removed, stripped of surrounding whitespace. */
  function Topic(query: string): string {
    Strip(RemoveAll(RemoveAll(Lower(query), "explain"), "describe"))
  }

  /** `RAGChatbot.enhance_query`: the query itself, then the key terms of a
      question, then the topic of an explain/describe request. */
  function EnhanceQuery(query: string): (qs: seq<string>)
    ensures 1 <= |qs| <= 3 && qs[0] == query
    ensures |qs| == 1 + (if AsksQuestion(query) then 1 else 0) + (if AsksTopic(query) then 1 else 0)
    ensures AsksQuestion(query) ==> qs[1] == KeyTerms(query)
    ensures AsksTopic(query) ==> qs[|qs| - 1] == Topic(query)
  {
    var lowered := Lower(query);
    var words := Words(query);
    var terms := if |words| > 0 then words[1..] else [];
    var withTerms := if StartsWithAny(lowered, QuestionWords) && |terms| > 0 then [query, Join(terms, " ")] else [query];
    if Contains(lowered, "explain") || Contains(lowered, "describe") then withTerms + [Topic(query)] else withTerms
  }

  /** The key-terms variant splits back into exactly the question's words
      after the first. */
  lemma KeyTermsRoundTrip(query: string)
    requires AsksQuestion(query)
    ensures Words(EnhanceQuery(query)[1]) == Words(query)[1..]
  {
    var ws := Words(query);
    WordsAreWords(query);
    assert forall i :: 0 <= i < |ws[1..]| ==> IsWord(ws[1..][i]) by {
      forall i | 0 <= i < |ws[1..]|
        ensures IsWord(ws[1..][i])
      {
        assert ws[1..][i] == ws[i + 1];
      }
    }
    WordsJoinRoundTrip(ws[1..]);
  }

  /** The topic variant is already stripped. */
  lemma TopicStripped(query: string)
    requires AsksTopic(query)
    ensures Strip(EnhanceQuery(query)[|EnhanceQuery(query)| - 1]) == EnhanceQuery(query)[|EnhanceQuery(query)| - 1]
  {
    StripIdempotent(RemoveAll(RemoveAll(Lower(query), "explain"), "describe"));
  }

  /** The variants of a query that triggers neither rule are just the query. */
  lemma PlainQueryUnchanged(query: string)
    requires !AsksQuestion(query) && !AsksTopic(query)
    ensures EnhanceQuery(query) == [query]
  {
  }

  // ------------------------------------------------------------------ enhanced retrieval

  /** Context retrieval as a function of the query, for a fixed store and `k`. */
  function ContextFor(db: Database, k: nat): string -> seq<string> {
    (q: string) => if db.rank(q).Some? then ContextOf(db.rank(q).value, k) else []
  }

  /** How many chunks each of `n` variants asks for when `k` are wanted. */
  function PerVariant(k: nat, n: nat): (per: nat)
    requires n > 0
    ensures per > 0
    ensures per * n > k
  {
    var per := k / n + 1;
    assert k == (k / n) * n + k % n;
    assert per * n == (k / n) * n + n;
    per
  }

  /** Reference definition of `retrieve_enhanced_context` for a present
      store: every variant's context in variant order, first occurrences
      only, at most `k` of them. */
  function EnhancedContextOf(db: Database, query: string, k: nat): (r: seq<string>)
    ensures NoDuplicates(r) && |r| <= k
  {
    var qs := EnhanceQuery(query);
    Take(Dedup(FlatMap(ContextFor(db, PerVariant(k, |qs|)), qs)), k)
  }

  /** The scan of `retrieve_enhanced_context` that keeps each context the
      first time it is seen, tracking the seen ones in a set. */
  method UniqueContexts(contexts: seq<string>) returns (unique: seq<string>)
    ensures unique == Dedup(contexts)
  {
    var seen: set<string> := {};
    unique := [];
    for i := 0 to |contexts|
      invariant unique == Dedup(contexts[..i])
      invariant forall c :: c in seen <==> c in contexts[..i]
    {
      var c := contexts[i];
      assert contexts[..i + 1][..i] == contexts[..i];
      assert forall x :: x in contexts[..i + 1] <==> x in contexts[..i] || x == c;
      if c !in seen {
        seen := seen + {c};
        unique := unique + [c];
      }
    }
    assert contexts[..|contexts|] == contexts;
  }

  /** The loop of `retrieve_enhanced_context` that retrieves `per` chunks for
      each variant and collects them in variant order. */
  method CollectContexts(db: Database, queries: seq<string>, per: nat) returns (all: seq<string>)
    ensures all == FlatMap(ContextFor(db, per), queries)
  {
    all := [];
    for i := 0 to |queries|
      invariant all == FlatMap(ContextFor(db, per), queries[..i])
    {
      var contexts := RetrieveContext(Some(db), queries[i], per);
      FlatMapAppend(ContextFor(db, per), queries[..i], [queries[i]]);
      assert queries[..i + 1] == queries[..i] + [queries[i]];
      assert FlatMap(ContextFor(db, per), [queries[i]]) == contexts + FlatMap(ContextFor(db, per), []);
      all := all + contexts;
    }
    assert queries[..|queries|] == queries;
  }

  /** `RAGChatbot.retrieve_enhanced_context`: retrieve for every variant with
      `k // n + 1` chunks each, collect, de-duplicate keeping first
      occurrences, and keep the first `k`. */
  method RetrieveEnhancedContext(db: Option<Database>, query: string, k: nat) returns (r: seq<string>)
    ensures db.None? ==> r == []
    ensures db.Some? ==> r == EnhancedContextOf(db.value, query, k)
  {
    if db.None? {
      return [];
    }
    var queries := EnhanceQuery(query);
    var all := CollectContexts(db.value, queries, PerVariant(k, |queries|));
    var unique := UniqueContexts(all);
    r := Take(unique, k);
  }

  /** Every chunk of the enhanced context was retrieved for some variant of
      the query. */
  lemma EnhancedContextFromVariants(db: Database, query: string, k: nat, c: string)
    requires c in EnhancedContextOf(db, query, k)
    ensures exists i :: 0 <= i < |EnhanceQuery(query)| && c in ContextFor(db, PerVariant(k, |EnhanceQuery(query)|))(EnhanceQuery(query)[i])
  {
    var qs := EnhanceQuery(query);
    var f := ContextFor(db, PerVariant(k, |qs|));
    FlatMapMember(f, qs, c);
  }

  lemma {:induction false} FlatMapMember<A, B>(f: A -> seq<B>, xs: seq<A>, y: B)
    requires y in FlatMap(f, xs)
    ensures exists i :: 0 <= i < |xs| && y in f(xs[i])
    decreases |xs|
  {
    if y !in f(xs[0]) {
      FlatMapMember(f, xs[1..], y);
      var i :| 0 <= i < |xs[1..]| && y in f(xs[1..][i]);
      assert xs[1..][i] == xs[i + 1];
    }
  }

  // ------------------------------------------------------------------ sources

  /** Longest chunk text shown unshortened in a source preview. */
  const PreviewLength: nat := 200

  /** A chunk's text as the source panel shows it. */
  function Preview(content: string): (p: string)
    ensures |content| <= PreviewLength ==> p == content
    ensures |content| > PreviewLength ==>
              |p| == PreviewLength + 3 && StartsWith(p, content[..PreviewLength]) && EndsWith(p, "...")
  {
    if |content| > PreviewLength then content[..PreviewLength] + "..." else content
  }

  /** Previewing a preview changes nothing. */
  lemma PreviewIdempotent(content: string)
    ensures Preview(Preview(content)) == Preview(content)
  {
    if |content| > PreviewLength {
      var p := Preview(content);
      assert p[..PreviewLength] == content[..PreviewLength];
      assert p == p[..PreviewLength] + p[PreviewLength..];
    }
  }

  /** One entry of the source panel. */
  datatype Source = Source(content: string, metadata: string, relevance: real)

  /** `RAGChatbot.get_sources`: one entry per hit among the first `k`, in
      ranking order, with its preview, its metadata and its distance. */
  method GetSources(db: Option<Database>, query: string, k: nat) returns (sources: seq<Source>)
    ensures |sources| <= k
    ensures db.None? || db.value.rank(query).None? ==> sources == []
    ensures db.Some? && db.value.rank(query).Some? ==>
              var hits := Take(db.value.rank(query).value, k);
              && |sources| == |hits|
              && forall i :: 0 <= i < |hits| ==>
                   sources[i] == Source(Preview(hits[i].content), hits[i].metadata, hits[i].score)
  {
    if db.None? {
      return [];
    }
    match db.value.rank(query)
    case None =>
      return [];
    case Some(ranking) =>
      var results := Take(ranking, k);
      sources := [];
      for i := 0 to |results|
        invariant |sources| == i
        invariant forall j :: 0 <= j < i ==>
                    sources[j] == Source(Preview(results[j].content), results[j].metadata, results[j].score)
      {
        var hit := results[i];
        sources := sources + [Source(Preview(hit.content), hit.metadata, hit.score)];
      }
  }

  // ------------------------------------------------------------------ prompt

  /** One stored exchange of the conversation history. */
  datatype Exchange = Exchange(user: string, bot: string, contextUsed: nat, timestamp: int)

  const NoContext: string := "No relevant context found."

  /** The context section of the prompt: the chunks separated by blank lines. */
  function ContextText(context: seq<string>): string {
    if |context| > 0 then Join(context, "\n\n") else NoContext
  }

  /** Every retrieved chunk appears in the context text. */
  lemma {:induction false} ContextTextHasChunks(context: seq<string>, i: nat)
    requires i < |context|
    ensures Contains(ContextText(context), context[i])
    decreases |context|
  {
    if |context| == 1 {
      ContainsItself(context[0]);
    } else {
      var rest := Join(context[1..], "\n\n");
      assert ContextText(context) == context[0] + "\n\n" + rest;
      if i == 0 {
        ContainsItself(context[0]);
        ContainsAppend(context[0], "\n\n" + rest, context[0]);
        assert context[0] + ("\n\n" + rest) == ContextText(context);
      } else {
        ContextTextHasChunks(context[1..], i - 1);
        ContainsPrepend(context[0] + "\n\n", rest, context[i]);
      }
    }
  }

  /** The history entries the prompt shows: the last three (`[-3:]`). */
  function RecentHistory(history: seq<Exchange>): (recent: seq<Exchange>)
    ensures |recent| == Min(|history|, 3)
    ensures recent == history[|history| - |recent|..]
  {
    if |history| <= 3 then history else history[|history| - 3..]
  }

  function ExchangeText(e: Exchange): string {
    "Human: " + e.user + "\nAssistant: " + e.bot + "\n\n"
  }

  /** The previous-conversation section of the prompt. */
  function ConversationContext(history: seq<Exchange>): string {
    FlatMap(ExchangeText, RecentHistory(history))
  }

  /** Exchanges older than the last three never reach the prompt. */
  lemma ConversationContextIgnoresOlder(older: seq<Exchange>, recent: seq<Exchange>)
    requires |recent| >= 3
    ensures ConversationContext(older + recent) == ConversationContext(recent)
  {
    var all := older + recent;
    assert all[|all| - 3..] == recent[|recent| - 3..];
  }

  /** How the prompt asks the model to answer. */
  datatype Task = Summary | Comparison | Explanation | Direct

  const SummaryWords: seq<string> := ["summarize", "summary", "overview", "main points"]
  const ComparisonWords: seq<string> := ["compare", "difference", "versus", "vs"]
  const FactualWords: seq<string> := ["what", "when", "where", "who"]
  const ExplanationWords: seq<string> := ["how", "why", "explain"]

  /** The query mentions one of `ws` (as a substring of its lower-cased form). */
  predicate Mentions(query: string, ws: seq<string>) {
    exists i :: 0 <= i < |ws| && Contains(Lower(query), ws[i])
  }

  /** The task of `generate_response`: summary requests win over comparisons,
      comparisons over explanations, and anything else is answered directly. */
  function TaskOf(query: string): (t: Task)
    ensures t == Summary <==> Mentions(query, SummaryWords)
    ensures t == Comparison <==> !Mentions(query, SummaryWords) && Mentions(query, ComparisonWords)
    ensures t == Explanation <==>
              !Mentions(query, SummaryWords) && !Mentions(query, ComparisonWords) && Mentions(query, ExplanationWords)
    ensures t == Direct <==>
              !Mentions(query, SummaryWords) && !Mentions(query, ComparisonWords) && !Mentions(query, ExplanationWords)
  {
    var lowered := Lower(query);
    if ContainsAny(lowered, SummaryWords) then Summary
    else if ContainsAny(lowered, ComparisonWords) then Comparison
    else if ContainsAny(lowered, ExplanationWords) then Explanation
    else Direct
  }

  /** The factual flag is computed but never consulted: a factual question
      that triggers no other rule is answered directly. */
  lemma FactualQuestionsAnsweredDirectly(query: string)
    requires Mentions(query, FactualWords)
    requires !Mentions(query, SummaryWords) && !Mentions(query, ComparisonWords) && !Mentions(query, ExplanationWords)
    ensures TaskOf(query) == Direct
  {
  }

  function Instruction(t: Task): string {
    match t
    case Summary => "Provide a comprehensive summary of the key points from the context."
    case Comparison => "Compare the different aspects mentioned in the context, highlighting similarities and differences."
    case Explanation => "Provide a detailed explanation based on the context, breaking down complex concepts if needed."
    case Direct => "Answer the question directly using information from the context."
  }

  const PromptIntro: string :=
    "You are a helpful AI assistant that answers questions based on provided document context.\n\nPrevious conversation:\n"

  const PromptRules: string :=
    "\n\nInstructions:\n"
    + "1. Base your answer primarily on the provided context\n"
    + "2. If the context is insufficient, clearly state what information is missing\n"
    + "3. Be accurate and cite specific details from the context when relevant\n"
    + "4. Structure your response clearly with bullet points or numbered lists when appropriate\n"
    + "5. If this relates to previous conversation, acknowledge the connection\n"
    + "6. Keep responses focused and informative\n\nAnswer:"

  const ContextLabel: string := "\n\nContext from documents:\n"
  const QuestionLabel: string := "\n\nCurrent question: "
  const TaskLabel: string := "\n\nTask: "

  /** The prompt template filled in with its four parts. */
  function Fill(conversation: string, contextText: string, query: string, instruction: string): string {
    Flatten([PromptIntro, conversation, ContextLabel, contextText, QuestionLabel, query, TaskLabel, instruction, PromptRules])
  }

  /** The prompt `generate_response` sends: it carries the question, the
      recent conversation, the instruction for the question's task and every
      retrieved chunk. */
  function Prompt(query: string, context: seq<string>, history: seq<Exchange>): (p: string)
    ensures Contains(p, query) && Contains(p, ConversationContext(history)) && Contains(p, Instruction(TaskOf(query)))
    ensures forall i :: 0 <= i < |context| ==> Contains(p, context[i])
  {
    var conversation := ConversationContext(history);
    var text := ContextText(context);
    var instruction := Instruction(TaskOf(query));
    ContainsItself(query);
    FillCarries(conversation, text, query, instruction, query);
    ContainsItself(conversation);
    FillCarries(conversation, text, query, instruction, conversation);
    ContainsItself(instruction);
    FillCarries(conversation, text, query, instruction, instruction);
    assert forall i :: 0 <= i < |context| ==> Contains(Fill(conversation, text, query, instruction), context[i]) by {
      forall i | 0 <= i < |context|
        ensures Contains(Fill(conversation, text, query, instruction), context[i])
      {
        ContextTextHasChunks(context, i);
        FillCarries(conversation, text, query, instruction, context[i]);
      }
    }
    Fill(conversation, text, query, instruction)
  }

  /** Text found in one of the parts is found in their concatenation. */
  lemma {:induction false} FlattenCarries(parts: seq<string>, i: nat, p: string)
    requires i < |parts| && Contains(parts[i], p)
    ensures Contains(Flatten(parts), p)
    decreases i
  {
    if i == 0 {
      ContainsAppend(parts[0], Flatten(parts[1..]), p);
    } else {
      FlattenCarries(parts[1..], i - 1, p);
      ContainsPrepend(parts[0], Flatten(parts[1..]), p);
    }
  }

  /** Whatever one of the four parts contains, the filled template contains. */
  lemma FillCarries(conversation: string, contextText: string, query: string, instruction: string, p: string)
    requires Contains(conversation, p) || Contains(contextText, p) || Contains(query, p) || Contains(instruction, p)
    ensures Contains(Fill(conversation, contextText, query, instruction), p)
  {
    var parts := [PromptIntro, conversation, ContextLabel, contextText, QuestionLabel, query, TaskLabel, instruction, PromptRules];
    var i := if Contains(conversation, p) then 1 else if Contains(contextText, p) then 3
             else if Contains(query, p) then 5 else 7;
    FlattenCarries(parts, i, p);
  }

  /** The prompt carries the question, the recent conversation and the
      instruction for the question's task. */
  lemma PromptCarries(query: string, context: seq<string>, history: seq<Exchange>)
    ensures Contains(Prompt(query, context, history), query)
    ensures Contains(Prompt(query, context, history), ConversationContext(history))
    ensures Contains(Prompt(query, context, history), Instruction(TaskOf(query)))
  {
    var conversation := ConversationContext(history);
    var text := ContextText(context);
    var instruction := Instruction(TaskOf(query));
    ContainsItself(query);
    FillCarries(conversation, text, query, instruction, query);
    ContainsItself(conversation);
    FillCarries(conversation, text, query, instruction, conversation);
    ContainsItself(instruction);
    FillCarries(conversation, text, query, instruction, instruction);
  }

  /** The prompt carries every retrieved chunk. */
  lemma PromptCarriesChunk(query: string, context: seq<string>, history: seq<Exchange>, i: nat)
    requires i < |context|
    ensures Contains(Prompt(query, context, history), context[i])
  {
    ContextTextHasChunks(context, i);
    FillCarries(ConversationContext(history), ContextText(context), query, Instruction(TaskOf(query)), context[i]);
  }

  // ------------------------------------------------------------------ generation

  /** What the POST to the generation endpoint did: answered with a status
      and, maybe, a `response` field; timed out; or raised otherwise. */
  datatype HttpOutcome = Answered(status: nat, response: Option<string>) | TimedOut | Raised(message: string)

  const OkStatus: nat := 200

  /** Every failure message starts with this word. */
  const ErrorWord: string := "Error"

  const StatusDetail: string := ": Failed to get response from AI model (Status: "

  const TimeoutDetail: string := ": Request timed out. Please try again."

  const RaisedDetail: string := " generating response: "

  /** Python's `str(KeyError('response'))`, raised when a 200 answer has no
      `response` field. */
  const MissingResponse: string := "'response'"

  function ErrorMessage(detail: string): (m: string)
    ensures StartsWith(m, ErrorWord)
  {
    var m := ErrorWord + detail;
    assert m[..|ErrorWord|] == ErrorWord;
    m
  }

  /** The text `generate_response` returns for an outcome: the model's answer
      for a 200 reply that has one, an error message otherwise. */
  function ResponseText(o: HttpOutcome): (r: string)
    ensures o.Answered? && o.status == OkStatus && o.response.Some? ==> r == o.response.value
    ensures !(o.Answered? && o.status == OkStatus && o.response.Some?) ==> StartsWith(r, ErrorWord)
  {
    match o
    case Answered(status, response) =>
      if status == OkStatus then
        match response
        case Some(text) => text
        case None => ErrorMessage(RaisedDetail + MissingResponse)
      else ErrorMessage(StatusDetail + NatToString(status) + ")")
    case TimedOut => ErrorMessage(TimeoutDetail)
    case Raised(message) => ErrorMessage(RaisedDetail + message)
  }

  /** A failed status can be read back from the error message: the digits
      between the fixed lead and the closing parenthesis spell it. */
  lemma StatusInMessage(status: nat, response: Option<string>)
    requires status != OkStatus
    ensures var m := ResponseText(Answered(status, response));
            var lead := |ErrorWord + StatusDetail|;
            && |m| > lead + 1
            && m[..lead] == ErrorWord + StatusDetail
            && (forall i :: lead <= i < |m| - 1 ==> IsAsciiDigit(m[i]))
            && ParseDigits(m[lead..|m| - 1]) == status
  {
    var m := ResponseText(Answered(status, response));
    var digits := NatToString(status);
    assert m == (ErrorWord + StatusDetail) + digits + ")";
    var lead := |ErrorWord + StatusDetail|;
    assert m[lead..|m| - 1] == digits;
    NatToStringRoundTrip(status);
  }

  /** `RAGChatbot.generate_response`: the endpoint's answer to the prompt,
      or an error message. */
  function GenerateResponse(query: string, context: seq<string>, history: seq<Exchange>,
                            post: string -> HttpOutcome): (r: string)
    ensures var o := post(Prompt(query, context, history));
            && (o.Answered? && o.status == OkStatus && o.response.Some? ==> r == o.response.value)
            && (!(o.Answered? && o.status == OkStatus && o.response.Some?) ==> StartsWith(r, ErrorWord))
  {
    ResponseText(post(Prompt(query, context, history)))
  }

  // ------------------------------------------------------------------ chat

  /** Chunks retrieved for an answer. */
  const ChatContextSize: nat := 7

  /** Entries shown in the source panel. */
  const ChatSourceCount: nat := 3

  datatype ChatResult = ChatResult(response: string, sources: seq<Source>, contextChunks: nat, conversationLength: nat)

  /** `RAGChatbot.chat`: retrieve up to seven chunks and the previews of
      the three best hits, answer, and record exactly one new exchange
      stamped `now`. */
  method Chat(db: Option<Database>, history: seq<Exchange>, message: string, now: int,
              post: string -> HttpOutcome)
    returns (newHistory: seq<Exchange>, result: ChatResult)
    ensures newHistory == history + [Exchange(message, result.response, result.contextChunks, now)]
    ensures result.conversationLength == |newHistory| == |history| + 1
    ensures result.contextChunks <= ChatContextSize
    ensures |result.sources| <= ChatSourceCount
    ensures db.None? ==> result.contextChunks == 0 && result.sources == []
    ensures db.None? ==> result.response == GenerateResponse(message, [], history, post)
    ensures db.Some? ==>
              var context := EnhancedContextOf(db.value, message, ChatContextSize);
              && result.contextChunks == |context|
              && result.response == GenerateResponse(message, context, history, post)
    ensures db.Some? && db.value.rank(message).None? ==> result.sources == []
    ensures db.Some? && db.value.rank(message).Some? ==>
              var hits := Take(db.value.rank(message).value, ChatSourceCount);
              && |result.sources| == |hits|
              && forall i :: 0 <= i < |hits| ==>
                   result.sources[i] == Source(Preview(hits[i].content), hits[i].metadata, hits[i].score)
  {
    var context := RetrieveEnhancedContext(db, message, ChatContextSize);
    var sources := GetSources(db, message, ChatSourceCount);
    var response := GenerateResponse(message, context, history, post);
    newHistory := history + [Exchange(message, response, |context|, now)];
    result := ChatResult(response, sources, |context|, |newHistory|);
  }

  // ------------------------------------------------------------------ example questions

  const PdfQuestions: seq<string> := [
    "What are the main topics covered in the documents?",
    "Can you summarize the key findings?",
    "What are the important conclusions?"
  ]

  const CodeQuestions: seq<string> := [
    "What programming concepts are demonstrated?",
    "Can you explain the code functionality?",
    "What are the main functions or classes?"
  ]

  const DataQuestions: seq<string> := [
    "What data patterns can you identify?",
    "What are the key data fields or columns?",
    "Can you summarize the data insights?"
  ]

  const ImageQuestions: seq<string> := [
    "What do the images show?",
    "Can you describe the visual content?"
  ]

  const FallbackQuestions: seq<string> := [
    "What are the main topics covered in the documents?",
    "Can you summarize the key points?",
    "What are the important findings or conclusions?",
    "What specific information is available in the content?"
  ]

  /** Some processed file name ends with one of `suffixes`. */
  predicate AnyEndsWith(files: seq<string>, suffixes: seq<string>) {
    exists i, j :: 0 <= i < |files| && 0 <= j < |suffixes| && EndsWith(files[i], suffixes[j])
  }

  predicate HasPdf(files: seq<string>) { AnyEndsWith(files, [".pdf"]) }
  predicate HasCode(files: seq<string>) { AnyEndsWith(files, [".py", ".ipynb"]) }
  predicate HasData(files: seq<string>) { AnyEndsWith(files, [".csv", ".json"]) }
  predicate HasImages(files: seq<string>) { AnyEndsWith(files, [".jpg", ".png", ".jpeg"]) }

  function IfThen(b: bool, qs: seq<string>): seq<string> {
    if b then qs else []
  }

  /** The example questions offered before the first message, for the names
      of the processed files (empty when none were processed). */
  function ExampleQuestions(processed: seq<string>): (qs: seq<string>)
    ensures |qs| > 0
    ensures qs == FallbackQuestions <==>
              !HasPdf(processed) && !HasCode(processed) && !HasData(processed) && !HasImages(processed)
    ensures HasPdf(processed) ==> |qs| >= 3 && qs[..3] == PdfQuestions
    ensures HasPdf(processed) || HasCode(processed) || HasData(processed) || HasImages(processed) ==>
              var code := if HasPdf(processed) then |PdfQuestions| else 0;
              var data := code + (if HasCode(processed) then |CodeQuestions| else 0);
              var images := data + (if HasData(processed) then |DataQuestions| else 0);
              && |qs| == images + (if HasImages(processed) then |ImageQuestions| else 0)
              && (HasCode(processed) ==> qs[code..data] == CodeQuestions)
              && (HasData(processed) ==> qs[data..images] == DataQuestions)
              && (HasImages(processed) ==> qs[images..] == ImageQuestions)
  {
    var qs := IfThen(HasPdf(processed), PdfQuestions) + IfThen(HasCode(processed), CodeQuestions)
              + IfThen(HasData(processed), DataQuestions) + IfThen(HasImages(processed), ImageQuestions);
    ExampleCountNotFour(HasPdf(processed), HasCode(processed), HasData(processed), HasImages(processed));
    if |qs| > 0 then qs else FallbackQuestions
  }

  /** The file-type groups hold 3, 3, 3 and 2 questions, so together they
      never hold exactly the fallback's 4. */
  lemma ExampleCountNotFour(pdf: bool, code: bool, data: bool, images: bool)
    ensures |IfThen(pdf, PdfQuestions) + IfThen(code, CodeQuestions) + IfThen(data, DataQuestions)
              + IfThen(images, ImageQuestions)| != |FallbackQuestions|
  {
  }
}

=== FILE: config.dfy ===
/** `utils/config.py`: the tunable settings of `RAGConfig`, the three
    `PerformancePresets` and the helpers that pick a preset from the CPU count.

    The eleven class attributes are a record with one field per setting; an
    attribute is addressed by name through `SettingNamed`. The CPU count that
    `os.cpu_count()` reports is a parameter (`None` when Python cannot tell). */
module Config {
  import opened Wrappers
  import opened Text

  /** The values a setting can hold. */
  datatype Value = NoneValue | IntValue(i: int) | BoolValue(b: bool) | TextValue(s: string)

  /** The class attributes of `RAGConfig` that are not callables. */
  datatype Setting =
    | ChunkOverlap | ChunkSize | DocProcessingMaxWorkers | EmbeddingBatchSize
    | EmbeddingMaxWorkers | EnableProgressLogging | FileBatchSize | ImageMaxWorkers
    | MaxRetries | RequestTimeout | UseSessionPooling

  /** The settings in the order `dir()` lists their names (sorted). */
  const AllSettings: seq<Setting> := [
    ChunkOverlap, ChunkSize, DocProcessingMaxWorkers, EmbeddingBatchSize,
    EmbeddingMaxWorkers, EnableProgressLogging, FileBatchSize, ImageMaxWorkers,
    MaxRetries, RequestTimeout, UseSessionPooling]

  /** Position of a setting in `AllSettings`. */
  function IndexOf(s: Setting): (i: nat)
    ensures i < |AllSettings| && AllSettings[i] == s
  {
    match s
    case ChunkOverlap => 0
    case ChunkSize => 1
    case DocProcessingMaxWorkers => 2
    case EmbeddingBatchSize => 3
    case EmbeddingMaxWorkers => 4
    case EnableProgressLogging => 5
    case FileBatchSize => 6
    case ImageMaxWorkers => 7
    case MaxRetries => 8
    case RequestTimeout => 9
    case UseSessionPooling => 10
  }

  /** The lower-case dictionary key of a setting, as the presets spell it. */
  function KeyOf(s: Setting): string {
    match s
    case ChunkOverlap => "chunk_overlap"
    case ChunkSize => "chunk_size"
    case DocProcessingMaxWorkers => "doc_processing_max_workers"
    case EmbeddingBatchSize => "embedding_batch_size"
    case EmbeddingMaxWorkers => "embedding_max_workers"
    case EnableProgressLogging => "enable_progress_logging"
    case FileBatchSize => "file_batch_size"
    case ImageMaxWorkers => "image_max_workers"
    case MaxRetries => "max_retries"
    case RequestTimeout => "request_timeout"
    case UseSessionPooling => "use_session_pooling"
  }

  /** The attribute name: the key in upper case ("CHUNK_OVERLAP", ...). */
  function AttrName(s: Setting): string {
    Upper(KeyOf(s))
  }

  lemma KeyLength(s: Setting)
    ensures |KeyOf(s)| == match s
      case ChunkOverlap => 13 case ChunkSize => 10 case DocProcessingMaxWorkers => 26
      case EmbeddingBatchSize => 20 case EmbeddingMaxWorkers => 21
      case EnableProgressLogging => 23 case FileBatchSize => 15 case ImageMaxWorkers => 17
      case MaxRetries => 11 case RequestTimeout => 15 case UseSessionPooling => 19
  {
  }

  /** No two settings share an attribute name. */
  lemma AttrNameInjective(s: Setting, t: Setting)
    requires AttrName(s) == AttrName(t)
    ensures s == t
  {
    KeyLength(s);
    KeyLength(t);
    InitialsDiffer();
  }

  /** The two attribute names of equal length start with different letters. */
  lemma InitialsDiffer()
    ensures AttrName(FileBatchSize)[0] == 'F' && AttrName(RequestTimeout)[0] == 'R'
  {
  }

  lemma AttrNamesDistinct()
    ensures forall s, t :: AttrName(s) == AttrName(t) ==> s == t
  {
    forall s, t | AttrName(s) == AttrName(t)
      ensures s == t
    {
      AttrNameInjective(s, t);
    }
  }

  /** The settings whose attribute name has `n` characters. */
  function NamesOfLength(n: nat): seq<Setting> {
    match n
    case 10 => [ChunkSize]
    case 11 => [MaxRetries]
    case 13 => [ChunkOverlap]
    case 15 => [FileBatchSize, RequestTimeout]
    case 17 => [ImageMaxWorkers]
    case 19 => [UseSessionPooling]
    case 20 => [EmbeddingBatchSize]
    case 21 => [EmbeddingMaxWorkers]
    case 23 => [EnableProgressLogging]
    case 26 => [DocProcessingMaxWorkers]
    case _ => []
  }

  lemma NamesOfLengthComplete(s: Setting)
    ensures s in NamesOfLength(|AttrName(s)|)
  {
    KeyLength(s);
  }

  /** The attribute called `name`, as `hasattr(cls, name)` finds it; only
      the attributes of the same length are compared. */
  function SettingNamed(name: string): (r: Option<Setting>)
    ensures r.Some? ==> AttrName(r.value) == name
    ensures r.None? ==> forall s :: AttrName(s) != name
  {
    var candidates := NamesOfLength(|name|);
    assert forall s :: AttrName(s) == name ==> s in candidates by {
      forall s | AttrName(s) == name
        ensures s in candidates
      {
        NamesOfLengthComplete(s);
      }
    }
    assert |candidates| <= 2;
    if |candidates| > 0 && AttrName(candidates[0]) == name then Some(candidates[0])
    else if |candidates| > 1 && AttrName(candidates[1]) == name then Some(candidates[1])
    else None
  }

  /** Looking a setting up by its own name finds that setting. */
  lemma SettingNamedAttr(s: Setting)
    ensures SettingNamed(AttrName(s)) == Some(s)
  {
    AttrNameInjective(SettingNamed(AttrName(s)).value, s);
  }

  /** The values of all eleven attributes. */
  datatype Settings = Settings(
    chunkOverlap: Value, chunkSize: Value, docProcessingMaxWorkers: Value,
    embeddingBatchSize: Value, embeddingMaxWorkers: Value, enableProgressLogging: Value,
    fileBatchSize: Value, imageMaxWorkers: Value, maxRetries: Value,
    requestTimeout: Value, useSessionPooling: Value)

  /** `getattr(cls, name)` for a setting. */
  function Get(c: Settings, s: Setting): Value {
    match s
    case ChunkOverlap => c.chunkOverlap
    case ChunkSize => c.chunkSize
    case DocProcessingMaxWorkers => c.docProcessingMaxWorkers
    case EmbeddingBatchSize => c.embeddingBatchSize
    case EmbeddingMaxWorkers => c.embeddingMaxWorkers
    case EnableProgressLogging => c.enableProgressLogging
    case FileBatchSize => c.fileBatchSize
    case ImageMaxWorkers => c.imageMaxWorkers
    case MaxRetries => c.maxRetries
    case RequestTimeout => c.requestTimeout
    case UseSessionPooling => c.useSessionPooling
  }

  /** `setattr(cls, name, v)` for a setting: only that attribute changes. */
  function Set(c: Settings, s: Setting, v: Value): (r: Settings)
    ensures Get(r, s) == v
    ensures forall t :: t != s ==> Get(r, t) == Get(c, t)
  {
    match s
    case ChunkOverlap => c.(chunkOverlap := v)
    case ChunkSize => c.(chunkSize := v)
    case DocProcessingMaxWorkers => c.(docProcessingMaxWorkers := v)
    case EmbeddingBatchSize => c.(embeddingBatchSize := v)
    case EmbeddingMaxWorkers => c.(embeddingMaxWorkers := v)
    case EnableProgressLogging => c.(enableProgressLogging := v)
    case FileBatchSize => c.(fileBatchSize := v)
    case ImageMaxWorkers => c.(imageMaxWorkers := v)
    case MaxRetries => c.(maxRetries := v)
    case RequestTimeout => c.(requestTimeout := v)
    case UseSessionPooling => c.(useSessionPooling := v)
  }

  /** Two settings records agreeing on every attribute are equal. */
  lemma SettingsEqual(a: Settings, b: Settings)
    requires forall s :: Get(a, s) == Get(b, s)
    ensures a == b
  {
    assert Get(a, ChunkOverlap) == Get(b, ChunkOverlap);
    assert Get(a, ChunkSize) == Get(b, ChunkSize);
    assert Get(a, DocProcessingMaxWorkers) == Get(b, DocProcessingMaxWorkers);
    assert Get(a, EmbeddingBatchSize) == Get(b, EmbeddingBatchSize);
    assert Get(a, EmbeddingMaxWorkers) == Get(b, EmbeddingMaxWorkers);
    assert Get(a, EnableProgressLogging) == Get(b, EnableProgressLogging);
    assert Get(a, FileBatchSize) == Get(b, FileBatchSize);
    assert Get(a, ImageMaxWorkers) == Get(b, ImageMaxWorkers);
    assert Get(a, MaxRetries) == Get(b, MaxRetries);
    assert Get(a, RequestTimeout) == Get(b, RequestTimeout);
    assert Get(a, UseSessionPooling) == Get(b, UseSessionPooling);
  }

  /** `RAGConfig.CHUNK_SIZE` and `RAGConfig.CHUNK_OVERLAP` as shipped. */
  const DefaultChunkSize: nat := 300
  const DefaultChunkOverlap: nat := 100

  /** The class body of `RAGConfig`: its default chunk overlap is smaller
      than its default chunk size, and its retry budget is three. */
  function ShippedSettings(): (c: Settings)
    ensures Get(c, ChunkOverlap).IntValue? && Get(c, ChunkSize).IntValue?
    ensures 0 <= Get(c, ChunkOverlap).i < Get(c, ChunkSize).i
    ensures Get(c, MaxRetries) == IntValue(3)
  {
    Settings(
      chunkOverlap := IntValue(DefaultChunkOverlap),
      chunkSize := IntValue(DefaultChunkSize),
      docProcessingMaxWorkers := NoneValue,
      embeddingBatchSize := IntValue(20),
      embeddingMaxWorkers := NoneValue,
      enableProgressLogging := BoolValue(true),
      fileBatchSize := IntValue(10),
      imageMaxWorkers := IntValue(4),
      maxRetries := IntValue(3),
      requestTimeout := IntValue(30),
      useSessionPooling := BoolValue(true))
  }

  // ---------------------------------------------------------------- workers

  /** `os.cpu_count() or 4`. */
  function CpuOr4(cpu: Option<nat>): (c: nat)
    ensures c >= 1
    ensures cpu.Some? && cpu.value > 0 ==> c == cpu.value
    ensures cpu.None? || cpu.value == 0 ==> c == 4
  {
    match cpu
    case Some(n) => if n == 0 then 4 else n
    case None => 4
  }

  /** `RAGConfig.get_optimal_workers(task_type)`: each formula is the
      smaller of a cap and a multiple of the CPU count; an unknown task type
      gets the CPU count itself, with no cap. */
  function OptimalWorkers(taskType: string, cpu: Option<nat>): (w: nat)
    ensures w >= 1
    ensures taskType == "cpu" ==> w <= 32 && w <= CpuOr4(cpu) + 4 && (w == 32 || w == CpuOr4(cpu) + 4)
    ensures taskType == "io" ==> w <= 32 && w <= 2 * CpuOr4(cpu) && (w == 32 || w == 2 * CpuOr4(cpu))
    ensures taskType == "mixed" ==> w <= 16 && w <= CpuOr4(cpu) + 2 && (w == 16 || w == CpuOr4(cpu) + 2)
    ensures taskType != "cpu" && taskType != "io" && taskType != "mixed" ==> w == CpuOr4(cpu)
  {
    var c := CpuOr4(cpu);
    if taskType == "cpu" then (if 32 <= c + 4 then 32 else c + 4)
    else if taskType == "io" then (if 32 <= c * 2 then 32 else c * 2)
    else if taskType == "mixed" then (if 16 <= c + 2 then 16 else c + 2)
    else c
  }

  // ---------------------------------------------------------------- update / dump

  /** One step of `update_from_dict`: when the upper-cased key names an
      attribute, that attribute takes the value; any other key is ignored. */
  function SetKnown(c: Settings, key: string, v: Value): Settings {
    match SettingNamed(Upper(key))
    case Some(s) => Set(c, s, v)
    case None => c
  }

  /** `RAGConfig.update_from_dict(d)`, the dictionary given as its items in
      iteration order. */
  function UpdateFromDict(c: Settings, d: seq<(string, Value)>): (r: Settings)
    ensures forall s :: LastSetting(d, s).None? ==> Get(r, s) == Get(c, s)
    decreases |d|
  {
    if |d| == 0 then c
    else
      var last := d[|d| - 1];
      SetKnown(UpdateFromDict(c, d[..|d| - 1]), last.0, last.1)
  }

  /** Reference definition: the value of the last item whose upper-cased key
      is the attribute name of `s`, if any. */
  function LastSetting(d: seq<(string, Value)>, s: Setting): Option<Value>
    decreases |d|
  {
    if |d| == 0 then None
    else if Upper(d[|d| - 1].0) == AttrName(s) then Some(d[|d| - 1].1)
    else LastSetting(d[..|d| - 1], s)
  }

  /** `update_from_dict` sets each attribute to the value of the last item
      naming it (case-insensitively) and leaves every other attribute alone;
      keys naming no attribute have no effect. */
  lemma {:induction false} UpdateFromDictSetsLast(c: Settings, d: seq<(string, Value)>)
    ensures forall s :: Get(UpdateFromDict(c, d), s)
                == (match LastSetting(d, s) case Some(v) => v case None => Get(c, s))
    decreases |d|
  {
    if |d| > 0 {
      UpdateFromDictSetsLast(c, d[..|d| - 1]);
      AttrNamesDistinct();
    }
  }

  /** `RAGConfig.get_config_dict()`: every setting under its lower-cased
      attribute name, in `dir()` order; upper-casing each key gives the
      attribute back. */
  function GetConfigDict(c: Settings): (d: seq<(string, Value)>)
    ensures |d| == |AllSettings|
    ensures forall i :: 0 <= i < |d| ==> Upper(d[i].0) == AttrName(AllSettings[i]) && d[i].1 == Get(c, AllSettings[i])
  {
    var d := seq(|AllSettings|, i requires 0 <= i < |AllSettings| =>
                   (Lower(AttrName(AllSettings[i])), Get(c, AllSettings[i])));
    assert forall i :: 0 <= i < |d| ==> Upper(d[i].0) == AttrName(AllSettings[i]) by {
      forall i | 0 <= i < |d|
        ensures Upper(d[i].0) == AttrName(AllSettings[i])
      {
        UpperOfLowerOfUpper(KeyOf(AllSettings[i]));
      }
    }
    d
  }

  /** When item `k` names `s` and no later item does, the last item naming
      `s` is item `k`. */
  lemma {:induction false} LastSettingIsLastNaming(d: seq<(string, Value)>, s: Setting, k: nat)
    requires k < |d| && Upper(d[k].0) == AttrName(s)
    requires forall i :: k < i < |d| ==> Upper(d[i].0) != AttrName(s)
    ensures LastSetting(d, s) == Some(d[k].1)
    decreases |d|
  {
    if k < |d| - 1 {
      var init := d[..|d| - 1];
      assert Upper(d[|d| - 1].0) != AttrName(s);
      LastSettingIsLastNaming(init, s, k);
    }
  }

  /** When no item names `s`, there is no last one. */
  lemma {:induction false} LastSettingAbsent(d: seq<(string, Value)>, s: Setting)
    requires forall i :: 0 <= i < |d| ==> Upper(d[i].0) != AttrName(s)
    ensures LastSetting(d, s) == None
    decreases |d|
  {
    if |d| > 0 {
      LastSettingAbsent(d[..|d| - 1], s);
    }
  }

  /** For a dictionary whose keys name distinct settings `ss`, item by item,
      the last item naming `ss[k]` is item `k`. */
  lemma LastSettingAt(d: seq<(string, Value)>, ss: seq<Setting>, k: nat)
    requires |d| == |ss| && k < |ss|
    requires forall i :: 0 <= i < |d| ==> Upper(d[i].0) == AttrName(ss[i])
    requires forall i, j :: 0 <= i < j < |ss| ==> ss[i] != ss[j]
    ensures LastSetting(d, ss[k]) == Some(d[k].1)
  {
    forall i | k < i < |d|
      ensures Upper(d[i].0) != AttrName(ss[k])
    {
      if AttrName(ss[i]) == AttrName(ss[k]) {
        AttrNameInjective(ss[i], ss[k]);
      }
    }
    LastSettingIsLastNaming(d, ss[k], k);
  }

  /** For a dictionary whose keys name distinct settings `ss`, item by item,
      each `ss[k]` is last named by item `k` and no other setting is named. */
  lemma LastSettingOfKeys(d: seq<(string, Value)>, ss: seq<Setting>)
    requires |d| == |ss|
    requires forall i :: 0 <= i < |d| ==> Upper(d[i].0) == AttrName(ss[i])
    requires forall i, j :: 0 <= i < j < |ss| ==> ss[i] != ss[j]
    ensures forall k :: 0 <= k < |ss| ==> LastSetting(d, ss[k]) == Some(d[k].1)
    ensures forall s :: s !in ss ==> LastSetting(d, s) == None
  {
    forall k | 0 <= k < |ss|
      ensures LastSetting(d, ss[k]) == Some(d[k].1)
    {
      LastSettingAt(d, ss, k);
    }
    AttrNamesDistinct();
    forall s | s !in ss
      ensures LastSetting(d, s) == None
    {
      LastSettingAbsent(d, s);
    }
  }

  /** `update_from_dict` with keys naming distinct settings `ss`, item by
      item, writes item `k` into `ss[k]` and nothing else. */
  lemma UpdateFromDictKeys(c: Settings, d: seq<(string, Value)>, ss: seq<Setting>)
    requires |d| == |ss|
    requires forall i :: 0 <= i < |d| ==> Upper(d[i].0) == AttrName(ss[i])
    requires forall i, j :: 0 <= i < j < |ss| ==> ss[i] != ss[j]
    ensures forall k :: 0 <= k < |ss| ==> Get(UpdateFromDict(c, d), ss[k]) == d[k].1
    ensures forall s :: s !in ss ==> Get(UpdateFromDict(c, d), s) == Get(c, s)
  {
    UpdateFromDictSetsLast(c, d);
    LastSettingOfKeys(d, ss);
  }

  lemma AllSettingsDistinct()
    ensures forall i, j :: 0 <= i < j < |AllSettings| ==> AllSettings[i] != AllSettings[j]
  {
    forall i, j | 0 <= i < j < |AllSettings|
      ensures AllSettings[i] != AllSettings[j]
    {
      assert IndexOf(AllSettings[i]) == i;
    }
  }

  /** Feeding `get_config_dict()` back into `update_from_dict` restores the
      dumped settings, whatever the settings were before. */
  lemma ConfigDictRoundTrip(c: Settings, before: Settings)
    ensures UpdateFromDict(before, GetConfigDict(c)) == c
  {
    var d := GetConfigDict(c);
    AllSettingsDistinct();
    UpdateFromDictKeys(before, d, AllSettings);
    forall s
      ensures Get(UpdateFromDict(before, d), s) == Get(c, s)
    {
      assert AllSettings[IndexOf(s)] == s;
    }
    SettingsEqual(UpdateFromDict(before, d), c);
  }

  // ---------------------------------------------------------------- presets

  datatype Level = Low | Medium | High

  /** One entry of `PerformancePresets`. */
  datatype Preset = Preset(
    embeddingMaxWorkers: nat, embeddingBatchSize: nat, docProcessingMaxWorkers: nat,
    imageMaxWorkers: nat, fileBatchSize: nat, chunkSize: nat, chunkOverlap: nat)

  /** `LOW_END`, `MEDIUM` and `HIGH_END`: every count is positive and the
      chunk overlap is below the chunk size. */
  function PresetOf(level: Level): (p: Preset)
    ensures p.embeddingMaxWorkers > 0 && p.embeddingBatchSize > 0
    ensures p.docProcessingMaxWorkers > 0 && p.imageMaxWorkers > 0 && p.fileBatchSize > 0
    ensures p.chunkOverlap < p.chunkSize
  {
    match level
    case Low => Preset(2, 5, 2, 1, 3, 200, 50)
    case Medium => Preset(4, 10, 4, 2, 6, 300, 100)
    case High => Preset(8, 30, 8, 4, 15, 400, 120)
  }

  function Rank(level: Level): nat {
    match level
    case Low => 0
    case Medium => 1
    case High => 2
  }

  /** Every preset field grows (weakly) from low to medium to high. */
  lemma PresetsMonotone(a: Level, b: Level)
    requires Rank(a) <= Rank(b)
    ensures PresetOf(a).embeddingMaxWorkers <= PresetOf(b).embeddingMaxWorkers
    ensures PresetOf(a).embeddingBatchSize <= PresetOf(b).embeddingBatchSize
    ensures PresetOf(a).docProcessingMaxWorkers <= PresetOf(b).docProcessingMaxWorkers
    ensures PresetOf(a).imageMaxWorkers <= PresetOf(b).imageMaxWorkers
    ensures PresetOf(a).fileBatchSize <= PresetOf(b).fileBatchSize
    ensures PresetOf(a).chunkSize <= PresetOf(b).chunkSize
    ensures PresetOf(a).chunkOverlap <= PresetOf(b).chunkOverlap
  {
  }

  /** The settings a preset names, in its declared key order. */
  const PresetSettings: seq<Setting> := [
    EmbeddingMaxWorkers, EmbeddingBatchSize, DocProcessingMaxWorkers,
    ImageMaxWorkers, FileBatchSize, ChunkSize, ChunkOverlap]

  /** Position of a setting among the preset keys, or -1 when a preset
      does not name it. */
  function PresetPosition(s: Setting): (k: int)
    ensures 0 <= k ==> k < |PresetSettings| && PresetSettings[k] == s
  {
    match s
    case EmbeddingMaxWorkers => 0
    case EmbeddingBatchSize => 1
    case DocProcessingMaxWorkers => 2
    case ImageMaxWorkers => 3
    case FileBatchSize => 4
    case ChunkSize => 5
    case ChunkOverlap => 6
    case _ => -1
  }

  lemma PresetSettingsDistinct()
    ensures forall i, j :: 0 <= i < j < |PresetSettings| ==> PresetSettings[i] != PresetSettings[j]
  {
    forall i, j | 0 <= i < j < |PresetSettings|
      ensures PresetSettings[i] != PresetSettings[j]
    {
      assert PresetPosition(PresetSettings[i]) == i;
    }
  }

  /** A preset as the dictionary handed to `update_from_dict`. */
  function PresetItems(p: Preset): (d: seq<(string, Value)>)
    ensures |d| == |PresetSettings|
    ensures forall i :: 0 <= i < |d| ==> Upper(d[i].0) == AttrName(PresetSettings[i])
  {
    [(KeyOf(EmbeddingMaxWorkers), IntValue(p.embeddingMaxWorkers)),
     (KeyOf(EmbeddingBatchSize), IntValue(p.embeddingBatchSize)),
     (KeyOf(DocProcessingMaxWorkers), IntValue(p.docProcessingMaxWorkers)),
     (KeyOf(ImageMaxWorkers), IntValue(p.imageMaxWorkers)),
     (KeyOf(FileBatchSize), IntValue(p.fileBatchSize)),
     (KeyOf(ChunkSize), IntValue(p.chunkSize)),
     (KeyOf(ChunkOverlap), IntValue(p.chunkOverlap))]
  }

  /** A dictionary holding a preset's seven fields under the preset's keys
      writes each field into its attribute and nothing else. */
  lemma PresetDictWrites(c: Settings, d: seq<(string, Value)>, p: Preset)
    requires |d| == |PresetSettings|
    requires forall i :: 0 <= i < |d| ==> Upper(d[i].0) == AttrName(PresetSettings[i])
    requires d[0].1 == IntValue(p.embeddingMaxWorkers) && d[1].1 == IntValue(p.embeddingBatchSize)
    requires d[2].1 == IntValue(p.docProcessingMaxWorkers) && d[3].1 == IntValue(p.imageMaxWorkers)
    requires d[4].1 == IntValue(p.fileBatchSize) && d[5].1 == IntValue(p.chunkSize)
    requires d[6].1 == IntValue(p.chunkOverlap)
    ensures var r := UpdateFromDict(c, d);
            && Get(r, EmbeddingMaxWorkers) == IntValue(p.embeddingMaxWorkers)
            && Get(r, EmbeddingBatchSize) == IntValue(p.embeddingBatchSize)
            && Get(r, DocProcessingMaxWorkers) == IntValue(p.docProcessingMaxWorkers)
            && Get(r, ImageMaxWorkers) == IntValue(p.imageMaxWorkers)
            && Get(r, FileBatchSize) == IntValue(p.fileBatchSize)
            && Get(r, ChunkSize) == IntValue(p.chunkSize)
            && Get(r, ChunkOverlap) == IntValue(p.chunkOverlap)
    ensures var r := UpdateFromDict(c, d);
            forall s :: s !in PresetSettings ==> Get(r, s) == Get(c, s)
  {
    PresetSettingsDistinct();
    UpdateFromDictKeys(c, d, PresetSettings);
    assert PresetSettings[0] == EmbeddingMaxWorkers && PresetSettings[1] == EmbeddingBatchSize;
    assert PresetSettings[2] == DocProcessingMaxWorkers && PresetSettings[3] == ImageMaxWorkers;
    assert PresetSettings[4] == FileBatchSize && PresetSettings[5] == ChunkSize;
    assert PresetSettings[6] == ChunkOverlap;
  }

  /** `update_from_dict(preset)` sets the seven preset fields and leaves the
      four settings a preset does not name as they were. */
  lemma PresetItemsWrite(c: Settings, p: Preset)
    ensures var r := UpdateFromDict(c, PresetItems(p));
            && Get(r, EmbeddingMaxWorkers) == IntValue(p.embeddingMaxWorkers)
            && Get(r, EmbeddingBatchSize) == IntValue(p.embeddingBatchSize)
            && Get(r, DocProcessingMaxWorkers) == IntValue(p.docProcessingMaxWorkers)
            && Get(r, ImageMaxWorkers) == IntValue(p.imageMaxWorkers)
            && Get(r, FileBatchSize) == IntValue(p.fileBatchSize)
            && Get(r, ChunkSize) == IntValue(p.chunkSize)
            && Get(r, ChunkOverlap) == IntValue(p.chunkOverlap)
    ensures var r := UpdateFromDict(c, PresetItems(p));
            forall s :: s !in PresetSettings ==> Get(r, s) == Get(c, s)
  {
    PresetDictWrites(c, PresetItems(p), p);
  }

  /** The name `apply_preset` accepts for a level. */
  function LevelName(level: Level): string {
    match level
    case Low => "low"
    case Medium => "medium"
    case High => "high"
  }

  /** The preset a name selects, ignoring case. */
  function ParseLevel(name: string): (l: Option<Level>)
    ensures l.Some? <==> Lower(name) == "low" || Lower(name) == "medium" || Lower(name) == "high"
    ensures l.Some? ==> Lower(name) == LevelName(l.value)
  {
    var n := Lower(name);
    if n == "low" then Some(Low)
    else if n == "medium" then Some(Medium)
    else if n == "high" then Some(High)
    else None
  }

  /** `PerformancePresets.apply_preset(name)`: a `ValueError` for an
      unknown name (and no change), otherwise the settings after
      `update_from_dict(preset)`. */
  function ApplyPreset(c: Settings, name: string): (r: Result<Settings>)
    ensures r.Success? <==> ParseLevel(name).Some?
    ensures r.Failure? ==> r.error == "Unknown preset: " + name + ". Available: low, medium, high"
    ensures r.Success? ==> r.value == UpdateFromDict(c, PresetItems(PresetOf(ParseLevel(name).value)))
  {
    match ParseLevel(name)
    case Some(level) => Success(UpdateFromDict(c, PresetItems(PresetOf(level))))
    case None => Failure("Unknown preset: " + name + ". Available: low, medium, high")
  }

  /** The preset `optimize_for_system` picks for a CPU count. */
  function SystemLevel(cpu: Option<nat>): (l: Level)
    ensures l == High <==> CpuOr4(cpu) >= 8
    ensures l == Medium <==> 4 <= CpuOr4(cpu) < 8
    ensures l == Low <==> CpuOr4(cpu) < 4
  {
    var c := CpuOr4(cpu);
    if c >= 8 then High else if c >= 4 then Medium else Low
  }

  /** `optimize_for_system()`: the preset call it makes never raises. */
  function OptimizeForSystem(c: Settings, cpu: Option<nat>): (r: Settings)
    ensures ApplyPreset(c, LevelName(SystemLevel(cpu))) == Success(r)
  {
    var name := LevelName(SystemLevel(cpu));
    assert Lower(name) == name;
    ApplyPreset(c, name).value
  }

  /** The `recommended_preset` of `get_performance_info()`, computed from the
      raw `os.cpu_count()`: comparing `None` with an int raises `TypeError`,
      and a count of zero gives "low" where `optimize_for_system` falls back
      to four CPUs and picks medium. */
  function RecommendedPreset(cpu: Option<nat>): (r: Result<string>)
    ensures cpu.None? <==> r.Failure?
    ensures cpu.Some? && cpu.value > 0 ==> r == Success(LevelName(SystemLevel(cpu)))
    ensures cpu == Some(0) ==> r == Success("low") && SystemLevel(cpu) == Medium
  {
    match cpu
    case None => Failure("'>=' not supported between instances of 'NoneType' and 'int'")
    case Some(n) => Success(if n >= 8 then "high" else if n >= 4 then "medium" else "low")
  }
}

=== FILE: credentials.dfy ===
/** The credential checks of `AuthManager` in `utils/authentication.py`:
    `_validate_password`, which reports the first rule a password breaks,
    and `_validate_email`, a `re.match` of
    `^[a-zA-Z0-9._%+-]+@[a-zA-Z0-9.-]+\.[a-zA-Z]{2,}$`, written here as a
    scanner and proved equal to the pattern's meaning. */
module Credentials {
  import opened Wrappers
  import opened Text

  /** What the validators and the account operations return: Python's
      `(success, message)` pair. */
  datatype Reply = Reply(ok: bool, message: string)

  // ------------------------------------------------------------------ password

  const MinPasswordLength: nat := 8

  const TooShort: string := "Password must be at least 8 characters long"
  const NoUpper: string := "Password must contain at least one uppercase letter"
  const NoLower: string := "Password must contain at least one lowercase letter"
  const NoDigit: string := "Password must contain at least one number"
  const PasswordOk: string := "Password is valid"

  /** `any(p(c) for c in s)`, scanned left to right. */
  function AnyChar(s: string, p: char -> bool): (b: bool)
    ensures b <==> exists i :: 0 <= i < |s| && p(s[i])
    decreases |s|
  {
    if |s| == 0 then false
    else if p(s[0]) then true
    else
      var rest := AnyChar(s[1..], p);
      assert forall i :: 1 <= i < |s| ==> s[i] == s[1..][i - 1];
      rest
  }

  predicate HasUpper(s: string) { exists i :: 0 <= i < |s| && IsAsciiUpper(s[i]) }
  predicate HasLower(s: string) { exists i :: 0 <= i < |s| && IsAsciiLower(s[i]) }
  predicate HasDigit(s: string) { exists i :: 0 <= i < |s| && IsAsciiDigit(s[i]) }

  /** The password rules all hold. */
  predicate StrongPassword(s: string) {
    |s| >= MinPasswordLength && HasUpper(s) && HasLower(s) && HasDigit(s)
  }

  /** `AuthManager._validate_password`: accepted exactly when every rule
      holds; otherwise the message names the first rule broken, in the order
      length, upper case, lower case, digit. */
  function ValidatePassword(password: string): (r: Reply)
    ensures r.ok <==> StrongPassword(password)
    ensures r.ok ==> r.message == PasswordOk
    ensures |password| < MinPasswordLength ==> r.message == TooShort
    ensures |password| >= MinPasswordLength && !HasUpper(password) ==> r.message == NoUpper
    ensures |password| >= MinPasswordLength && HasUpper(password) && !HasLower(password) ==> r.message == NoLower
    ensures (|password| >= MinPasswordLength && HasUpper(password) && HasLower(password) && !HasDigit(password))
              ==> r.message == NoDigit
  {
    if |password| < MinPasswordLength then Reply(false, TooShort)
    else if !AnyChar(password, IsAsciiUpper) then Reply(false, NoUpper)
    else if !AnyChar(password, IsAsciiLower) then Reply(false, NoLower)
    else if !AnyChar(password, IsAsciiDigit) then Reply(false, NoDigit)
    else Reply(true, PasswordOk)
  }

  // ------------------------------------------------------------------ email

  /** `[a-zA-Z0-9._%+-]`, the characters of the part before the `@`. */
  predicate LocalChar(c: char) {
    IsAsciiLetter(c) || IsAsciiDigit(c) || c == '.' || c == '_' || c == '%' || c == '+' || c == '-'
  }

  /** `[a-zA-Z0-9.-]`, the characters of the domain. */
  predicate DomainChar(c: char) {
    IsAsciiLetter(c) || IsAsciiDigit(c) || c == '.' || c == '-'
  }

  predicate AllLocal(s: string) { forall i :: 0 <= i < |s| ==> LocalChar(s[i]) }
  predicate AllDomain(s: string) { forall i :: 0 <= i < |s| ==> DomainChar(s[i]) }
  predicate AllLetters(s: string) { forall i :: 0 <= i < |s| ==> IsAsciiLetter(s[i]) }

  /** `s` reads `local@domain.tld` with the `@` at `at` and the last dot at
      `dot`: a non-empty local part, a non-empty domain and a top-level
      domain of two or more letters. */
  predicate SplitsAt(s: string, at: nat, dot: nat) {
    && 1 <= at && at + 2 <= dot && dot + 3 <= |s|
    && s[at] == '@' && s[dot] == '.'
    && AllLocal(s[..at]) && AllDomain(s[at + 1..dot]) && AllLetters(s[dot + 1..])
  }

  /** The pattern, anchored at both ends, matches all of `s`. */
  ghost predicate WholeMatch(s: string) {
    exists at: nat, dot: nat :: SplitsAt(s, at, dot)
  }

  /** `re.match(pattern, s) is not None`: Python's `$` also matches just
      before one final newline. */
  ghost predicate PatternMatches(s: string) {
    WholeMatch(s) || (|s| > 0 && s[|s| - 1] == '\n' && WholeMatch(s[..|s| - 1]))
  }

  /** Position of the first `c` in `s`. */
  function IndexOf(s: string, c: char): (r: Option<nat>)
    ensures r.Some? ==> r.value < |s| && s[r.value] == c && c !in s[..r.value]
    ensures r.None? ==> c !in s
    decreases |s|
  {
    if |s| == 0 then None
    else if s[0] == c then Some(0)
    else
      match IndexOf(s[1..], c)
      case None => None
      case Some(i) =>
        assert s[..i + 1] == [s[0]] + s[1..][..i];
        Some(i + 1)
  }

  /** Position of the last `c` in `s`. */
  function LastIndexOf(s: string, c: char): (r: Option<nat>)
    ensures r.Some? ==> r.value < |s| && s[r.value] == c && c !in s[r.value + 1..]
    ensures r.None? ==> c !in s
    decreases |s|
  {
    if |s| == 0 then None
    else if s[|s| - 1] == c then Some(|s| - 1)
    else
      match LastIndexOf(s[..|s| - 1], c)
      case None => None
      case Some(i) =>
        assert s[i + 1..] == s[..|s| - 1][i + 1..] + [s[|s| - 1]];
        Some(i)
  }

  /** The scanner: the `@` can only be the first one (the local part has
      none) and the dot before the top-level domain only the last one (the
      top-level domain has none), so only that cut needs checking. */
  function MatchesWhole(s: string): bool {
    var at := IndexOf(s, '@');
    var dot := LastIndexOf(s, '.');
    at.Some? && dot.Some? && SplitsAt(s, at.value, dot.value)
  }

  /** The scanner accepts exactly the strings the anchored pattern matches. */
  lemma MatchesWholeIff(s: string)
    ensures MatchesWhole(s) <==> WholeMatch(s)
  {
    if WholeMatch(s) {
      var a: nat, d: nat :| SplitsAt(s, a, d);
      var at := IndexOf(s, '@');
      var dot := LastIndexOf(s, '.');
      FirstAt(s, a, at);
      LastDot(s, d, dot);
    }
  }

  /** With a valid cut at `a`, the first `@` is at `a`. */
  lemma FirstAt(s: string, a: nat, at: Option<nat>)
    requires 1 <= a < |s| && s[a] == '@' && AllLocal(s[..a])
    requires at == IndexOf(s, '@')
    ensures at == Some(a)
  {
    assert s[a] in s;
    assert forall j :: 0 <= j < a ==> s[..a][j] == s[j];
    assert forall j :: 0 <= j < at.value ==> s[..at.value][j] == s[j];
  }

  /** With a valid cut at `d`, the last dot is at `d`. */
  lemma LastDot(s: string, d: nat, dot: Option<nat>)
    requires d + 3 <= |s| && s[d] == '.' && AllLetters(s[d + 1..])
    requires dot == LastIndexOf(s, '.')
    ensures dot == Some(d)
  {
    assert s[d] in s;
    assert forall j :: d < j < |s| ==> s[d + 1..][j - d - 1] == s[j];
    assert forall j :: dot.value < j < |s| ==> s[dot.value + 1..][j - dot.value - 1] == s[j];
  }

  /** `AuthManager._validate_email`. */
  function ValidateEmail(email: string): (ok: bool)
    ensures ok <==> PatternMatches(email)
  {
    MatchesWholeIff(email);
    if |email| > 0 && email[|email| - 1] == '\n' then
      MatchesWholeIff(email[..|email| - 1]);
      MatchesWhole(email) || MatchesWhole(email[..|email| - 1])
    else MatchesWhole(email)
  }
}

=== FILE: embeddings.dfy ===
/** The batch embedder and the image describer of `utils/embeddings.py`.

    The HTTP endpoints are not modelled: one embedding request is an
    `Attempt` outcome supplied by the caller, the end result of embedding one
    text (after its retries) is `embedOf(text)`, and the vision endpoint's
    answer for an image path is `describe(path)` (`None` when it raises).
    Thread pools are replaced by their collection semantics: positional writes
    for embeddings, completion-order appends for images. */
module Embeddings {
  import opened Wrappers
  import opened Seqs

  /** An embedding vector; its numbers are never inspected by the model. */
  type Vector = seq<real>

  /** Dimension of the fallback vector written for a failed text. */
  const FallbackDimension: nat := 1024

  /** `RAGConfig.MAX_RETRIES`. */
  const MaxRetries: nat := 3

  /** `RAGConfig.EMBEDDING_BATCH_SIZE`. */
  const DefaultBatchSize: nat := 20

  function ZeroVector(): (v: Vector)
    ensures |v| == FallbackDimension
    ensures forall i :: 0 <= i < |v| ==> v[i] == 0.0
  {
    seq(FallbackDimension, _ => 0.0)
  }

  /** A langchain `Document`: page content plus the `file_name` metadata. */
  datatype Document = Document(content: string, fileName: string)

  // ------------------------------------------------------------------ embed

  /** What one POST to the embedding endpoint did. */
  datatype Attempt = Responded(vector: Vector) | Errored(error: string)

  /** What `TextEmbeddings.embed` did: returned a vector, re-raised the last
      attempt's error, or fell off the end of an empty retry loop (Python
      then returns `None`). */
  datatype EmbedOutcome = Embedded(vector: Vector) | Raised(error: string) | ReturnedNothing

  /** `TextEmbeddings.embed`: attempt `a` (0-based) has outcome `outcome(a)`.
      Also returns how many attempts were made and the total back-off, in
      half-seconds, slept between them: failed attempt `a`, when it is not the
      last, is followed by `0.5 * (a + 1)` seconds, so the delays grow
      linearly. */
  method Embed(outcome: nat -> Attempt, maxRetries: nat) returns (r: EmbedOutcome, attempts: nat, waited: nat)
    ensures attempts <= maxRetries
    ensures forall a :: 0 <= a < attempts - 1 ==> outcome(a).Errored?
    ensures r.Embedded? ==> attempts > 0 && outcome(attempts - 1) == Responded(r.vector)
    ensures r.Raised? ==> attempts == maxRetries > 0 && outcome(maxRetries - 1) == Errored(r.error)
    ensures r.ReturnedNothing? <==> maxRetries == 0
    ensures 2 * waited == (attempts - 1) * attempts
  {
    var attempt: nat := 0;
    waited := 0;
    while attempt < maxRetries
      invariant attempt <= maxRetries
      invariant maxRetries == 0 || attempt < maxRetries
      invariant forall a :: 0 <= a < attempt ==> outcome(a).Errored?
      invariant 2 * waited == attempt * (attempt + 1)
    {
      match outcome(attempt)
      case Responded(v) =>
        return Embedded(v), attempt + 1, waited;
      case Errored(e) =>
        if attempt == maxRetries - 1 {
          return Raised(e), attempt + 1, waited;
        }
        waited := waited + (attempt + 1);
        attempt := attempt + 1;
    }
    return ReturnedNothing, 0, 0;
  }

  /** With at least one attempt allowed, `embed` succeeds exactly when some
      attempt within the budget succeeds, and then with the first one. */
  lemma EmbedSucceedsIffSomeAttemptDoes(outcome: nat -> Attempt, maxRetries: nat,
                                        r: EmbedOutcome, attempts: nat)
    requires maxRetries > 0
    requires attempts <= maxRetries
    requires forall a :: 0 <= a < attempts - 1 ==> outcome(a).Errored?
    requires r.Embedded? ==> attempts > 0 && outcome(attempts - 1) == Responded(r.vector)
    requires r.Raised? ==> attempts == maxRetries > 0 && outcome(maxRetries - 1) == Errored(r.error)
    requires r.ReturnedNothing? <==> maxRetries == 0
    ensures r.Embedded? <==> exists a :: 0 <= a < maxRetries && outcome(a).Responded?
  {
    if r.Raised? {
      forall a | 0 <= a < maxRetries
        ensures outcome(a).Errored?
      {
        if a < maxRetries - 1 {
          assert outcome(a).Errored?;
        }
      }
    }
  }

  // ------------------------------------------------------------------ batches

  /** What `_embed_batch` stores for one text: the embedding, or the zero
      vector when `embed` raised. */
  function Resolve(e: Option<Vector>): (v: Vector)
    ensures e.Some? ==> v == e.value
    ensures e.None? ==> v == ZeroVector()
  {
    match e
    case Some(x) => x
    case None => ZeroVector()
  }

  /** Indices `0 .. n-1`, the submission order of a batch. */
  function Indices(n: nat): (r: seq<nat>)
    ensures |r| == n
    ensures forall i :: 0 <= i < n ==> r[i] == i
    ensures forall i :: 0 <= i < n ==> i in r
  {
    var r := seq(n, i => i);
    forall i | 0 <= i < n
      ensures i in r
    {
      assert r[i] == i;
    }
    r
  }

  /** `TextEmbeddings._embed_batch`: results arrive in `completion` order
      (the order `as_completed` yields the futures, each index at least once)
      and are written at their submitted index. */
  method EmbedBatch(texts: seq<string>, embedOf: string -> Option<Vector>, completion: seq<nat>)
    returns (r: seq<Vector>)
    requires forall k :: 0 <= k < |completion| ==> completion[k] < |texts|
    requires forall i :: 0 <= i < |texts| ==> i in completion
    ensures |r| == |texts|
    ensures forall i :: 0 <= i < |texts| && embedOf(texts[i]).Some? ==> r[i] == embedOf(texts[i]).value
    ensures forall i :: 0 <= i < |texts| && embedOf(texts[i]).None? ==> r[i] == ZeroVector()
  {
    var slots: seq<Option<Vector>> := seq(|texts|, _ => None);
    for k := 0 to |completion|
      invariant |slots| == |texts|
      invariant forall i :: 0 <= i < |texts| && i in completion[..k] ==> slots[i] == Some(Resolve(embedOf(texts[i])))
      invariant forall i :: 0 <= i < |texts| && i !in completion[..k] ==> slots[i] == None
    {
      var index := completion[k];
      slots := slots[index := Some(Resolve(embedOf(texts[index])))];
      assert completion[..k + 1] == completion[..k] + [index];
    }
    assert completion[..|completion|] == completion;
    r := seq(|slots|, i requires 0 <= i < |slots| && slots[i].Some? => slots[i].value);
  }

  /** `TextEmbeddings.embed_documents`: consecutive slices of `batchSize`
      texts are embedded one batch after the other and appended in order. */
  method EmbedDocuments(texts: seq<string>, embedOf: string -> Option<Vector>, batchSize: nat)
    returns (r: seq<Vector>)
    requires batchSize > 0
    ensures |r| == |texts|
    ensures forall i :: 0 <= i < |texts| && embedOf(texts[i]).Some? ==> r[i] == embedOf(texts[i]).value
    ensures forall i :: 0 <= i < |texts| && embedOf(texts[i]).None? ==> r[i] == ZeroVector()
  {
    if |texts| == 0 {
      return [];
    }
    r := [];
    var i := 0;
    while i < |texts|
      invariant i <= |texts| || |r| == |texts|
      invariant |r| == if i <= |texts| then i else |texts|
      invariant forall j :: 0 <= j < |r| ==> r[j] == Resolve(embedOf(texts[j]))
      decreases |texts| - i
    {
      var end := if i + batchSize <= |texts| then i + batchSize else |texts|;
      var batch := texts[i..end];
      var embedded := EmbedBatch(batch, embedOf, Indices(|batch|));
      assert forall j :: 0 <= j < |batch| ==> embedded[j] == Resolve(embedOf(texts[i + j]));
      r := r + embedded;
      i := i + batchSize;
    }
  }

  // ------------------------------------------------------------------ images

  /** The document `get_images_desc_batch` produces for one image: the
      description, or a placeholder naming the path when the call raised. */
  function ImageDocument(path: string, describe: string -> Option<string>): (d: Document)
    ensures d.fileName == path
    ensures describe(path).Some? ==> d.content == describe(path).value
    ensures describe(path).None? ==> d.content == "Failed to process image: " + path
  {
    match describe(path)
    case Some(text) => Document(text, path)
    case None => Document("Failed to process image: " + path, path)
  }

  /** `ImageDocument` as a function of the path alone. */
  function Describer(describe: string -> Option<string>): string -> Document {
    path => ImageDocument(path, describe)
  }

  function FileNames(docs: seq<Document>): (names: seq<string>)
    ensures |names| == |docs|
    ensures forall i :: 0 <= i < |docs| ==> names[i] == docs[i].fileName
  {
    seq(|docs|, i requires 0 <= i < |docs| => docs[i].fileName)
  }

  /** `get_images_desc_batch`: one document per image path, appended in the
      order the describe calls complete (`completed`, a rearrangement of
      `paths`). */
  function ImagesDescBatch(paths: seq<string>, describe: string -> Option<string>, completed: seq<string>)
    : (docs: seq<Document>)
    requires multiset(completed) == multiset(paths)
    ensures |docs| == |paths| == |completed|
    ensures multiset(FileNames(docs)) == multiset(paths)
    ensures multiset(docs) == multiset(Map(Describer(describe), paths))
    ensures forall k :: 0 <= k < |docs| ==>
              && docs[k].fileName == completed[k]
              && (describe(completed[k]).Some? ==> docs[k].content == describe(completed[k]).value)
              && (describe(completed[k]).None? ==> docs[k].content == "Failed to process image: " + completed[k])
  {
    assert |completed| == |multiset(completed)| == |paths|;
    if |paths| == 0 then []
    else
      var docs := seq(|completed|, k requires 0 <= k < |completed| => ImageDocument(completed[k], describe));
      assert |completed| == |multiset(paths)| == |paths|;
      assert FileNames(docs) == completed;
      assert docs == Map(Describer(describe), completed);
      MapPermutation(Describer(describe), completed, paths);
      docs
  }
}

=== FILE: rag.dfy ===
/** The ingestion pipeline of `utils/rag.py`: suffix dispatch to a loader,
    concurrent loading of a batch of files, document splitting in contiguous
    batches, vector-store creation, and `process_docs`, which stages uploads,
    loads, splits, indexes and commits.

    Loaders, the vision endpoint, the text splitter and the vector store are
    parameters: `load(kind, path)` is what a LangChain loader returns for a
    path (`None` when it raises), `describe(path)` the image description,
    `split(docs)` the splitter's chunks (`None` when it raises), and store
    creation and insertion are success flags. A store is modelled by the
    chunks it holds. */
module Rag {
  import opened Wrappers
  import opened Text
  import opened Seqs
  import opened Embeddings
  import Config

  // ---------------------------------------------------------------- dispatch

  /** The loaders `process_input_file` chooses between. */
  datatype Loader = PdfLoader | DocxLoader | JsonLoader | CsvLoader | PythonLoader | NotebookLoader | ImageDescriber

  predicate IsImageName(name: string) {
    EndsWith(name, ".jpg") || EndsWith(name, ".png") || EndsWith(name, ".jpeg")
  }

  predicate IsOtherName(name: string) {
    !IsImageName(name)
  }

  /** The case-sensitive suffix test that selects loader `l`. */
  predicate Handles(l: Loader, name: string) {
    match l
    case PdfLoader => EndsWith(name, ".pdf")
    case DocxLoader => EndsWith(name, ".docx")
    case JsonLoader => EndsWith(name, ".json")
    case CsvLoader => EndsWith(name, ".csv")
    case PythonLoader => EndsWith(name, ".py")
    case NotebookLoader => EndsWith(name, ".ipynb")
    case ImageDescriber => IsImageName(name)
  }

  /** The last letter every suffix of a loader ends with. */
  function FinalLetter(l: Loader): char {
    match l
    case PdfLoader => 'f'
    case DocxLoader => 'x'
    case JsonLoader => 'n'
    case CsvLoader => 'v'
    case PythonLoader => 'y'
    case NotebookLoader => 'b'
    case ImageDescriber => 'g'
  }

  lemma HandlesFinalLetter(l: Loader, name: string)
    requires Handles(l, name)
    ensures |name| > 0 && name[|name| - 1] == FinalLetter(l)
  {
  }

  /** No name has two loaders, so the order of the tests does not matter. */
  lemma HandlesExclusive(l: Loader, m: Loader, name: string)
    requires Handles(l, name) && Handles(m, name)
    ensures l == m
  {
    HandlesFinalLetter(l, name);
    HandlesFinalLetter(m, name);
  }

  /** `process_input_file`'s if-chain: the first suffix that matches. */
  function Dispatch(name: string): (r: Option<Loader>)
    ensures forall l :: r == Some(l) <==> Handles(l, name)
  {
    var r :=
      if EndsWith(name, ".pdf") then Some(PdfLoader)
      else if EndsWith(name, ".docx") then Some(DocxLoader)
      else if EndsWith(name, ".json") then Some(JsonLoader)
      else if EndsWith(name, ".csv") then Some(CsvLoader)
      else if EndsWith(name, ".py") then Some(PythonLoader)
      else if EndsWith(name, ".ipynb") then Some(NotebookLoader)
      else if IsImageName(name) then Some(ImageDescriber)
      else None;
    assert forall l :: Handles(l, name) ==> r == Some(l) by {
      forall l | Handles(l, name)
        ensures r == Some(l)
      {
        HandlesExclusive(l, r.value, name);
      }
    }
    r
  }

  /** A suffix without a slash is unaffected by a directory prefix. */
  lemma EndsWithAfterSlash(dir: string, name: string, p: string)
    requires '/' !in p
    ensures EndsWith(dir + "/" + name, p) <==> EndsWith(name, p)
  {
    var s := dir + "/" + name;
    if |p| <= |name| {
      assert s[|s| - |p|..] == name[|name| - |p|..];
    } else {
      assert s[|s| - |name| - 1] == '/';
      if |p| <= |s| {
        assert s[|s| - |p|..][|p| - |name| - 1] == '/';
      }
    }
  }

  /** The path an upload is staged at. */
  function TempPath(sessionId: string, name: string): string {
    "data/" + sessionId + "/" + name
  }

  /** A staged file is dispatched exactly as its upload name would be. */
  lemma DispatchOfTempPath(sessionId: string, name: string)
    ensures Dispatch(TempPath(sessionId, name)) == Dispatch(name)
  {
    var dir := "data/" + sessionId;
    assert TempPath(sessionId, name) == dir + "/" + name;
    EndsWithAfterSlash(dir, name, ".pdf");
    EndsWithAfterSlash(dir, name, ".docx");
    EndsWithAfterSlash(dir, name, ".json");
    EndsWithAfterSlash(dir, name, ".csv");
    EndsWithAfterSlash(dir, name, ".py");
    EndsWithAfterSlash(dir, name, ".ipynb");
    EndsWithAfterSlash(dir, name, ".jpg");
    EndsWithAfterSlash(dir, name, ".png");
    EndsWithAfterSlash(dir, name, ".jpeg");
  }

  // ---------------------------------------------------------------- loading

  /** `process_input_file(path)`: the dispatched loader's documents; an
      image yields its one description document; an unsupported suffix, or
      a loader or describe call that raises, yields no documents. */
  function ProcessInputFile(path: string, load: (Loader, string) -> Option<seq<Document>>,
                            describe: string -> Option<string>): (docs: seq<Document>)
    ensures docs != [] ==> Dispatch(path).Some?
    ensures Handles(ImageDescriber, path) ==>
              docs == (if describe(path).Some? then [Document(describe(path).value, path)] else [])
    ensures forall l :: l != ImageDescriber && Handles(l, path) ==>
              docs == (if load(l, path).Some? then load(l, path).value else [])
  {
    match Dispatch(path)
    case None => []
    case Some(ImageDescriber) =>
      (match describe(path)
       case Some(text) => [Document(text, path)]
       case None => [])
    case Some(l) =>
      (match load(l, path)
       case Some(loaded) => loaded
       case None => [])
  }

  /** `process_input_file` as a value, for mapping over paths. */
  function Loaded(load: (Loader, string) -> Option<seq<Document>>, describe: string -> Option<string>)
    : string -> seq<Document>
  {
    path => ProcessInputFile(path, load, describe)
  }

  /** `a or b` for counts, where `0` stands for `None`. */
  function OrElse(a: nat, b: nat): nat {
    if a > 0 then a else b
  }

  /** `max_workers or RAGConfig.DOC_PROCESSING_MAX_WORKERS or
      RAGConfig.get_optimal_workers("mixed")`. */
  function DocWorkers(requested: nat, configured: nat, cpu: Option<nat>): (w: nat)
    ensures w >= 1
    ensures requested > 0 ==> w == requested
    ensures requested == 0 && configured > 0 ==> w == configured
    ensures requested == 0 && configured == 0 ==> w <= 16 && w == Config.OptimalWorkers("mixed", cpu)
  {
    OrElse(requested, OrElse(configured, Config.OptimalWorkers("mixed", cpu)))
  }

  /** The pool size `process_input_files_batch` uses for the non-image
      files: never more workers than files, and 4 when there are none. */
  function FileWorkers(requested: nat, configured: nat, cpu: Option<nat>, others: nat): (w: nat)
    ensures others == 0 ==> w == 4
    ensures others > 0 ==> 1 <= w <= others && w <= DocWorkers(requested, configured, cpu)
    ensures others > 0 ==> w == others || w == DocWorkers(requested, configured, cpu)
  {
    var mw := DocWorkers(requested, configured, cpu);
    if others > 0 then Min(mw, others) else 4
  }

  /** Every path is an image or another file, never both. */
  lemma PartitionPaths(paths: seq<string>)
    ensures multiset(Filter(IsImageName, paths)) + multiset(Filter(IsOtherName, paths)) == multiset(paths)
    ensures |Filter(IsImageName, paths)| + |Filter(IsOtherName, paths)| == |paths|
    ensures forall p :: p in Filter(IsImageName, paths) ==> p !in Filter(IsOtherName, paths)
  {
    FilterPartition(IsImageName, IsOtherName, paths);
  }

  /** Completion orders: `arrange(xs)` is the order `as_completed` yields the
      tasks submitted for `xs`. */
  ghost predicate Rearranges(arrange: seq<string> -> seq<string>) {
    forall xs :: multiset(arrange(xs)) == multiset(xs)
  }

  /** `process_input_files_batch(paths)`: the image documents (one per image
      path, in completion order) followed by the documents of the other
      files, collected in completion order; a file that yields nothing
      contributes nothing. */
  function ProcessInputFilesBatch(paths: seq<string>, load: (Loader, string) -> Option<seq<Document>>,
                                  describe: string -> Option<string>, arrange: seq<string> -> seq<string>)
    : (docs: seq<Document>)
    requires Rearranges(arrange)
    ensures |paths| == 0 ==> docs == []
    ensures var images := Filter(IsImageName, paths);
            && |images| <= |docs|
            && multiset(FileNames(docs[..|images|])) == multiset(images)
            && (forall k :: 0 <= k < |images| ==> IsImageName(docs[k].fileName))
            && multiset(docs[..|images|]) == multiset(Map(Describer(describe), images))
    ensures var images := Filter(IsImageName, paths);
            multiset(docs[|images|..]) == multiset(FlatMap(Loaded(load, describe), Filter(IsOtherName, paths)))
  {
    if |paths| == 0 then []
    else
      var imageDocs := ImageDocuments(paths, describe, arrange);
      var otherDocs := OtherDocuments(paths, load, describe, arrange);
      assert (imageDocs + otherDocs)[..|imageDocs|] == imageDocs;
      assert (imageDocs + otherDocs)[|imageDocs|..] == otherDocs;
      imageDocs + otherDocs
  }

  /** The image half of `process_input_files_batch`: one document per image
      path, named after it, holding its description or the placeholder. */
  function ImageDocuments(paths: seq<string>, describe: string -> Option<string>,
                          arrange: seq<string> -> seq<string>): (docs: seq<Document>)
    requires Rearranges(arrange)
    ensures |docs| == |Filter(IsImageName, paths)|
    ensures multiset(FileNames(docs)) == multiset(Filter(IsImageName, paths))
    ensures forall k :: 0 <= k < |docs| ==> IsImageName(docs[k].fileName)
    ensures multiset(docs) == multiset(Map(Describer(describe), Filter(IsImageName, paths)))
  {
    var images := Filter(IsImageName, paths);
    if |images| == 0 then []
    else
      var docs := ImagesDescBatch(images, describe, arrange(images));
      assert forall k :: 0 <= k < |docs| ==> docs[k].fileName in multiset(images) by {
        forall k | 0 <= k < |docs|
          ensures docs[k].fileName in multiset(images)
        {
          assert FileNames(docs)[k] == docs[k].fileName;
        }
      }
      docs
  }

  /** The other half: the documents of the non-image files, in completion
      order, which holds the same documents as submission order. */
  function OtherDocuments(paths: seq<string>, load: (Loader, string) -> Option<seq<Document>>,
                          describe: string -> Option<string>, arrange: seq<string> -> seq<string>)
    : (docs: seq<Document>)
    requires Rearranges(arrange)
    ensures multiset(docs) == multiset(FlatMap(Loaded(load, describe), Filter(IsOtherName, paths)))
  {
    var others := Filter(IsOtherName, paths);
    FlatMapPermutation(Loaded(load, describe), others, arrange(others));
    FlatMap(Loaded(load, describe), arrange(others))
  }

  // ---------------------------------------------------------------- splitting

  /** The batch size of the concurrent path of `get_splits` (more than ten
      documents): `max(1, n // workers)` with `workers = max_workers or
      min(4, n // 5)`. */
  function SplitBatchSize(n: nat, maxWorkers: nat): (b: nat)
    requires n > 10
    ensures 1 <= b <= n
    ensures b * SplitWorkers(n, maxWorkers) <= n || SplitWorkers(n, maxWorkers) > n
  {
    var workers := SplitWorkers(n, maxWorkers);
    QuotientBound(n, workers);
    if n / workers >= 1 then n / workers else 1
  }

  /** The pool size of the concurrent path of `get_splits`:
      `max_workers or min(4, n // 5)`, at least two when not given. */
  function SplitWorkers(n: nat, maxWorkers: nat): (w: nat)
    requires n > 10
    ensures w >= 1
    ensures maxWorkers == 0 ==> 2 <= w <= 4
  {
    if maxWorkers > 0 then maxWorkers else Min(4, n / 5)
  }

  lemma QuotientBound(n: nat, w: nat)
    requires w >= 1
    ensures n / w <= n
    ensures (n / w) * w <= n
    ensures w <= n ==> n / w >= 1
  {
    assert n == (n / w) * w + n % w;
  }

  /** One batch's chunks, or none when the splitter raised on it. */
  function SplitOrEmpty(split: seq<Document> -> Option<seq<Document>>): seq<Document> -> seq<Document> {
    batch => match split(batch) case Some(chunks) => chunks case None => []
  }

  /** `get_splits(docs)`: `None` when the splitter raised on the sequential
      path, which `get_splits` does not catch. Up to ten documents are split
      in one call; more are split in contiguous batches whose chunks are
      concatenated in batch order, a failed batch contributing none. */
  function GetSplits(docs: seq<Document>, split: seq<Document> -> Option<seq<Document>>, maxWorkers: nat)
    : (r: Option<seq<Document>>)
    ensures |docs| == 0 ==> r == Some([])
    ensures 0 < |docs| <= 10 ==> r == split(docs)
    ensures r.None? <==> 0 < |docs| <= 10 && split(docs).None?
  {
    if |docs| == 0 then Some([])
    else if |docs| <= 10 then split(docs)
    else Some(FlatMap(SplitOrEmpty(split), Batches(docs, SplitBatchSize(|docs|, maxWorkers))))
  }

  /** When the splitter treats documents one at a time, `get_splits` gives
      the same chunks, in the same order, as splitting the documents one
      after the other: the batching is invisible. */
  lemma GetSplitsPerDocument(docs: seq<Document>, split: seq<Document> -> Option<seq<Document>>,
                             splitOne: Document -> seq<Document>, maxWorkers: nat)
    requires forall xs :: split(xs) == Some(FlatMap(splitOne, xs))
    ensures GetSplits(docs, split, maxWorkers) == Some(FlatMap(splitOne, docs))
  {
    if |docs| > 10 {
      var g := SplitOrEmpty(split);
      assert forall batch :: g(batch) == FlatMap(splitOne, batch);
      FlatMapBatches(splitOne, g, docs, SplitBatchSize(|docs|, maxWorkers));
    }
  }

  /** More than ten documents are split batch by batch: batch `k` is the
      slice `docs[k*b : k*b + b]`, it contributes the splitter's chunks or
      none when the splitter raised on it, and the contributions are
      concatenated in batch order. */
  lemma GetSplitsBatched(docs: seq<Document>, split: seq<Document> -> Option<seq<Document>>, maxWorkers: nat)
    requires |docs| > 10
    ensures var b := SplitBatchSize(|docs|, maxWorkers);
            var n := |Batches(docs, b)|;
            && n * b >= |docs| && (n - 1) * b < |docs|
            && GetSplits(docs, split, maxWorkers)
               == Some(Flatten(seq(n, k requires 0 <= k < n =>
                    SplitOrEmpty(split)(docs[Seqs.Min(k * b, |docs|)..Seqs.Min(k * b + b, |docs|)]))))
  {
    var b := SplitBatchSize(|docs|, maxWorkers);
    var bs := Batches(docs, b);
    var n := |bs|;
    var g := SplitOrEmpty(split);
    BatchesCount(docs, b);
    Distrib(n - 1, b);
    FlatMapFlatten(g, bs);
    var slices := seq(n, k requires 0 <= k < n => g(docs[Seqs.Min(k * b, |docs|)..Seqs.Min(k * b + b, |docs|)]));
    forall k | 0 <= k < n
      ensures Map(g, bs)[k] == slices[k]
    {
      BatchAt(docs, b, k, k * b);
    }
    assert Map(g, bs) == slices;
  }

  /** A splitter that always raises makes a small document set fail but a
      large one succeed with no chunks. */
  lemma GetSplitsFailingSplitter(docs: seq<Document>, split: seq<Document> -> Option<seq<Document>>, maxWorkers: nat)
    requires forall xs :: split(xs).None?
    requires |docs| > 0
    ensures |docs| <= 10 ==> GetSplits(docs, split, maxWorkers).None?
    ensures |docs| > 10 ==> GetSplits(docs, split, maxWorkers) == Some([])
  {
    if |docs| > 10 {
      var g := SplitOrEmpty(split);
      assert forall batch :: g(batch) == [];
      forall batch
        ensures g(batch) == FlatMap(NoChunks, batch)
      {
        FlatMapEmpty(NoChunks, batch);
      }
      FlatMapBatches(NoChunks, g, docs, SplitBatchSize(|docs|, maxWorkers));
      FlatMapEmpty(NoChunks, docs);
    }
  }

  function NoChunks(d: Document): seq<Document> { [] }

  lemma {:induction false} FlatMapEmpty<A, B>(f: A -> seq<B>, xs: seq<A>)
    requires forall x :: f(x) == []
    ensures FlatMap(f, xs) == []
    decreases |xs|
  {
    if |xs| > 0 {
      FlatMapEmpty(f, xs[1..]);
    }
  }

  // ---------------------------------------------------------------- store

  /** A vector store, by the chunks it holds. */
  datatype Store = Store(chunks: seq<Document>)

  /** `get_db(splits)`: no store for no splits or when creation raises,
      otherwise a store holding exactly the splits. */
  function GetDb(splits: seq<Document>, createOk: bool): (db: Option<Store>)
    ensures db.Some? <==> |splits| > 0 && createOk
    ensures db.Some? ==> db.value.chunks == splits
  {
    if |splits| == 0 || !createOk then None else Some(Store(splits))
  }

  /** The store `process_docs` ends with: the existing store extended in
      place, or, when there is none or the insertion raised, a store built
      from the new splits alone (the earlier chunks are then lost). */
  function Commit(existing: Option<Store>, splits: seq<Document>, addOk: bool, createOk: bool)
    : (db: Option<Store>)
    ensures existing.Some? && addOk ==> db == Some(Store(existing.value.chunks + splits))
    ensures existing.None? || !addOk ==> db == GetDb(splits, createOk)
    ensures db.Some? ==> |splits| <= |db.value.chunks| && db.value.chunks[|db.value.chunks| - |splits|..] == splits
  {
    match existing
    case Some(store) =>
      if addOk then
        var chunks := store.chunks + splits;
        assert chunks[|chunks| - |splits|..] == splits;
        Some(Store(chunks))
      else GetDb(splits, createOk)
    case None => GetDb(splits, createOk)
  }

  // ---------------------------------------------------------------- process_docs

  /** An uploaded file: its name and bytes. */
  datatype Upload = Upload(name: string, content: string)

  function UploadNames(uploads: seq<Upload>): (names: seq<string>)
    ensures |names| == |uploads|
    ensures forall i :: 0 <= i < |uploads| ==> names[i] == uploads[i].name
  {
    seq(|uploads|, i requires 0 <= i < |uploads| => uploads[i].name)
  }

  /** `new_processed`: the names of the uploads not yet processed, in upload
      order, a repeated name as often as it is uploaded. */
  function NewNames(uploads: seq<Upload>, processed: seq<string>): (names: seq<string>)
    ensures forall n :: multiset(names)[n] == if n in processed then 0 else multiset(UploadNames(uploads))[n]
    ensures forall n :: n in names <==> n !in processed && n in UploadNames(uploads)
    decreases |uploads|
  {
    if |uploads| == 0 then []
    else
      var init := uploads[..|uploads| - 1];
      var last := uploads[|uploads| - 1];
      assert UploadNames(uploads) == UploadNames(init) + [last.name];
      NewNames(init, processed) + (if last.name in processed then [] else [last.name])
  }

  /** The temporary paths of the staged uploads. */
  function StagedPaths(sessionId: string, names: seq<string>): (paths: seq<string>)
    ensures |paths| == |names|
    ensures forall i :: 0 <= i < |names| ==> paths[i] == TempPath(sessionId, names[i])
  {
    seq(|names|, i requires 0 <= i < |names| => TempPath(sessionId, names[i]))
  }

  /** Where `process_docs` left the pipeline. */
  datatype Stage = NoNewFiles | NoDocuments | NoSplits | Failed | Committed

  /** What `process_docs` returns, and whether the `finally` block removed
      the staging directory. */
  datatype Outcome = Outcome(db: Option<Store>, processed: seq<string>, stage: Stage, stagingRemoved: bool)

  /** The outcomes of the calls `process_docs` makes outside the model. */
  datatype Environment = Environment(
    mkdirOk: bool,
    writeOk: bool,
    load: (Loader, string) -> Option<seq<Document>>,
    describe: string -> Option<string>,
    arrange: seq<string> -> seq<string>,
    split: seq<Document> -> Option<seq<Document>>,
    addOk: bool,
    createOk: bool,
    rmtreeOk: bool,
    requestedWorkers: nat,
    configuredWorkers: nat,
    cpu: Option<nat>)

  /** The documents extracted from the staged files. */
  function Extracted(sessionId: string, names: seq<string>, env: Environment): seq<Document>
    requires Rearranges(env.arrange)
  {
    ProcessInputFilesBatch(StagedPaths(sessionId, names), env.load, env.describe, env.arrange)
  }

  /** The chunks made from the extracted documents. */
  function Chunks(sessionId: string, names: seq<string>, env: Environment): Option<seq<Document>>
    requires Rearranges(env.arrange)
  {
    GetSplits(Extracted(sessionId, names, env), env.split,
              DocWorkers(env.requestedWorkers, env.configuredWorkers, env.cpu))
  }

  /** The stage the `try` block of `process_docs` reaches. */
  function StageReached(sessionId: string, names: seq<string>, env: Environment): (s: Stage)
    requires Rearranges(env.arrange)
    ensures s == NoNewFiles <==> |names| == 0
    ensures s == NoDocuments <==> |names| > 0 && env.writeOk && |Extracted(sessionId, names, env)| == 0
    ensures s == NoSplits <==> |names| > 0 && env.writeOk && |Extracted(sessionId, names, env)| > 0
                               && Chunks(sessionId, names, env) == Some([])
    ensures s == Committed <==> |names| > 0 && env.writeOk && |Extracted(sessionId, names, env)| > 0
                                && Chunks(sessionId, names, env).Some? && |Chunks(sessionId, names, env).value| > 0
    ensures s == Failed <==> |names| > 0 && (!env.writeOk
                               || (|Extracted(sessionId, names, env)| > 0 && Chunks(sessionId, names, env).None?))
  {
    if |names| == 0 then NoNewFiles
    else if !env.writeOk then Failed
    else if |Extracted(sessionId, names, env)| == 0 then NoDocuments
    else
      match Chunks(sessionId, names, env)
      case None => Failed
      case Some(chunks) => if |chunks| == 0 then NoSplits else Committed
  }

  /** `process_docs`: `Failure` when creating the staging directory raises
      (that happens before the `try`). Otherwise every early return and the
      exception handler give back the existing store and the processed list
      unchanged; only a commit extends the list by `new_processed`, even
      when no store could be built; and the staging directory is removed on
      every path through the `try`. */
  function ProcessDocs(sessionId: string, uploads: seq<Upload>, processed: seq<string>,
                       existing: Option<Store>, env: Environment): (r: Result<Outcome>)
    requires Rearranges(env.arrange)
    ensures r.Failure? <==> !env.mkdirOk
    ensures r.Success? ==> r.value.stagingRemoved == env.rmtreeOk
    ensures r.Success? ==> r.value.stage == StageReached(sessionId, NewNames(uploads, processed), env)
    ensures r.Success? && r.value.stage != Committed ==> r.value.db == existing && r.value.processed == processed
    ensures r.Success? && r.value.stage == Committed ==> r.value.processed == processed + NewNames(uploads, processed)
    ensures r.Success? ==> (r.value.stage == NoNewFiles <==> |NewNames(uploads, processed)| == 0)
    ensures r.Success? && r.value.stage == Committed ==>
              var chunks := Chunks(sessionId, NewNames(uploads, processed), env);
              chunks.Some? && r.value.db == Commit(existing, chunks.value, env.addOk, env.createOk)
  {
    if !env.mkdirOk then Failure("OSError: could not create the staging directory")
    else
      var names := NewNames(uploads, processed);
      var stage := StageReached(sessionId, names, env);
      if stage == Committed then
        var db := Commit(existing, Chunks(sessionId, names, env).value, env.addOk, env.createOk);
        Success(Outcome(db, processed + names, Committed, env.rmtreeOk))
      else
        Success(Outcome(existing, processed, stage, env.rmtreeOk))
  }

  /** A splitter that yields chunks for every non-empty list also yields
      chunks for a non-empty document list through `get_splits`. */
  lemma GetSplitsNonEmpty(docs: seq<Document>, split: seq<Document> -> Option<seq<Document>>, maxWorkers: nat)
    requires |docs| > 0
    requires forall xs: seq<Document> :: |xs| > 0 ==> split(xs).Some? && |split(xs).value| > 0
    ensures GetSplits(docs, split, maxWorkers).Some? && |GetSplits(docs, split, maxWorkers).value| > 0
  {
    if |docs| > 10 {
      var bs := Batches(docs, SplitBatchSize(|docs|, maxWorkers));
      var g := SplitOrEmpty(split);
      BatchesFlatten(docs, SplitBatchSize(|docs|, maxWorkers));
      assert |bs| > 0;
      assert |g(bs[0])| > 0;
      assert FlatMap(g, bs) == g(bs[0]) + FlatMap(g, bs[1..]);
    }
  }

  /** A name dispatched to a non-image loader is not an image name. */
  lemma DispatchedElsewhere(name: string, l: Loader)
    requires Dispatch(name) == Some(l) && l != ImageDescriber
    ensures IsOtherName(name)
  {
    assert !Handles(ImageDescriber, name);
  }

  /** One upload, with nothing processed yet, is one new name. */
  lemma NewNamesOfOne(name: string, content: string)
    ensures NewNames([Upload(name, content)], []) == [name]
  {
    var names := NewNames([Upload(name, content)], []);
    assert UploadNames([Upload(name, content)]) == [name];
    assert multiset(names)[name] == 1;
    assert forall n :: n in names ==> n == name;
  }

  /** A staged file that a non-image loader reads into documents gives
      documents. */
  lemma ExtractedOfOne(sessionId: string, name: string, l: Loader, env: Environment)
    requires Rearranges(env.arrange)
    requires Dispatch(name) == Some(l) && l != ImageDescriber
    requires env.load(l, TempPath(sessionId, name)).Some? && |env.load(l, TempPath(sessionId, name)).value| > 0
    ensures |Extracted(sessionId, [name], env)| > 0
  {
    var path := TempPath(sessionId, name);
    assert StagedPaths(sessionId, [name]) == [path];
    DispatchOfTempPath(sessionId, name);
    DispatchedElsewhere(path, l);
    assert Filter(IsImageName, [path]) == [];
    assert Filter(IsOtherName, [path]) == [path];
    var loaded := Loaded(env.load, env.describe);
    assert FlatMap(loaded, [path]) == loaded(path) + FlatMap(loaded, []);
    assert loaded(path) == env.load(l, path).value;
    var docs := Extracted(sessionId, [name], env);
    assert docs[0..] == docs;
    assert multiset(docs) == multiset(loaded(path));
  }

  /** The pipeline does index: one new file that a (non-image) loader
      reads into documents, with a splitter that yields chunks, is
      committed and recorded as processed. */
  lemma ProcessDocsIndexesNewFile(sessionId: string, name: string, content: string, l: Loader,
                                  existing: Option<Store>, env: Environment)
    requires Rearranges(env.arrange)
    requires env.mkdirOk && env.writeOk
    requires Dispatch(name) == Some(l) && l != ImageDescriber
    requires env.load(l, TempPath(sessionId, name)).Some? && |env.load(l, TempPath(sessionId, name)).value| > 0
    requires forall xs: seq<Document> :: |xs| > 0 ==> env.split(xs).Some? && |env.split(xs).value| > 0
    ensures var r := ProcessDocs(sessionId, [Upload(name, content)], [], existing, env);
            r.Success? && r.value.stage == Committed && r.value.processed == [name]
  {
    NewNamesOfOne(name, content);
    ExtractedOfOne(sessionId, name, l, env);
    GetSplitsNonEmpty(Extracted(sessionId, [name], env), env.split,
                      DocWorkers(env.requestedWorkers, env.configuredWorkers, env.cpu));
    assert StageReached(sessionId, [name], env) == Committed;
  }

  /** After a commit every uploaded name is recorded, so running
      `process_docs` again on the same uploads stages nothing and changes
      nothing. */
  lemma ProcessDocsTwice(sessionId: string, uploads: seq<Upload>, processed: seq<string>,
                         existing: Option<Store>, env: Environment)
    requires Rearranges(env.arrange)
    requires ProcessDocs(sessionId, uploads, processed, existing, env).Success?
    requires ProcessDocs(sessionId, uploads, processed, existing, env).value.stage == Committed
    ensures var first := ProcessDocs(sessionId, uploads, processed, existing, env).value;
            var second := ProcessDocs(sessionId, uploads, first.processed, first.db, env).value;
            second.stage == NoNewFiles && second.db == first.db && second.processed == first.processed
  {
  }
}

=== FILE: seqs.dfy ===
/** Sequence combinators shared by the pipeline and the responder: list
    flattening (`extend` in a loop), fixed-size slicing
    (`[xs[i:i+b] for i in range(0, len(xs), b)]`), order-preserving filtering
    and first-occurrence de-duplication. */
module Seqs {

  /** Concatenation of a list of lists, in list order. */
  function Flatten<T>(ss: seq<seq<T>>): seq<T>
    decreases |ss|
  {
    if |ss| == 0 then [] else ss[0] + Flatten(ss[1..])
  }

  lemma {:induction false} FlattenAppend<T>(a: seq<seq<T>>, b: seq<seq<T>>)
    ensures Flatten(a + b) == Flatten(a) + Flatten(b)
    decreases |a|
  {
    if |a| == 0 {
      assert a + b == b;
    } else {
      assert (a + b)[1..] == a[1..] + b;
      FlattenAppend(a[1..], b);
    }
  }

  lemma FlattenSnoc<T>(a: seq<seq<T>>, x: seq<T>)
    ensures Flatten(a + [x]) == Flatten(a) + x
  {
    FlattenAppend(a, [x]);
    assert Flatten([x]) == x + Flatten([]);
  }

  /** `xs` cut into consecutive slices of `b` elements, the last possibly
      shorter. */
  function Batches<T>(xs: seq<T>, b: nat): (bs: seq<seq<T>>)
    requires b > 0
    ensures forall i :: 0 <= i < |bs| ==> 0 < |bs[i]| <= b
    ensures forall i :: 0 <= i < |bs| - 1 ==> |bs[i]| == b
    decreases |xs|
  {
    if |xs| == 0 then []
    else if |xs| <= b then [xs]
    else
      [xs[..b]] + Batches(xs[b..], b)
  }

  /** The batches cover the input exactly, in order. */
  lemma {:induction false} BatchesFlatten<T>(xs: seq<T>, b: nat)
    requires b > 0
    ensures Flatten(Batches(xs, b)) == xs
    decreases |xs|
  {
    if |xs| > b {
      BatchesFlatten(xs[b..], b);
      assert xs[..b] + xs[b..] == xs;
    } else if |xs| > 0 {
      assert Flatten([xs]) == xs + Flatten([]);
    }
  }

  lemma Distrib(n: int, b: int)
    ensures (n + 1) * b == n * b + b
  {
  }

  /** There are `ceil(|xs| / b)` batches. */
  lemma {:induction false} BatchesCount<T>(xs: seq<T>, b: nat)
    requires b > 0
    ensures |Batches(xs, b)| * b >= |xs|
    ensures |Batches(xs, b)| * b < |xs| + b
    decreases |xs|
  {
    if |xs| > b {
      BatchesCount(xs[b..], b);
      var n := |Batches(xs[b..], b)|;
      assert |Batches(xs, b)| == n + 1;
      Distrib(n, b);
    }
  }

  function Min(a: int, b: int): int { if a <= b then a else b }

  /** A slice of a suffix is a slice of the whole, shifted. */
  lemma SliceOfSuffix<T>(xs: seq<T>, b: nat, i: nat, j: nat)
    requires b <= |xs| && i <= j <= |xs| - b
    ensures xs[b..][i..j] == xs[b + i..b + j]
  {
    assert forall m :: 0 <= m < j - i ==> xs[b..][i..j][m] == xs[b + i + m];
  }

  /** Batch `k` is the Python slice `xs[k*b : k*b + b]`. */
  lemma {:induction false} BatchAt<T>(xs: seq<T>, b: nat, k: nat, start: nat)
    requires b > 0
    requires k < |Batches(xs, b)|
    requires start == k * b
    ensures start < |xs|
    ensures Batches(xs, b)[k] == xs[start..Min(start + b, |xs|)]
    decreases k
  {
    if k > 0 {
      assert |xs| > b;
      var tail := xs[b..];
      assert Batches(xs, b) == [xs[..b]] + Batches(tail, b);
      Distrib(k - 1, b);
      BatchAt(tail, b, k - 1, start - b);
      var hi := Min(start, |tail|);
      assert hi + b == Min(start + b, |xs|);
      SliceOfSuffix(xs, b, start - b, hi);
    }
  }

  /** The elements that satisfy `p`, in their original order. */
  function Filter<T(!new)>(p: T -> bool, xs: seq<T>): (r: seq<T>)
    ensures |r| <= |xs|
    ensures forall x :: x in r <==> x in xs && p(x)
    decreases |xs|
  {
    if |xs| == 0 then []
    else if p(xs[0]) then [xs[0]] + Filter(p, xs[1..])
    else Filter(p, xs[1..])
  }

  /** Filtering commutes with concatenation, so the kept elements stay in
      their original order. */
  lemma {:induction false} FilterAppend<T(!new)>(p: T -> bool, a: seq<T>, b: seq<T>)
    ensures Filter(p, a + b) == Filter(p, a) + Filter(p, b)
    decreases |a|
  {
    if |a| > 0 {
      assert (a + b)[1..] == a[1..] + b;
      FilterAppend(p, a[1..], b);
    } else {
      assert a + b == b;
    }
  }

  /** Splitting by a predicate and its negation loses nothing and adds nothing. */
  lemma {:induction false} FilterPartition<T(!new)>(p: T -> bool, q: T -> bool, xs: seq<T>)
    requires forall x :: q(x) == !p(x)
    ensures multiset(Filter(p, xs)) + multiset(Filter(q, xs)) == multiset(xs)
    ensures |Filter(p, xs)| + |Filter(q, xs)| == |xs|
    decreases |xs|
  {
    if |xs| > 0 {
      FilterPartition(p, q, xs[1..]);
      assert [xs[0]] + xs[1..] == xs;
    }
  }

  /** One more element of the prefix adds at most that element. */
  /** Filtering the kept elements again by a stricter predicate is
      filtering once: a delete keeps the order and number of the rows a
      stricter selection sees. */
  lemma {:induction false} FilterFilter<T(!new)>(p: T -> bool, q: T -> bool, xs: seq<T>)
    requires forall x :: q(x) ==> p(x)
    ensures Filter(q, Filter(p, xs)) == Filter(q, xs)
    decreases |xs|
  {
    if |xs| > 0 {
      FilterFilter(p, q, xs[1..]);
      if p(xs[0]) {
        var rest := Filter(p, xs[1..]);
        assert ([xs[0]] + rest)[0] == xs[0];
        assert ([xs[0]] + rest)[1..] == rest;
      }
    }
  }

  lemma FilterPrefix<T(!new)>(p: T -> bool, xs: seq<T>, i: nat)
    requires i < |xs|
    ensures Filter(p, xs[..i + 1]) == Filter(p, xs[..i]) + (if p(xs[i]) then [xs[i]] else [])
  {
    FilterAppend(p, xs[..i], [xs[i]]);
    assert xs[..i + 1] == xs[..i] + [xs[i]];
  }

  /** The loop that appends each element to one of two lists, by `p`:
      each list is the filter, and together they hold the input. */
  method Partition<T(!new)>(p: T -> bool, q: T -> bool, xs: seq<T>) returns (yes: seq<T>, no: seq<T>)
    requires forall x :: q(x) == !p(x)
    ensures yes == Filter(p, xs) && no == Filter(q, xs)
    ensures multiset(yes) + multiset(no) == multiset(xs)
  {
    yes, no := [], [];
    var i := 0;
    while i < |xs|
      invariant 0 <= i <= |xs|
      invariant yes == Filter(p, xs[..i]) && no == Filter(q, xs[..i])
    {
      FilterPrefix(p, xs, i);
      FilterPrefix(q, xs, i);
      if p(xs[i]) {
        yes := yes + [xs[i]];
      } else {
        no := no + [xs[i]];
      }
      i := i + 1;
    }
    assert xs[..i] == xs;
    FilterPartition(p, q, xs);
  }

  /** `xs[:k]` for a non-negative `k`. */
  function Take<T>(xs: seq<T>, k: nat): (r: seq<T>)
    ensures |r| == if k <= |xs| then k else |xs|
    ensures r == xs[..|r|]
  {
    if k <= |xs| then xs[..k] else xs
  }

  predicate NoDuplicates<T(==)>(xs: seq<T>) {
    forall i, j :: 0 <= i < j < |xs| ==> xs[i] != xs[j]
  }

  /** Reference definition of first-occurrence de-duplication: position `i`
      of `xs` is kept exactly when `xs[i]` does not occur in `xs[..i]`. */
  function Dedup<T(==,!new)>(xs: seq<T>): (r: seq<T>)
    ensures NoDuplicates(r)
    ensures forall x :: x in r <==> x in xs
    ensures |r| <= |xs|
    decreases |xs|
  {
    if |xs| == 0 then []
    else
      var init := Dedup(xs[..|xs| - 1]);
      var last := xs[|xs| - 1];
      assert forall x :: x in xs <==> x in xs[..|xs| - 1] || x == last;
      if last in xs[..|xs| - 1] then init else init + [last]
  }

  /** De-duplicating twice is the same as de-duplicating once. */
  lemma {:induction false} DedupNoDuplicates<T(!new)>(xs: seq<T>)
    requires NoDuplicates(xs)
    ensures Dedup(xs) == xs
    decreases |xs|
  {
    if |xs| > 0 {
      var init := xs[..|xs| - 1];
      assert NoDuplicates(init);
      DedupNoDuplicates(init);
      assert xs[|xs| - 1] !in init;
      assert init + [xs[|xs| - 1]] == xs;
    }
  }

  /** Map-then-flatten. */
  function FlatMap<A, B>(f: A -> seq<B>, xs: seq<A>): seq<B>
    decreases |xs|
  {
    if |xs| == 0 then [] else f(xs[0]) + FlatMap(f, xs[1..])
  }

  lemma {:induction false} FlatMapAppend<A, B>(f: A -> seq<B>, a: seq<A>, b: seq<A>)
    ensures FlatMap(f, a + b) == FlatMap(f, a) + FlatMap(f, b)
    decreases |a|
  {
    if |a| == 0 {
      assert a + b == b;
    } else {
      assert (a + b)[1..] == a[1..] + b;
      FlatMapAppend(f, a[1..], b);
    }
  }

  /** Mapping a per-batch function that is itself a per-item map over the
      batches of `xs` gives the per-item map over `xs`: batching is invisible. */
  lemma {:induction false} FlatMapBatches<A, B>(f: A -> seq<B>, g: seq<A> -> seq<B>, xs: seq<A>, b: nat)
    requires b > 0
    requires forall batch :: g(batch) == FlatMap(f, batch)
    ensures FlatMap(g, Batches(xs, b)) == FlatMap(f, xs)
    decreases |xs|
  {
    if |xs| == 0 {
    } else if |xs| <= b {
      assert FlatMap(g, [xs]) == g(xs) + FlatMap(g, []);
    } else {
      var bs := Batches(xs, b);
      assert bs == [xs[..b]] + Batches(xs[b..], b);
      assert bs[1..] == Batches(xs[b..], b);
      FlatMapBatches(f, g, xs[b..], b);
      FlatMapAppend(f, xs[..b], xs[b..]);
      assert xs[..b] + xs[b..] == xs;
    }
  }

  lemma MultisetRemove<A>(xs: seq<A>, ys: seq<A>, k: nat)
    requires multiset(xs) == multiset(ys)
    requires |xs| > 0 && k < |ys| && ys[k] == xs[0]
    ensures multiset(xs[1..]) == multiset(ys[..k] + ys[k + 1..])
  {
    assert xs == [xs[0]] + xs[1..];
    assert ys == ys[..k] + [ys[k]] + ys[k + 1..];
    calc {
      multiset(xs[1..]);
      multiset(xs) - multiset{xs[0]};
      multiset(ys) - multiset{ys[k]};
      multiset(ys[..k]) + multiset(ys[k + 1..]);
      multiset(ys[..k] + ys[k + 1..]);
    }
  }

  /** Moving one item to the front of a collection changes the collected
      results only by order. */
  lemma FlatMapMoveToFront<A, B>(f: A -> seq<B>, before: seq<A>, x: A, after: seq<A>)
    ensures multiset(FlatMap(f, before + [x] + after))
         == multiset(f(x)) + multiset(FlatMap(f, before + after))
  {
    FlatMapAppend(f, before + [x], after);
    FlatMapAppend(f, before, [x]);
    FlatMapAppend(f, before, after);
    assert FlatMap(f, [x]) == f(x) + FlatMap(f, []);
  }

  /** Collecting per-item results in any completion order yields the same
      multiset as collecting them in submission order. */
  lemma {:induction false} FlatMapPermutation<A, B>(f: A -> seq<B>, xs: seq<A>, ys: seq<A>)
    requires multiset(xs) == multiset(ys)
    ensures multiset(FlatMap(f, xs)) == multiset(FlatMap(f, ys))
    decreases |xs|
  {
    if |xs| == 0 {
      assert |ys| == |multiset(ys)| == 0;
    } else {
      var x := xs[0];
      assert x in multiset(ys);
      var k :| 0 <= k < |ys| && ys[k] == x;
      MultisetRemove(xs, ys, k);
      FlatMapPermutation(f, xs[1..], ys[..k] + ys[k + 1..]);
      assert ys == ys[..k] + [x] + ys[k + 1..];
      FlatMapMoveToFront(f, ys[..k], x, ys[k + 1..]);
    }
  }

  /** Element-wise application: `[f(x) for x in xs]`. */
  function Map<A, B>(f: A -> B, xs: seq<A>): (r: seq<B>)
    ensures |r| == |xs|
    ensures forall k :: 0 <= k < |xs| ==> r[k] == f(xs[k])
  {
    seq(|xs|, k requires 0 <= k < |xs| => f(xs[k]))
  }

  function Singleton<A, B>(f: A -> B): A -> seq<B> {
    x => [f(x)]
  }

  /** Collecting one result per item is the element-wise map. */
  lemma {:induction false} FlatMapSingleton<A, B>(f: A -> B, xs: seq<A>)
    ensures FlatMap(Singleton(f), xs) == Map(f, xs)
    decreases |xs|
  {
    if |xs| > 0 {
      FlatMapSingleton(f, xs[1..]);
      assert Map(f, xs) == [f(xs[0])] + Map(f, xs[1..]);
    }
  }

  /** Mapping in any completion order yields the same multiset as mapping
      in submission order. */
  lemma MapPermutation<A, B>(f: A -> B, xs: seq<A>, ys: seq<A>)
    requires multiset(xs) == multiset(ys)
    ensures multiset(Map(f, xs)) == multiset(Map(f, ys))
  {
    FlatMapSingleton(f, xs);
    FlatMapSingleton(f, ys);
    FlatMapPermutation(Singleton(f), xs, ys);
  }

  /** Map-then-flatten is flattening the list of per-item results. */
  lemma {:induction false} FlatMapFlatten<A, B>(f: A -> seq<B>, xs: seq<A>)
    ensures FlatMap(f, xs) == Flatten(Map(f, xs))
    decreases |xs|
  {
    if |xs| > 0 {
      FlatMapFlatten(f, xs[1..]);
      assert Map(f, xs)[1..] == Map(f, xs[1..]);
    }
  }
}

=== FILE: session_state.dfy ===
/** `initialize_session_state` in `utils/session_state.py`: default values
    for the upload and chat pages' per-user state, written into Streamlit's
    session map only where a key is missing.

    The function's first test looks up `session-state` but writes
    `session-id`. No code writes `session-state`, so the test always passes
    and every call draws a new session id. `InitializeAsWritten` models the
    code as it stands; `Initialize` is the version that tests the key it
    writes. The fresh id (`str(uuid1())`) is a parameter. */
module SessionState {
  /** The values the function reads or writes: `None`, a string, a list of
      file names, or any other object the pages store (documents, a vector
      store), named by an identifier. */
  datatype Value = Null | Str(s: string) | Names(names: seq<string>) | Held(id: nat)

  type State = map<string, Value>

  const SessionIdKey: string := "session-id"
  const GuardKey: string := "session-state"
  const DocsKey: string := "docs"
  const ProcessedKey: string := "processed"
  const DbKey: string := "db"

  /** The five keys are different strings (their lengths differ). */
  lemma KeysDistinct()
    ensures |SessionIdKey| == 10 && |GuardKey| == 13 && |DocsKey| == 4 && |ProcessedKey| == 9 && |DbKey| == 2
  {
  }

  /** `if k not in m: m[k] = v`. */
  function SetDefault(m: State, k: string, v: Value): (r: State)
    ensures r.Keys == m.Keys + {k}
    ensures r[k] == if k in m then m[k] else v
    ensures forall j :: j in m && j != k ==> r[j] == m[j]
  {
    if k in m then m else m[k := v]
  }

  /** The three data defaults every version shares. */
  function DataDefaults(m: State): (r: State)
    ensures r.Keys == m.Keys + {DocsKey, ProcessedKey, DbKey}
    ensures r[DocsKey] == if DocsKey in m then m[DocsKey] else Null
    ensures r[ProcessedKey] == if ProcessedKey in m then m[ProcessedKey] else Names([])
    ensures r[DbKey] == if DbKey in m then m[DbKey] else Null
    ensures forall j :: j in m ==> r[j] == m[j]
  {
    KeysDistinct();
    SetDefault(SetDefault(SetDefault(m, DocsKey, Null), ProcessedKey, Names([])), DbKey, Null)
  }

  /** The function as written: the session id is replaced unless the
      unrelated key `session-state` is present. */
  function InitializeAsWritten(m: State, freshId: string): (r: State)
    ensures r.Keys == m.Keys + {DocsKey, ProcessedKey, DbKey} + (if GuardKey in m then {} else {SessionIdKey})
    ensures GuardKey !in m ==> r[SessionIdKey] == Str(freshId)
    ensures GuardKey in m && SessionIdKey in m ==> r[SessionIdKey] == m[SessionIdKey]
    ensures r[DocsKey] == if DocsKey in m then m[DocsKey] else Null
    ensures r[ProcessedKey] == if ProcessedKey in m then m[ProcessedKey] else Names([])
    ensures r[DbKey] == if DbKey in m then m[DbKey] else Null
    ensures forall j :: j in m && j != SessionIdKey ==> j in r && r[j] == m[j]
    ensures GuardKey in r <==> GuardKey in m
  {
    KeysDistinct();
    var withId := if GuardKey !in m then m[SessionIdKey := Str(freshId)] else m;
    assert forall j :: j in m && j != SessionIdKey ==> j in withId && withId[j] == m[j];
    var r := DataDefaults(withId);
    assert GuardKey in r <==> GuardKey in withId;
    r
  }

  /** Were the guard key ever present, the code as written would be the
      intended function on every state that has its id. */
  lemma AsWrittenGuardedIsIntended(m: State, freshId: string)
    requires GuardKey in m && SessionIdKey in m
    ensures InitializeAsWritten(m, freshId) == Initialize(m, freshId)
  {
    var a := InitializeAsWritten(m, freshId);
    var b := Initialize(m, freshId);
    assert a.Keys == b.Keys;
    assert forall j :: j in a ==> a[j] == b[j];
  }

  /** Nothing writes the guard key, so the guard never stops the rewrite:
      two calls on a fresh session leave two different ids whenever the
      generator returns two different ids. */
  lemma AsWrittenRegeneratesId(m: State, first: string, second: string)
    requires GuardKey !in m
    requires first != second
    ensures var once := InitializeAsWritten(m, first);
            var twice := InitializeAsWritten(once, second);
            once[SessionIdKey] == Str(first) && twice[SessionIdKey] == Str(second)
            && twice != once
  {
  }

  /** The data keys, though, are filled once: a second call keeps them. */
  lemma AsWrittenKeepsData(m: State, first: string, second: string)
    ensures var once := InitializeAsWritten(m, first);
            var twice := InitializeAsWritten(once, second);
            twice[DocsKey] == once[DocsKey] && twice[ProcessedKey] == once[ProcessedKey] && twice[DbKey] == once[DbKey]
  {
  }

  /** The intended function: the id, too, is set only when missing. */
  function Initialize(m: State, freshId: string): (r: State)
    ensures r.Keys == m.Keys + {SessionIdKey, DocsKey, ProcessedKey, DbKey}
    ensures r[SessionIdKey] == if SessionIdKey in m then m[SessionIdKey] else Str(freshId)
    ensures r[DocsKey] == if DocsKey in m then m[DocsKey] else Null
    ensures r[ProcessedKey] == if ProcessedKey in m then m[ProcessedKey] else Names([])
    ensures r[DbKey] == if DbKey in m then m[DbKey] else Null
    ensures forall j :: j in m ==> r[j] == m[j]
  {
    KeysDistinct();
    var withId := SetDefault(m, SessionIdKey, Str(freshId));
    DataDefaults(withId)
  }

  /** Calling it again changes nothing, whatever id the generator returns. */
  lemma InitializeIdempotent(m: State, first: string, second: string)
    ensures Initialize(Initialize(m, first), second) == Initialize(m, first)
  {
  }

  /** On a state that already has its id the two versions differ only in
      the id: the intended one keeps it. */
  lemma InitializeKeepsId(m: State, freshId: string)
    requires SessionIdKey in m
    ensures Initialize(m, freshId)[SessionIdKey] == m[SessionIdKey]
    ensures forall j :: j in m && j != SessionIdKey ==>
              Initialize(m, freshId)[j] == InitializeAsWritten(m, freshId)[j]
  {
  }
}

=== FILE: text.dfy ===
/** String operations of Python's `str` that the modelled code relies on:
    ASCII case mapping, `isspace`, `startswith`/`endswith`/`in`, `strip`,
    `split()` without a separator, `' '.join`, `replace(p, '')`,
    `split(c)[-1]` and `str(n)` for natural numbers. */
module Text {

  /** Python's `str.isspace` for a single character (the complete list of
      characters with Unicode bidirectional class WS, B or S, or category Zs). */
  predicate IsSpace(c: char) {
    || c == ' ' || c == '\t' || c == '\n' || c == '\r'
    || c == '\U{000B}' || c == '\U{000C}'
    || ('\U{001C}' <= c <= '\U{001F}')
    || c == '\U{0085}' || c == '\U{00A0}' || c == '\U{1680}'
    || ('\U{2000}' <= c <= '\U{200A}')
    || c == '\U{2028}' || c == '\U{2029}' || c == '\U{202F}'
    || c == '\U{205F}' || c == '\U{3000}'
  }

  predicate IsAsciiUpper(c: char) { 'A' <= c <= 'Z' }
  predicate IsAsciiLower(c: char) { 'a' <= c <= 'z' }
  predicate IsAsciiDigit(c: char) { '0' <= c <= '9' }
  predicate IsAsciiLetter(c: char) { IsAsciiUpper(c) || IsAsciiLower(c) }

  function LowerChar(c: char): (r: char)
    ensures IsAsciiUpper(c) ==> IsAsciiLower(r)
    ensures !IsAsciiUpper(c) ==> r == c
  {
    if IsAsciiUpper(c) then (c as int + 32) as char else c
  }

  function UpperChar(c: char): (r: char)
    ensures IsAsciiLower(c) ==> IsAsciiUpper(r)
    ensures !IsAsciiLower(c) ==> r == c
  {
    if IsAsciiLower(c) then (c as int - 32) as char else c
  }

  /** `s.lower()` restricted to the ASCII letters. */
  function Lower(s: string): (r: string)
    ensures |r| == |s|
    ensures forall i :: 0 <= i < |s| ==> r[i] == LowerChar(s[i])
  {
    seq(|s|, i requires 0 <= i < |s| => LowerChar(s[i]))
  }

  /** `s.upper()` restricted to the ASCII letters. */
  function Upper(s: string): (r: string)
    ensures |r| == |s|
    ensures forall i :: 0 <= i < |s| ==> r[i] == UpperChar(s[i])
  {
    seq(|s|, i requires 0 <= i < |s| => UpperChar(s[i]))
  }

  /** Upper-casing undoes lower-casing on upper-cased text. */
  lemma UpperOfLowerOfUpper(s: string)
    ensures Upper(Lower(Upper(s))) == Upper(s)
  {
    assert forall i :: 0 <= i < |s| ==> UpperChar(LowerChar(UpperChar(s[i]))) == UpperChar(s[i]);
  }

  predicate StartsWith(s: string, p: string) {
    |p| <= |s| && s[..|p|] == p
  }

  predicate EndsWith(s: string, p: string) {
    |p| <= |s| && s[|s| - |p|..] == p
  }

  /** Python's substring test `p in s`. */
  predicate Contains(s: string, p: string)
    decreases |s|
  {
    StartsWith(s, p) || (|s| > 0 && Contains(s[1..], p))
  }

  /** A substring found at an explicit position is found by `Contains`. */
  lemma {:induction false} ContainsAt(s: string, p: string, i: nat)
    requires i + |p| <= |s| && s[i..i + |p|] == p
    ensures Contains(s, p)
    decreases i
  {
    if i == 0 {
      assert s[..|p|] == s[0..0 + |p|];
    } else {
      assert s[1..][i - 1..i - 1 + |p|] == s[i..i + |p|];
      ContainsAt(s[1..], p, i - 1);
    }
  }

  /** Every string contains itself. */
  lemma ContainsItself(s: string)
    ensures Contains(s, s)
  {
    assert s[..|s|] == s;
  }

  /** Text found in `t` is found in anything assembled around `t`. */
  lemma ContainsWithin(a: string, t: string, b: string, p: string)
    requires Contains(t, p)
    ensures Contains(a + t + b, p)
  {
    ContainsAppend(t, b, p);
    ContainsPrepend(a, t + b, p);
    assert a + (t + b) == a + t + b;
  }

  /** Text found in `t` is still found after something is put in front. */
  lemma {:induction false} ContainsPrepend(a: string, t: string, p: string)
    requires Contains(t, p)
    ensures Contains(a + t, p)
    decreases |a|
  {
    if |a| > 0 {
      assert (a + t)[1..] == a[1..] + t;
      ContainsPrepend(a[1..], t, p);
    } else {
      assert a + t == t;
    }
  }

  /** Text found in `t` is still found after something is appended. */
  lemma {:induction false} ContainsAppend(t: string, b: string, p: string)
    requires Contains(t, p)
    ensures Contains(t + b, p)
    decreases |t|
  {
    if StartsWith(t, p) {
      assert (t + b)[..|p|] == t[..|p|];
    } else {
      assert (t + b)[1..] == t[1..] + b;
      ContainsAppend(t[1..], b, p);
    }
  }

  // ---------------------------------------------------------------- strip

  /** Number of whitespace characters `s` starts with. */
  function LeadingSpaces(s: string): (n: nat)
    ensures n <= |s|
    ensures n == |s| || !IsSpace(s[n])
    decreases |s|
  {
    if |s| > 0 && IsSpace(s[0]) then 1 + LeadingSpaces(s[1..]) else 0
  }

  lemma {:induction false} LeadingSpacesAreSpaces(s: string)
    ensures forall i :: 0 <= i < LeadingSpaces(s) ==> IsSpace(s[i])
    decreases |s|
  {
    if |s| > 0 && IsSpace(s[0]) {
      LeadingSpacesAreSpaces(s[1..]);
      assert forall i :: 1 <= i < LeadingSpaces(s) ==> s[i] == s[1..][i - 1];
    }
  }

  /** Number of whitespace characters `s` ends with. */
  function TrailingSpaces(s: string): (n: nat)
    ensures n <= |s|
    ensures n == |s| || !IsSpace(s[|s| - n - 1])
    decreases |s|
  {
    if |s| > 0 && IsSpace(s[|s| - 1]) then 1 + TrailingSpaces(s[..|s| - 1]) else 0
  }

  lemma {:induction false} TrailingSpacesAreSpaces(s: string)
    ensures forall i :: |s| - TrailingSpaces(s) <= i < |s| ==> IsSpace(s[i])
    decreases |s|
  {
    if |s| > 0 && IsSpace(s[|s| - 1]) {
      TrailingSpacesAreSpaces(s[..|s| - 1]);
    }
  }

  /** `s.strip()`: the slice of `s` left after cutting the leading and the
      trailing whitespace; it neither starts nor ends with whitespace and
      everything cut away is whitespace. */
  function Strip(s: string): (r: string)
    ensures var a := LeadingSpaces(s); a + |r| <= |s| && r == s[a..a + |r|]
    ensures r == [] || (!IsSpace(r[0]) && !IsSpace(r[|r| - 1]))
    ensures forall i :: 0 <= i < LeadingSpaces(s) ==> IsSpace(s[i])
    ensures forall i :: LeadingSpaces(s) + |r| <= i < |s| ==> IsSpace(s[i])
  {
    var a := LeadingSpaces(s);
    var l := s[a..];
    var b := TrailingSpaces(l);
    LeadingSpacesAreSpaces(s);
    TrailingSpacesAreSpaces(l);
    assert forall i :: a + |l| - b <= i < |s| ==> s[i] == l[i - a];
    l[..|l| - b]
  }

  /** Text with no whitespace at either end is its own strip. */
  lemma StripOfStripped(s: string)
    requires s == [] || (!IsSpace(s[0]) && !IsSpace(s[|s| - 1]))
    ensures Strip(s) == s
  {
    assert LeadingSpaces(s) == 0;
    assert s[0..] == s;
    assert TrailingSpaces(s) == 0;
  }

  /** `strip` is idempotent. */
  lemma StripIdempotent(s: string)
    ensures Strip(Strip(s)) == Strip(s)
  {
    StripOfStripped(Strip(s));
  }

  // ---------------------------------------------------------------- split / join

  /** Length of the leading run of non-whitespace characters. */
  function WordLen(s: string): (n: nat)
    ensures n <= |s|
    ensures n == |s| || IsSpace(s[n])
    ensures |s| > 0 && !IsSpace(s[0]) ==> n > 0
    decreases |s|
  {
    if |s| == 0 || IsSpace(s[0]) then 0 else 1 + WordLen(s[1..])
  }

  lemma {:induction false} WordLenRun(s: string)
    ensures forall i :: 0 <= i < WordLen(s) ==> !IsSpace(s[i])
    decreases |s|
  {
    if |s| > 0 && !IsSpace(s[0]) {
      WordLenRun(s[1..]);
      assert forall i :: 1 <= i < WordLen(s) ==> s[i] == s[1..][i - 1];
    }
  }

  /** A word as produced by `str.split()`: non-empty, no whitespace. */
  predicate IsWord(w: string) {
    |w| > 0 && forall i :: 0 <= i < |w| ==> !IsSpace(w[i])
  }

  /** `s.split()` with no separator: the maximal runs of non-whitespace, in
      order. */
  function Words(s: string): seq<string>
    decreases |s|
  {
    if |s| == 0 then []
    else if IsSpace(s[0]) then Words(s[1..])
    else
      var n := WordLen(s);
      [s[..n]] + Words(s[n..])
  }

  /** Every item `split()` returns is a word. */
  lemma {:induction false} WordsAreWords(s: string)
    ensures forall i :: 0 <= i < |Words(s)| ==> IsWord(Words(s)[i])
    decreases |s|
  {
    if |s| > 0 {
      if IsSpace(s[0]) {
        WordsAreWords(s[1..]);
      } else {
        var n := WordLen(s);
        WordLenRun(s);
        assert IsWord(s[..n]);
        WordsAreWords(s[n..]);
      }
    }
  }

  /** `sep.join(ws)`. */
  function Join(ws: seq<string>, sep: string): string
    decreases |ws|
  {
    if |ws| == 0 then ""
    else if |ws| == 1 then ws[0]
    else ws[0] + sep + Join(ws[1..], sep)
  }

  lemma WordsOfWordThenRest(w: string, rest: string)
    requires IsWord(w)
    requires rest == [] || IsSpace(rest[0])
    ensures Words(w + rest) == [w] + Words(rest)
  {
    var s := w + rest;
    assert s[0] == w[0];
    WordLenOfWord(w, rest);
    assert s[..|w|] == w;
    assert s[|w|..] == rest;
  }

  lemma {:induction false} WordLenOfWord(w: string, rest: string)
    requires forall i :: 0 <= i < |w| ==> !IsSpace(w[i])
    requires rest == [] || IsSpace(rest[0])
    ensures WordLen(w + rest) == |w|
    decreases |w|
  {
    if |w| > 0 {
      assert (w + rest)[1..] == w[1..] + rest;
      WordLenOfWord(w[1..], rest);
    }
  }

  lemma WordsOfSpaceThenRest(rest: string)
    ensures Words(" " + rest) == Words(rest)
  {
    var s := " " + rest;
    assert s[0] == ' ' && IsSpace(s[0]);
    assert s[1..] == rest;
  }

  lemma WordsOfWordSpaceTail(w: string, tail: string)
    requires IsWord(w)
    ensures Words(w + (" " + tail)) == [w] + Words(tail)
  {
    WordsOfWordThenRest(w, " " + tail);
    WordsOfSpaceThenRest(tail);
  }

  lemma WordsOfSingleWord(w: string)
    requires IsWord(w)
    ensures Words(w) == [w]
  {
    WordsOfWordThenRest(w, "");
    assert w + "" == w;
    assert Words("") == [];
  }

  /** Round trip: splitting words joined by single spaces gives the words back. */
  lemma {:induction false} WordsJoinRoundTrip(ws: seq<string>)
    requires forall i :: 0 <= i < |ws| ==> IsWord(ws[i])
    ensures Words(Join(ws, " ")) == ws
    decreases |ws|
  {
    if |ws| == 0 {
    } else if |ws| == 1 {
      WordsOfSingleWord(ws[0]);
    } else {
      var tail := Join(ws[1..], " ");
      assert Join(ws, " ") == ws[0] + (" " + tail);
      WordsOfWordSpaceTail(ws[0], tail);
      WordsJoinRoundTrip(ws[1..]);
      assert [ws[0]] + ws[1..] == ws;
    }
  }

  // ---------------------------------------------------------------- replace

  /** `s.replace(p, '')` for a non-empty `p`: every leftmost, non-overlapping
      occurrence of `p`, scanning left to right, is deleted (one pass only). */
  function RemoveAll(s: string, p: string): (r: string)
    requires |p| > 0
    ensures |r| <= |s|
    decreases |s|
  {
    if |s| < |p| then s
    else if s[..|p|] == p then RemoveAll(s[|p|..], p)
    else [s[0]] + RemoveAll(s[1..], p)
  }

  /** Removing a pattern that does not occur changes nothing. */
  lemma {:induction false} RemoveAllAbsent(s: string, p: string)
    requires |p| > 0
    requires !Contains(s, p)
    ensures RemoveAll(s, p) == s
    decreases |s|
  {
    if |s| >= |p| {
      assert !StartsWith(s, p);
      RemoveAllAbsent(s[1..], p);
      assert [s[0]] + s[1..] == s;
    }
  }

  /** Removing the pattern from `p + s` removes the leading copy first. */
  lemma RemoveAllLeading(p: string, s: string)
    requires |p| > 0
    ensures RemoveAll(p + s, p) == RemoveAll(s, p)
  {
    assert (p + s)[..|p|] == p;
    assert (p + s)[|p|..] == s;
  }

  // ---------------------------------------------------------------- split(c)[-1]

  /** `s.split(c)[-1]`: the text after the last `c`, or all of `s` when `c`
      does not occur. */
  function LastSegment(s: string, c: char): (r: string)
    ensures |r| <= |s| && r == s[|s| - |r|..]
    ensures c !in r
    ensures |r| == |s| || s[|s| - |r| - 1] == c
    decreases |s|
  {
    if |s| == 0 then ""
    else if s[|s| - 1] == c then ""
    else LastSegment(s[..|s| - 1], c) + [s[|s| - 1]]
  }

  /** The last segment is determined by any split at a `c` followed by
      `c`-free text. */
  lemma {:induction false} LastSegmentOfSuffix(pre: string, c: char, seg: string)
    requires c !in seg
    ensures LastSegment(pre + [c] + seg, c) == seg
    decreases |seg|
  {
    var s := pre + [c] + seg;
    if |seg| == 0 {
      assert s[|s| - 1] == c;
    } else {
      assert s[|s| - 1] == seg[|seg| - 1];
      assert s[..|s| - 1] == pre + [c] + seg[..|seg| - 1];
      LastSegmentOfSuffix(pre, c, seg[..|seg| - 1]);
      assert seg[..|seg| - 1] + [seg[|seg| - 1]] == seg;
    }
  }

  /** Without any `c`, the last segment is the whole string. */
  lemma {:induction false} LastSegmentNoSep(s: string, c: char)
    requires c !in s
    ensures LastSegment(s, c) == s
    decreases |s|
  {
    if |s| > 0 {
      var init := s[..|s| - 1];
      assert s[|s| - 1] in s;
      assert forall i :: 0 <= i < |init| ==> init[i] == s[i];
      LastSegmentNoSep(init, c);
      assert init + [s[|s| - 1]] == s;
    }
  }

  // ---------------------------------------------------------------- str(n)

  function DigitChar(d: nat): char
    requires d < 10
  {
    "0123456789"[d]
  }

  /** `str(n)` for a natural number: its decimal digits, no leading zero. */
  function NatToString(n: nat): (r: string)
    ensures |r| > 0
    ensures forall i :: 0 <= i < |r| ==> IsAsciiDigit(r[i])
    ensures n >= 10 ==> r[0] != '0'
    decreases n
  {
    if n < 10 then [DigitChar(n)] else NatToString(n / 10) + [DigitChar(n % 10)]
  }

  function DigitValue(c: char): nat
    requires IsAsciiDigit(c)
  {
    c as int - '0' as int
  }

  /** Reading the digits back gives the number. */
  function ParseDigits(s: string): nat
    requires forall i :: 0 <= i < |s| ==> IsAsciiDigit(s[i])
    decreases |s|
  {
    if |s| == 0 then 0 else 10 * ParseDigits(s[..|s| - 1]) + DigitValue(s[|s| - 1])
  }

  lemma {:induction false} NatToStringRoundTrip(n: nat)
    ensures ParseDigits(NatToString(n)) == n
    decreases n
  {
    var r := NatToString(n);
    if n < 10 {
      assert r[..0] == [];
    } else {
      NatToStringRoundTrip(n / 10);
      assert r[..|r| - 1] == NatToString(n / 10);
    }
  }
}

=== FILE: upload.dfy ===
/** The upload page's file-type check in `app/pages/app.py`: the allowed
    extensions, `get_file_extension`, `validate_file_type`, and the split of
    an upload batch into accepted and rejected files. */
module Upload {
  import opened Wrappers
  import opened Text
  import opened Seqs
  import Embeddings
  import Rag

  /** `ALLOWED_EXTENSIONS`. */
  const AllowedExtensions: set<string> :=
    {".pdf", ".docx", ".png", ".jpg", ".jpeg", ".csv", ".json", ".py", ".ipynb"}

  /** Lower-casing maps a dot, and only a dot, to a dot. */
  lemma LowerCharDot(c: char)
    ensures LowerChar(c) == '.' <==> c == '.'
  {
  }

  /** Lower-casing moves no dot. */
  lemma LowerKeepsDots(s: string)
    ensures forall i :: 0 <= i < |s| ==> (Lower(s)[i] == '.' <==> s[i] == '.')
  {
    forall i | 0 <= i < |s|
      ensures Lower(s)[i] == '.' <==> s[i] == '.'
    {
      LowerCharDot(s[i]);
    }
  }

  /** `s.lower()` distributes over concatenation. */
  lemma LowerAppend(a: string, b: string)
    ensures Lower(a + b) == Lower(a) + Lower(b)
  {
    assert forall i :: 0 <= i < |a + b| ==> Lower(a + b)[i] == (Lower(a) + Lower(b))[i];
  }

  lemma LowerIdempotent(s: string)
    ensures Lower(Lower(s)) == Lower(s)
  {
  }

  /** `get_file_extension`: a dot and then the lower-cased text after the
      name's last dot, which is the whole lower-cased name when there is no
      dot. */
  function GetFileExtension(filename: string): (ext: string)
    ensures |ext| >= 1 && ext[0] == '.' && |ext| <= |filename| + 1
    ensures '.' !in ext[1..]
    ensures ext[1..] == Lower(filename)[|filename| - (|ext| - 1)..]
    ensures |ext| - 1 == |filename| || filename[|filename| - |ext|] == '.'
  {
    var seg := LastSegment(Lower(filename), '.');
    LowerKeepsDots(filename);
    "." + seg
  }

  /** A name `stem.ext` whose `ext` has no dot has the extension `.ext`,
      lower-cased. */
  lemma ExtensionOfDottedName(stem: string, ext: string)
    requires '.' !in ext
    ensures GetFileExtension(stem + "." + ext) == "." + Lower(ext)
  {
    LowerAppend(stem + ".", ext);
    LowerAppend(stem, ".");
    assert Lower(".") == ".";
    LowerKeepsDots(ext);
    LastSegmentOfSuffix(Lower(stem), '.', Lower(ext));
  }

  /** A name without a dot is its own extension, lower-cased, after a dot. */
  lemma ExtensionOfDotlessName(name: string)
    requires '.' !in name
    ensures GetFileExtension(name) == "." + Lower(name)
  {
    LowerKeepsDots(name);
    LastSegmentNoSep(Lower(name), '.');
  }

  /** `validate_file_type`: no file is rejected; otherwise the text after
      the last dot of the lower-cased name must, behind a dot, be an allowed
      extension. The page writes the test out instead of calling
      `get_file_extension`, and the two agree. */
  function ValidateFileType(upload: Option<Rag.Upload>): (ok: bool)
    ensures upload.None? ==> !ok
    ensures upload.Some? ==> (ok <==> GetFileExtension(upload.value.name) in AllowedExtensions)
  {
    match upload
    case None => false
    case Some(f) => "." + LastSegment(Lower(f.name), '.') in AllowedExtensions
  }

  predicate Accepted(f: Rag.Upload) {
    ValidateFileType(Some(f))
  }

  predicate Rejected(f: Rag.Upload) {
    !ValidateFileType(Some(f))
  }

  /** The check ignores ASCII case. */
  lemma ValidationIgnoresCase(name: string, content: string)
    ensures Accepted(Rag.Upload(name, content)) == Accepted(Rag.Upload(Lower(name), content))
  {
    LowerIdempotent(name);
  }

  /** An accepted name ends, ignoring case, in an allowed extension, or is
      one without its dot. */
  lemma AcceptedNamesEndInExtension(name: string, content: string)
    requires Accepted(Rag.Upload(name, content))
    ensures exists e :: e in AllowedExtensions &&
              (EndsWith(Lower(name), e) || Lower(name) == e[1..])
  {
    var ext := GetFileExtension(name);
    var lower := Lower(name);
    if |ext| - 1 == |name| {
      assert lower == ext[1..];
    } else {
      assert lower[|lower| - |ext|..] == ext;
      assert EndsWith(lower, ext);
    }
    assert ext in AllowedExtensions && (EndsWith(lower, ext) || lower == ext[1..]);
  }

  /** The upload loop: every file goes to exactly one list, each list in
      upload order. */
  method PartitionUploads(files: seq<Rag.Upload>) returns (valid: seq<Rag.Upload>, invalid: seq<Rag.Upload>)
    ensures valid == Filter(Accepted, files)
    ensures invalid == Filter(Rejected, files)
    ensures multiset(valid) + multiset(invalid) == multiset(files)
  {
    valid, invalid := Partition(Accepted, Rejected, files);
  }

  lemma LowerOfPdf()
    ensures Lower("PDF") == "pdf" && Lower("pdf") == "pdf"
  {
    assert LowerChar('P') == 'p' && LowerChar('D') == 'd' && LowerChar('F') == 'f';
  }

  /** Every loader's suffix starts with a dot. */
  lemma HandledNamesHaveDot(l: Rag.Loader, name: string)
    requires Rag.Handles(l, name)
    ensures '.' in name
  {
    var k := match l
      case PdfLoader => 4
      case DocxLoader => 5
      case JsonLoader => 5
      case CsvLoader => 4
      case PythonLoader => 3
      case NotebookLoader => 6
      case ImageDescriber =>
        if EndsWith(name, ".jpeg") then 5 else 4;
    assert |name| >= k && name[|name| - k] == '.';
  }

  /** Every loader suffix ends in a lower-case letter, so a name ending in
      an upper-case one has no loader. */
  lemma UpperCaseEndingNotLoaded(name: string)
    requires |name| > 0 && IsAsciiUpper(name[|name| - 1])
    ensures Rag.Dispatch(name).None?
  {
    if Rag.Dispatch(name).Some? {
      Rag.HandlesFinalLetter(Rag.Dispatch(name).value, name);
    }
  }

  /** No loader suffix matches a name without a dot. */
  lemma DotlessNotLoaded(name: string)
    requires '.' !in name
    ensures Rag.Dispatch(name).None?
  {
    if Rag.Dispatch(name).Some? {
      HandledNamesHaveDot(Rag.Dispatch(name).value, name);
    }
  }

  /** An upper-case `.PDF` name is accepted. */
  lemma UpperCasePdfAccepted(stem: string, content: string)
    ensures Accepted(Rag.Upload(stem + ".PDF", content))
  {
    ExtensionOfDottedName(stem, "PDF");
    assert stem + "." + "PDF" == stem + ".PDF";
    LowerOfPdf();
    assert "." + "pdf" == ".pdf";
    assert GetFileExtension(stem + ".PDF") == ".pdf";
  }

  /** A name without a dot that spells an extension is accepted. */
  lemma DotlessAccepted(name: string, content: string)
    requires '.' !in name && "." + Lower(name) in AllowedExtensions
    ensures Accepted(Rag.Upload(name, content))
  {
    ExtensionOfDotlessName(name);
  }

  /** So an upload named like `A.PDF` passes the page's check, and once
      staged yields no documents. */
  lemma UpperCasePdfNotLoaded(stem: string, content: string, sessionId: string,
                              load: (Rag.Loader, string) -> Option<seq<Embeddings.Document>>,
                              describe: string -> Option<string>)
    ensures Accepted(Rag.Upload(stem + ".PDF", content))
    ensures Rag.ProcessInputFile(Rag.TempPath(sessionId, stem + ".PDF"), load, describe) == []
  {
    UpperCasePdfAccepted(stem, content);
    var name := stem + ".PDF";
    assert name[|name| - 1] == 'F';
    UpperCaseEndingNotLoaded(name);
    Rag.DispatchOfTempPath(sessionId, name);
  }

  /** And so does an upload named like `pdf`. */
  lemma DotlessNameNotLoaded(name: string, content: string, sessionId: string,
                             load: (Rag.Loader, string) -> Option<seq<Embeddings.Document>>,
                             describe: string -> Option<string>)
    requires '.' !in name && "." + Lower(name) in AllowedExtensions
    ensures Accepted(Rag.Upload(name, content))
    ensures Rag.ProcessInputFile(Rag.TempPath(sessionId, name), load, describe) == []
  {
    DotlessAccepted(name, content);
    DotlessNotLoaded(name);
    Rag.DispatchOfTempPath(sessionId, name);
  }
}

=== FILE: wizards.dfy ===
/** The registration and password-reset wizards of `app/main.py`: two
    three-step machines kept in Streamlit's session state as
    `registration_step` (`email` -> `otp` -> `complete`) and
    `password_reset_step` (`email` -> `verify_otp` -> `new_password`).

    One page run handles one form event. A transition names the account
    operation the run calls, if any, and takes that call's success flag as a
    parameter; the pages' messages and rendering are not modelled. */
module Wizards {
  import opened Wrappers

  /** The account operations a run can call, with the arguments it passes.
      Values read back from session state are options: `None` is what the
      pages pass when the key holds `None`. */
  datatype AuthCall =
    | SendCode(email: Option<string>)
    | CheckCode(pendingEmail: Option<string>, code: string)
    | Register(pendingEmail: Option<string>, pendingPassword: Option<string>)
    | SendResetCode(resetEmail: Option<string>)
    | CheckResetCode(resetEmail: Option<string>, code: string)
    | SetPassword(resetEmail: Option<string>, password: string)

  /** The codes the pages send are six characters long. */
  const CodeLength: nat := 6

  // ------------------------------------------------------------------ registration

  datatype RegStep = EnterEmail | EnterOtp | Complete

  datatype Registration = Registration(step: RegStep, pendingEmail: Option<string>, pendingPassword: Option<string>)

  /** What `init_auth_session` sets up. */
  const RegistrationStart: Registration := Registration(EnterEmail, None, None)

  /** The form events of the registration tab. `Render` is a run with no
      input, which in the last step registers the account. */
  datatype RegEvent =
    | SubmitEmail(email: string, password: string, confirm: string)
    | SubmitOtp(code: string)
    | ResendOtp
    | BackToEmail
    | Render

  /** One run of the registration tab, given the success flag `ok` of the
      account call it makes. An event of a step not on screen does nothing. */
  function RegistrationRun(s: Registration, ev: RegEvent, ok: bool): (r: (Registration, Option<AuthCall>))
    ensures s.step == EnterEmail && ev.SubmitEmail? ==>
              var filled := ev.email != "" && ev.password != "" && ev.confirm != "";
              && (r.1.Some? <==> filled && ev.password == ev.confirm)
              && (r.1.Some? ==> r.1.value == SendCode(Some(ev.email)))
              && (r.0.step == EnterOtp <==> r.1.Some? && ok)
              && (r.0.step == EnterOtp ==> r.0 == Registration(EnterOtp, Some(ev.email), Some(ev.password)))
              && (r.0.step != EnterOtp ==> r.0 == s)
    ensures s.step == EnterOtp && ev.SubmitOtp? ==>
              && (r.1.Some? <==> |ev.code| == CodeLength)
              && (r.1.Some? ==> r.1.value == CheckCode(s.pendingEmail, ev.code))
              && r.0 == (if r.1.Some? && ok then s.(step := Complete) else s)
    ensures s.step == EnterOtp && ev.ResendOtp? ==>
              r == (s, Some(SendCode(s.pendingEmail)))
    ensures s.step == EnterOtp && ev.BackToEmail? ==> r == (RegistrationStart, None)
    ensures s.step == Complete && ev.Render? ==>
              && r.1 == Some(Register(s.pendingEmail, s.pendingPassword))
              && r.0 == (if ok then RegistrationStart else s.(step := EnterEmail))
    ensures (!((s.step == EnterEmail && ev.SubmitEmail?)
               || (s.step == EnterOtp && (ev.SubmitOtp? || ev.ResendOtp? || ev.BackToEmail?))
               || (s.step == Complete && ev.Render?)))
            ==> r == (s, None)
  {
    match (s.step, ev)
    case (EnterEmail, SubmitEmail(email, password, confirm)) =>
      if email == "" || password == "" || confirm == "" then (s, None)
      else if password != confirm then (s, None)
      else if ok then (Registration(EnterOtp, Some(email), Some(password)), Some(SendCode(Some(email))))
      else (s, Some(SendCode(Some(email))))
    case (EnterOtp, SubmitOtp(code)) =>
      if code == "" || |code| != CodeLength then (s, None)
      else (if ok then s.(step := Complete) else s, Some(CheckCode(s.pendingEmail, code)))
    case (EnterOtp, ResendOtp) => (s, Some(SendCode(s.pendingEmail)))
    case (EnterOtp, BackToEmail) => (RegistrationStart, None)
    case (Complete, Render) =>
      (if ok then RegistrationStart else s.(step := EnterEmail), Some(Register(s.pendingEmail, s.pendingPassword)))
    case _ => (s, None)
  }

  /** A call together with its success flag. */
  datatype Logged = Logged(call: AuthCall, ok: bool)

  /** Runs the tab over a sequence of events with their calls' success
      flags, and logs the calls made. */
  function RegistrationRuns(s: Registration, evs: seq<(RegEvent, bool)>): (r: (Registration, seq<Logged>))
    decreases |evs|
  {
    if |evs| == 0 then (s, [])
    else
      var (s1, call) := RegistrationRun(s, evs[0].0, evs[0].1);
      var logged := if call.Some? then [Logged(call.value, evs[0].1)] else [];
      var (last, rest) := RegistrationRuns(s1, evs[1..]);
      (last, logged + rest)
  }

  /** Past the first step the wizard holds the address and password it sent
      a code for, and the code was sent successfully; in the last step a
      code for that address has also been accepted. */
  ghost predicate RegistrationHistory(s: Registration, log: seq<Logged>) {
    && (s.step != EnterEmail ==>
          && s.pendingEmail.Some? && s.pendingPassword.Some?
          && exists j :: 0 <= j < |log| && log[j] == Logged(SendCode(s.pendingEmail), true))
    && (s.step == Complete ==>
          exists j, c :: 0 <= j < |log| && log[j] == Logged(CheckCode(s.pendingEmail, c), true))
  }

  /** One run keeps the history true of the extended log. */
  lemma RegistrationRunKeepsHistory(s: Registration, log: seq<Logged>, ev: RegEvent, ok: bool)
    requires RegistrationHistory(s, log)
    ensures var (s1, call) := RegistrationRun(s, ev, ok);
            RegistrationHistory(s1, log + (if call.Some? then [Logged(call.value, ok)] else []))
  {
    var (s1, call) := RegistrationRun(s, ev, ok);
    var log1 := log + (if call.Some? then [Logged(call.value, ok)] else []);
    assert forall j :: 0 <= j < |log| ==> log1[j] == log[j];
    if s1.step != EnterEmail && s.step == EnterEmail {
      assert log1[|log|] == Logged(SendCode(s1.pendingEmail), true);
    }
    if s1.step == Complete && s.step == EnterOtp {
      assert log1[|log|] == Logged(CheckCode(s1.pendingEmail, ev.code), true);
    }
  }

  /** Over a run of events the history is kept. */
  lemma {:induction false} RegistrationRunsKeepHistory(s: Registration, log: seq<Logged>, evs: seq<(RegEvent, bool)>)
    requires RegistrationHistory(s, log)
    ensures var (last, more) := RegistrationRuns(s, evs);
            RegistrationHistory(last, log + more)
    decreases |evs|
  {
    if |evs| > 0 {
      var (s1, call) := RegistrationRun(s, evs[0].0, evs[0].1);
      var logged := if call.Some? then [Logged(call.value, evs[0].1)] else [];
      RegistrationRunKeepsHistory(s, log, evs[0].0, evs[0].1);
      RegistrationRunsKeepHistory(s1, log + logged, evs[1..]);
      var (last, rest) := RegistrationRuns(s1, evs[1..]);
      assert log + logged + rest == log + (logged + rest);
    } else {
      assert log + [] == log;
    }
  }

  /** From the start, the wizard registers an address only after a code for
      that same address has been accepted. */
  lemma RegisterOnlyAfterCheckedCode(evs: seq<(RegEvent, bool)>, ev: RegEvent, ok: bool)
    ensures var (s, log) := RegistrationRuns(RegistrationStart, evs);
            var call := RegistrationRun(s, ev, ok).1;
            call.Some? && call.value.Register? ==>
              && call.value.pendingEmail.Some? && call.value.pendingPassword.Some?
              && exists j, c :: 0 <= j < |log| && log[j] == Logged(CheckCode(call.value.pendingEmail, c), true)
  {
    RegistrationRunsKeepHistory(RegistrationStart, [], evs);
    var (s, log) := RegistrationRuns(RegistrationStart, evs);
    assert [] + log == log;
  }

  // ------------------------------------------------------------------ password reset

  datatype ResetStep = ResetEmail | VerifyCode | NewPassword

  datatype PasswordReset = PasswordReset(step: ResetStep, resetEmail: Option<string>)

  const ResetStart: PasswordReset := PasswordReset(ResetEmail, None)

  /** The form events of the reset tab. The last step has no way back. */
  datatype ResetEvent =
    | SubmitResetEmail(email: string)
    | SubmitResetCode(code: string)
    | ResendResetCode
    | BackToResetEmail
    | SubmitNewPassword(password: string, confirm: string)

  /** One run of the reset tab, given the success flag `ok` of the account
      call it makes. */
  function ResetRun(s: PasswordReset, ev: ResetEvent, ok: bool): (r: (PasswordReset, Option<AuthCall>))
    ensures s.step == ResetEmail && ev.SubmitResetEmail? ==>
              && (r.1.Some? <==> ev.email != "")
              && (r.1.Some? ==> r.1.value == SendResetCode(Some(ev.email)))
              && r.0 == (if r.1.Some? && ok then PasswordReset(VerifyCode, Some(ev.email)) else s)
    ensures s.step == VerifyCode && ev.SubmitResetCode? ==>
              && (r.1.Some? <==> |ev.code| == CodeLength)
              && (r.1.Some? ==> r.1.value == CheckResetCode(s.resetEmail, ev.code))
              && r.0 == (if r.1.Some? && ok then s.(step := NewPassword) else s)
    ensures s.step == VerifyCode && ev.ResendResetCode? ==> r == (s, Some(SendResetCode(s.resetEmail)))
    ensures s.step == VerifyCode && ev.BackToResetEmail? ==> r == (ResetStart, None)
    ensures s.step == NewPassword && ev.SubmitNewPassword? ==>
              && (r.1.Some? <==> ev.password != "" && ev.confirm != "" && ev.password == ev.confirm)
              && (r.1.Some? ==> r.1.value == SetPassword(s.resetEmail, ev.password))
              && r.0 == (if r.1.Some? && ok then ResetStart else s)
    ensures (!((s.step == ResetEmail && ev.SubmitResetEmail?)
               || (s.step == VerifyCode && (ev.SubmitResetCode? || ev.ResendResetCode? || ev.BackToResetEmail?))
               || (s.step == NewPassword && ev.SubmitNewPassword?)))
            ==> r == (s, None)
  {
    match (s.step, ev)
    case (ResetEmail, SubmitResetEmail(email)) =>
      if email == "" then (s, None)
      else (if ok then PasswordReset(VerifyCode, Some(email)) else s, Some(SendResetCode(Some(email))))
    case (VerifyCode, SubmitResetCode(code)) =>
      if code == "" || |code| != CodeLength then (s, None)
      else (if ok then s.(step := NewPassword) else s, Some(CheckResetCode(s.resetEmail, code)))
    case (VerifyCode, ResendResetCode) => (s, Some(SendResetCode(s.resetEmail)))
    case (VerifyCode, BackToResetEmail) => (ResetStart, None)
    case (NewPassword, SubmitNewPassword(password, confirm)) =>
      if password == "" || confirm == "" then (s, None)
      else if password != confirm then (s, None)
      else (if ok then ResetStart else s, Some(SetPassword(s.resetEmail, password)))
    case _ => (s, None)
  }

  function ResetRuns(s: PasswordReset, evs: seq<(ResetEvent, bool)>): (r: (PasswordReset, seq<Logged>))
    decreases |evs|
  {
    if |evs| == 0 then (s, [])
    else
      var (s1, call) := ResetRun(s, evs[0].0, evs[0].1);
      var logged := if call.Some? then [Logged(call.value, evs[0].1)] else [];
      var (last, rest) := ResetRuns(s1, evs[1..]);
      (last, logged + rest)
  }

  /** Past the first step the wizard holds the address a reset code was
      sent to; in the last step a code for it has also been accepted. */
  ghost predicate ResetHistory(s: PasswordReset, log: seq<Logged>) {
    && (s.step != ResetEmail ==>
          && s.resetEmail.Some?
          && exists j :: 0 <= j < |log| && log[j] == Logged(SendResetCode(s.resetEmail), true))
    && (s.step == NewPassword ==>
          exists j, c :: 0 <= j < |log| && log[j] == Logged(CheckResetCode(s.resetEmail, c), true))
  }

  lemma ResetRunKeepsHistory(s: PasswordReset, log: seq<Logged>, ev: ResetEvent, ok: bool)
    requires ResetHistory(s, log)
    ensures var (s1, call) := ResetRun(s, ev, ok);
            ResetHistory(s1, log + (if call.Some? then [Logged(call.value, ok)] else []))
  {
    var (s1, call) := ResetRun(s, ev, ok);
    var log1 := log + (if call.Some? then [Logged(call.value, ok)] else []);
    assert forall j :: 0 <= j < |log| ==> log1[j] == log[j];
    if s1.step != ResetEmail && s.step == ResetEmail {
      assert log1[|log|] == Logged(SendResetCode(s1.resetEmail), true);
    }
    if s1.step == NewPassword && s.step == VerifyCode {
      assert log1[|log|] == Logged(CheckResetCode(s1.resetEmail, ev.code), true);
    }
  }

  lemma {:induction false} ResetRunsKeepHistory(s: PasswordReset, log: seq<Logged>, evs: seq<(ResetEvent, bool)>)
    requires ResetHistory(s, log)
    ensures var (last, more) := ResetRuns(s, evs);
            ResetHistory(last, log + more)
    decreases |evs|
  {
    if |evs| > 0 {
      var (s1, call) := ResetRun(s, evs[0].0, evs[0].1);
      var logged := if call.Some? then [Logged(call.value, evs[0].1)] else [];
      ResetRunKeepsHistory(s, log, evs[0].0, evs[0].1);
      ResetRunsKeepHistory(s1, log + logged, evs[1..]);
      var (last, rest) := ResetRuns(s1, evs[1..]);
      assert log + logged + rest == log + (logged + rest);
    } else {
      assert log + [] == log;
    }
  }

  /** From the start, the wizard submits a new password for an address only
      after a reset code for that same address has been accepted. */
  lemma SetPasswordOnlyAfterCheckedCode(evs: seq<(ResetEvent, bool)>, ev: ResetEvent, ok: bool)
    ensures var (s, log) := ResetRuns(ResetStart, evs);
            var call := ResetRun(s, ev, ok).1;
            call.Some? && call.value.SetPassword? ==>
              && call.value.resetEmail.Some?
              && exists j, c :: 0 <= j < |log| && log[j] == Logged(CheckResetCode(call.value.resetEmail, c), true)
  {
    ResetRunsKeepHistory(ResetStart, [], evs);
    var (s, log) := ResetRuns(ResetStart, evs);
    assert [] + log == log;
  }
}

=== FILE: wrappers.dfy ===
/** Failure-carrying result types shared by every module of the model.
    `Option` stands for Python's `None`-or-value and for "the external call
    raised"; `Result` stands for a value or a raised exception with its message. */
module Wrappers {

  datatype Option<+T> = None | Some(value: T)

  datatype Result<+T> = Success(value: T) | Failure(error: string)
}
